=== FILE: README.md ===
# vlSDK demo client — a Dafny model of its control layer

The demo (`vlsdk-demo-for-gumprodig`) is a thin C++ client around the opaque
vlSDK tracking engine. Its control layer sends JSON commands to a worker, waits
for their callbacks, brings a worker and a tracker up, drives a multi-camera
detector, collects listener flags, reads and writes extrinsic (pose) records,
and owns engine resources through `unique_ptr` handles. That layer is
sequential and deterministic once the engine's answers are fixed, and this
project models it.

The engine is an oracle. Every answer it gives (whether a command is accepted,
the callback strings, a wrapper pointer, an image size, a clock reading) is an
input of the operation that asks for it. Every operation returns the trace of
engine calls it made, in order. JSON values are structural (`JsonValue.Json`).
Where the code parses text, the outcome of the parse is an input
(`Engine.Payload`).

Modules, in dependency order:

- `Wrappers`: `Option` and `Result`.
- `JsonValue`: JSON values and the access semantics the code relies on. This covers the mutable and constant subscripts, `at`, `contains`, `size`, `get<T>` and the numeric array read.
- `Failures`: the exceptions. A JSON library exception is not a `std::runtime_error`, which matters for the `catch` clauses.
- `Handles`: `PointerHandler.h`.
- `Engine`: replies and calls.
- `Commands`: the command vocabulary.
- `CommandCell`: `GetJsonCommandResult`.
- `Polling`: `waitFor`.
- `SyncExec`: the blocking `executeSync` variants and the attribute helpers.
- `Startup`: the fixtures, `createSyncWorker`, `startTrackerSync` and `createTracker`/`runTracker`/`startTracker`.
- `Decimal`: `std::to_string` on indices.
- `Detector`: `MultiViewDetector.cpp`.
- `Extrinsics`: `ExtrinsicDataHelpers`.
- `TrackingResults`: `DataProcessingHelpers.cpp`.
- `FrameData`: `GetValidFrameData`.

## Model

| member | source | states |
|---|---|---|
| Handles.DeleteFunctor | Source/Helpers/PointerHandler.h:5-12 | the deleter makes one call, of the release function of its own kind, on exactly the pointer it is given |
| Handles.ReleasePairing | Source/Helpers/PointerHandler.h:14-44 | the six handle kinds and the six release functions are paired one to one: ByteBuffer with vlReleaseBinaryBuffer, Worker with vlDelete_Worker, and so on |
| Handles.ReleaseIfSet | Source/Helpers/PointerHandler.h:14-44 | a handle that gives up a pointer releases it once if it is non-null, and not at all if it is null |
| Handles.ConstructPreservesInv | Source/Helpers/PointerHandler.h:14-44 | constructing a handle around a pointer not yet acquired keeps the ownership invariant: each pointer held by at most one handle, held pointers unreleased, dropped ones released exactly once |
| Handles.ResetPreservesInv | Source/Helpers/PointerHandler.h:5-12 | `reset` with a pointer not yet acquired keeps the ownership invariant, the old non-null pointer being released by it |
| Handles.MoveConstructPreservesInv | Source/Helpers/PointerHandler.h:14-44 | move-construction keeps the ownership invariant: the pointer changes handle without being released or held twice |
| Handles.MoveAssignPreservesInv | Source/Helpers/PointerHandler.h:14-44 | move-assignment between handles of one kind keeps the ownership invariant, the target's old pointer being released by it |
| Handles.DestroyPreservesInv | Source/Helpers/PointerHandler.h:5-12 | destroying a handle keeps the ownership invariant, its non-null pointer now counted as released once |
| Handles.ApplyPreservesInv | Source/Helpers/PointerHandler.h:14-44 | construct, reset, move-construct, move-assign and destroy all preserve the ownership invariant: each pointer is held by at most one handle, a held pointer is unreleased, a dropped one is released exactly once, always with its own kind's function |
| Handles.RunPreservesInv | Source/Helpers/PointerHandler.h:14-44 | the invariant holds after any well-formed sequence of handle operations |
| Handles.ExactlyOnceRelease | Source/Helpers/PointerHandler.h:14-44 | after any sequence of handle operations, every acquired pointer no longer held has been released exactly once, by its own kind's function, and null is never released |
| Handles.HeldNeverReleased | Source/Helpers/PointerHandler.h:14-44 | a pointer still held by a handle has never been released |
| Engine.ReleaseCalls | Source/Helpers/PointerHandler.h:8-11 | destroying a handle issues one release call for a non-null pointer and none for null |
| JsonValue.Index | Source/MultiViewDetector.cpp:113-115 | the mutable subscript fails exactly on values that are neither objects nor null; otherwise it yields the member under the key, or null when the object lacks it or the value is null |
| JsonValue.At | Source/Helpers/ExtrinsicDataHelpers.cpp:42-44 | `at` succeeds exactly on an object holding the key, and then yields that member |
| JsonValue.AsDouble | Source/Helpers/HelperFunctions.h:232-233 | `get<double>()` succeeds exactly on a number and yields it; a boolean, unlike under `get<float>()`, is refused |
| JsonValue.AsNumbers | Source/Helpers/ExtrinsicDataHelpers.cpp:42-43 | reading `std::array<float, n>` succeeds exactly on an array with at least n numeric elements and yields the first n in order |
| JsonValue.NumbersRoundTrip | Source/Helpers/DataProcessingHelpers.cpp:73-77 | an array written from numbers reads back as the same numbers |
| Failures.Rethrow | Source/MultiViewDetector.cpp:74-92 | a `catch (std::runtime_error&)` rethrow prefixes runtime errors and lets JSON library errors pass through unchanged |
| Commands.Encode | Source/Helpers/GetJsonCommandResult.h:111-226 | each factory builds an object with its fixed `"name"`, plus a `"param"` member exactly for the commands that take parameters |
| Commands.DecodeEncode | Source/Helpers/GetJsonCommandResult.h:111-226 | every command is recognised again from the JSON it is built into |
| Commands.EncodeDecode | Source/Helpers/GetJsonCommandResult.h:111-226 | every JSON value that is recognised as a command is exactly the JSON that command builds |
| Commands.DecodeIffEncode | Source/Helpers/HelperFunctions.cpp:218-242 | decoding and encoding are inverse in both directions, so different commands never build the same JSON |
| Commands.EncodeNodeCommand | Source/MultiViewDetector.cpp:27-33 | a node command has exactly the members `nodeName` and `content`, and its content decodes to the wrapped command |
| Commands.ResetHardCommand | Source/MultiViewDetector.cpp:27-33 | the reset command is exactly `{"nodeName": trackerName, "content": {"name": "resetHard"}}` |
| CommandCell.NewCell | Source/Helpers/GetJsonCommandResult.h:100-108 | a fresh cell has received no callback, has empty error and result slots, no invocation error and nothing pushed |
| CommandCell.MakeCommand | Source/Helpers/GetJsonCommandResult.h:111-226 | a factory cell is fresh and carries the JSON of its command, which decodes back to the command |
| CommandCell.HandleCallback | Source/Helpers/GetJsonCommandResult.h:46-63 | a callback marks the cell as received; a null error clears the error slot and stores a non-null result, keeping the old result for a null one; a non-null error stores the error and clears the result |
| CommandCell.LastCallbackDecidesError | Source/Helpers/GetJsonCommandResult.h:50-62 | after several callbacks the error slot is that of the last one: empty after a null error |
| CommandCell.InvokeContract | Source/Helpers/GetJsonCommandResult.h:65-78 | one evaluation pushes the command exactly when it was not pushed before, fixes the invocation-error flag from that push only, then processes callbacks and polls events, and returns whether a callback has ever arrived |
| CommandCell.Invoke | Source/Helpers/GetJsonCommandResult.h:65-78 | after an evaluation the command counts as pushed, the cell keeps its worker and command, and the value returned is whether a callback has been received |
| CommandCell.PushedOnce | Source/Helpers/GetJsonCommandResult.h:65-78 | however often a fresh cell is evaluated, the command is pushed exactly once; the invocation error is the negation of the first push's success; evaluation i returns true exactly when a callback arrived in evaluations 0..i, so once true it stays true |
| CommandCell.AlreadyPushed | Source/Helpers/GetJsonCommandResult.h:67-73 | a pushed cell never pushes again and never changes its invocation-error flag |
| CommandCell.EvaluateSnoc | Source/Helpers/GetJsonCommandResult.h:65-78 | evaluating once more extends the run by exactly that evaluation's step |
| CommandCell.EvaluateCalls | Source/Helpers/GetJsonCommandResult.h:65-78 | a cell only ever pushes its own command, processes callbacks and polls events |
| Polling.WaitFor | Source/Helpers/HelperFunctions.h:110-125 | `waitFor` evaluates at least once; every evaluation before the last was false and found elapsed time below the timeout; the result is the last evaluation's answer; a false result comes with elapsed time at or above the timeout |
| Polling.WaitForLoop | Source/Helpers/HelperFunctions.h:110-125 | the do-while loop as written meets the same contract |
| Polling.ImmediateSuccess | Source/Helpers/HelperFunctions.h:115-120 | a predicate true at once makes `waitFor` return true after exactly one evaluation |
| Polling.ZeroTimeoutEvaluatesOnce | Source/Helpers/HelperFunctions.h:115-117 | with a timeout of zero or less the predicate is still evaluated, exactly once |
| Polling.EvaluationsBounded | Source/Helpers/HelperFunctions.h:115-124 | on a strictly increasing millisecond clock the loop makes at most max(1, timeout) evaluations |
| Polling.ClockAdvances | Source/Helpers/HelperFunctions.h:113-123 | a strictly increasing integer millisecond clock advances by at least n after n readings |
| Polling.NeverTrueTimesOut | Source/Helpers/HelperFunctions.h:115-124 | a predicate that never holds makes `waitFor` return false, and only once the timeout has elapsed |
| Polling.AnswersShift | Source/Helpers/HelperFunctions.h:115-120 | after the first evaluation, the remaining answers are those of the state it left |
| SyncExec.ErrorMessage | Source/Helpers/HelperFunctions.cpp:96-97 | reading `["message"]` as a string succeeds exactly on an object whose `"message"` member is a string, and yields that string; anything else is a JSON library failure |
| SyncExec.MessageError | Source/Helpers/HelperFunctions.cpp:205-208 | the error raised for a parsed error reply is the engine message exactly when the reply has a string `"message"`, carrying that text, and a JSON library failure otherwise |
| SyncExec.CommandError | Source/Helpers/HelperFunctions.cpp:94-97 | a non-empty error channel raises the engine message exactly when its text parses to an object with a string `"message"`, and that message is the member's text; a text that does not parse, or lacks such a member, raises a JSON library failure |
| SyncExec.ExecuteSync | Source/Helpers/HelperFunctions.cpp:76-100 | the text `executeSync` raises the invocation error naming the command exactly when the engine rejects it, whatever the error channel holds; an accepted command with a non-empty error raises exactly that channel's error (its message, or a JSON library failure); it succeeds exactly when the command is accepted with an empty error, returning the result channel verbatim, text and parse alike, with null read as `""` |
| SyncExec.ExecuteSyncRaisesMessage | Source/MultiViewDetector.cpp:35-59 | for every accepted command with a non-empty error text and any result, `execute` raises the reply's string `"message"` when there is one, and a JSON library failure when the text does not parse or has no such member |
| SyncExec.ExecuteBinarySync | Source/Helpers/HelperFunctions.cpp:178-216 | the binary variant sends one call with the command and the input bytes; it checks a parsed non-null error before the invocation flag; it fails with a JSON library failure when a channel does not parse; when the callback never ran it checks only the flag; on success it returns the parsed result with the output buffer and size and releases nothing; on a throw after the callback ran, the output buffer is released exactly as its handle releases it |
| SyncExec.OppositeCheckOrder | Source/Helpers/HelperFunctions.cpp:205-214 | for every rejected command whose callback reported an error with a string message and a parsable result, the text variant raises the invocation error and the binary variant raises that message |
| SyncExec.BinaryAgreesWithText | Source/Helpers/HelperFunctions.cpp:76-100 | on an accepted command whose error channel is null or a non-empty text other than `null`, and whose result parses, the binary variant succeeds exactly when the text variant does, raises the same error when it fails, and returns the parse of the text variant's result when both succeed |
| SyncExec.GetAttributeSync | Source/Helpers/HelperFunctions.cpp:161-167 | `getAttributeSync` returns the string `"value"` member of the result and otherwise raises; a failed command's error passes through |
| SyncExec.GetAttributeRoundTrip | Source/Helpers/HelperFunctions.cpp:161-167 | the command sent is `{"name":"getAttribute","param":{"att":name}}`; a reply `{"value":Y}` yields Y and an error reply `{"message":M}` raises M |
| SyncExec.SetAttributeSync | Source/Helpers/HelperFunctions.cpp:169-176 | `setAttributeSync` succeeds exactly when the `setAttribute` command does, and raises that command's error otherwise |
| Startup.NewFixture | Source/Helpers/HelperFunctions.cpp:102-148 | the trace is exactly the constructor call, then Start exactly when the worker is non-null, then the licence call with the given path exactly when a path was given and Start succeeded, each once and in that order, followed by the worker's release exactly on failure; each failure raises its own message, a null licence path sets no licence, and success returns the worker |
| Startup.StartTrackerSync | Source/Helpers/HelperFunctions.cpp:244-283 | it sends createTracker with `uri` for empty content and createTrackerFromString otherwise; the trace is exactly that command, then runTracking exactly when creation succeeded, then the running query exactly when both succeeded, each once; it returns false after a runtime error and true exactly when both commands succeed and the worker runs |
| Startup.CreateSyncWorker | Source/MultiViewDetector.cpp:61-95 | the trace is exactly creation, Start, then licence, createTracker, runTracking and the running query, each made exactly when every earlier step succeeded, followed by the worker's release exactly on failure; each failure raises its own message, create and run failures rethrown with their prefixes; success returns the worker |
| Startup.SyncSteps | Source/MultiViewDetector.cpp:63-92 | before the local handle goes out of scope the calls are exactly those of the steps reached, and none of them releases anything |
| Startup.CreateSyncWorkerAgreesWithStartTrackerSync | Source/MultiViewDetector.cpp:74-92 | on a started, licensed worker, the detector's start-up succeeds exactly when `startTrackerSync` with empty content returns true |
| Startup.PumpIsEvaluate | Source/Helpers/HelperFunctions.cpp:27-44 | n evaluations of the command cell under `waitFor` are the cell's run over the first n engine deliveries |
| Startup.AnswerIff | Source/Helpers/HelperFunctions.cpp:31-37 | the polled cell answers true exactly once some delivery up to now carried a callback |
| Startup.PumpError | Source/Helpers/GetJsonCommandResult.h:50-62 | when the last polled delivery carried callbacks, the cell's error is that of its last callback, empty after a null error |
| Startup.PumpCalls | Source/Helpers/HelperFunctions.cpp:27-44 | under polling the command is sent exactly once, as the first call |
| Startup.PolledStop | Source/Helpers/HelperFunctions.cpp:31-43 | `waitFor` on a fresh cell stops at the first delivery with callbacks, or times out when there are none |
| Startup.AwaitCommand | Source/Helpers/HelperFunctions.cpp:27-44 | `createTracker` succeeds exactly when a callback arrives within 15000 ms and the last callback's error is empty; it times out otherwise; the command is pushed exactly once, first |
| Startup.RunTrackerAsync | Source/Helpers/HelperFunctions.cpp:46-69 | `runTracker` polls runTracking exactly like `createTracker` (same evaluations) and succeeds exactly when that command was accepted and the worker reports running; the running query is made exactly when the command was accepted; runTracking is pushed once |
| Startup.CheckRunning | Source/Helpers/HelperFunctions.cpp:60-68 | the running query decides the outcome only after an accepted command and leaves the command's push count unchanged |
| Startup.StartTrackerAsync | Source/Helpers/HelperFunctions.cpp:71-74 | `startTracker` is true exactly when both phases are; createTracker is pushed once; runTracking is pushed once when creation succeeded and never otherwise |
| Decimal.NatToString | Source/MultiViewDetector.cpp:135 | an index is written as decimal digits with no leading zero |
| Decimal.ParseNatToString | Source/MultiViewDetector.cpp:156 | the written digits read back as the index |
| Decimal.IndexedKeyInjective | Source/MultiViewDetector.cpp:135-156 | keys made of a fixed prefix and an index are equal exactly when the indices are |
| Detector.ReadTopology | Source/MultiViewDetector.cpp:111-115 | the constructor reads `tracker.name` and `input.useImageSource` as strings and counts `tracker.parameters.trackingCameras` (modulo 2^32, null counting 0); any other shape is a JSON library failure |
| Detector.ReadTopologyOfConfig | Source/MultiViewDetector.cpp:111-115 | a configuration with a named tracker, an input and n cameras yields n cameras, or 0 when the parameters are absent |
| Detector.ConstructorBody | Source/MultiViewDetector.cpp:104-116 | the constructor first retrieves the file; a null buffer raises "Could not retrieve tracking configuration file from " + path; the buffer is released once when non-null; the worker is released exactly when the constructor fails |
| Detector.NewDetector | Source/MultiViewDetector.cpp:99-116 | the detector exists exactly when the worker start-up and the constructor body succeed; the worker is released once on any failure |
| Detector.ResetTracker | Source/MultiViewDetector.cpp:142-145 | `resetTracker` sends exactly the reset command to the tracker node and fails exactly as `execute` does |
| Detector.InjectFrame | Source/MultiViewDetector.cpp:147-163 | a frame whose size differs from the camera count raises the size message before any image is set; otherwise camera i is set under `injectImage_i` on the input node, in ascending order, until the first non-grey image raises "Given images are not GREY images" |
| Detector.InjectFrameLoop | Source/MultiViewDetector.cpp:147-163 | the counted loop as written computes the same outcome and calls |
| Detector.InjectKeysDistinct | Source/MultiViewDetector.cpp:154-162 | a successful injection sets every camera's image under its own key |
| Detector.RunDetection | Source/MultiViewDetector.cpp:118-127 | a detection fails with the reset's error and trace when the reset fails, and with the injection's error after the reset and injection traces when the injection fails; it succeeds exactly when both do, returning the engine's extrinsic pointer after the reset, the injections, one run of the tracker and the `"extrinsic"` query on the tracker node, in that order |
| Detector.DetectionsResetBetween | Source/MultiViewDetector.cpp:118-127 | across any number of detections, a reset always lies between a run of the tracker and the next injected image |
| Detector.ToCvMat | Source/Helpers/ImageHelpers.cpp:22-62 | a null wrapper, an empty size or an unsupported format raise their messages; otherwise the result is a 3-channel image of the same size |
| Detector.GetLineModelImages | Source/MultiViewDetector.cpp:130-140 | it succeeds exactly when every camera's image converts, returning one converted image per camera in camera order; the trace is the `imageLineModel_i` fetch on the tracker node and the wrapper's release for each camera in ascending order, up to and including the first image that cannot be converted, whose conversion error is raised |
| Detector.FetchRangeReleases | Source/MultiViewDetector.cpp:136-137 | every distinct non-null image wrapper fetched is released exactly once |
| Extrinsics.FromWrapper | Source/Helpers/ExtrinsicDataHelpers.cpp:7-32 | both wrapper conversions fail exactly on a null wrapper, with their own message, and otherwise copy the engine's three translation and four rotation components and the valid flag |
| Extrinsics.FromExtrinsicWrapper | Source/Helpers/ExtrinsicDataHelpers.cpp:7-18 | a null wrapper raises "extrinsicDataWrapper empty"; otherwise the pose holds the engine's t (3), r (4) and valid flag |
| Extrinsics.FromSimilarityWrapper | Source/Helpers/ExtrinsicDataHelpers.cpp:20-32 | a null wrapper raises "similarityTransformWrapper empty"; otherwise the pose holds the engine's t (3), r (4) and valid flag |
| Extrinsics.FromJson | Source/Helpers/ExtrinsicDataHelpers.cpp:34-46 | null raises "json extrinsic object empty"; success requires numeric arrays of at least 3 under `"t"` and 4 under `"r"`; `valid` is the boolean under `"valid"` when present and true otherwise; every other defect is a JSON library failure |
| Extrinsics.FromJsonWithoutValid | Source/Helpers/ExtrinsicDataHelpers.cpp:44 | a pose written without a `"valid"` member reads back valid, whatever its flag was |
| Extrinsics.FromJsonWithValid | Source/Helpers/ExtrinsicDataHelpers.cpp:42-44 | a pose written with its flag reads back unchanged |
| Extrinsics.Describe | Source/Helpers/ExtrinsicDataHelpers.h:23-32 | `describe` needs at least one element, starts with `[` and ends with `]` |
| Extrinsics.DescribeLoop | Source/Helpers/ExtrinsicDataHelpers.h:25-31 | the loop as written builds the same text |
| Extrinsics.DescribeIsJoin | Source/Helpers/ExtrinsicDataHelpers.h:26-31 | `describe` lists the formatted elements in index order, joined by `", "`, between brackets |
| Extrinsics.DescribeCommas | Source/Helpers/ExtrinsicDataHelpers.h:27-31 | with a number format that writes no comma, the text holds exactly size-1 commas |
| Extrinsics.ToString | Source/Helpers/ExtrinsicDataHelpers.cpp:48-54 | the block opens with `{` and the `"t"` line and closes with `}` on a line of its own |
| Extrinsics.ToStringValidity | Source/Helpers/ExtrinsicDataHelpers.cpp:48-54 | the block ends in `true` exactly for a valid pose and in `false` exactly for an invalid one |
| Extrinsics.ToStringIsLines | Source/Helpers/ExtrinsicDataHelpers.cpp:48-54 | the block is exactly five lines, each ended by a line break: `{`, `"t": ` with the described translation and a comma, `"q": ` with the described rotation and a comma (the rotation key is `q`, not the `r` of the JSON records), `"valid": ` with `true` or `false`, and `}` |
| Extrinsics.ToStringLines | Source/Helpers/ExtrinsicDataHelpers.cpp:48-54 | with a number format that writes no line break, the block has exactly five lines |
| TrackingResults.RecordKey | Source/Helpers/DataProcessingHelpers.cpp:3 | a record's key is its string `"imageFileName"` member; anything else is a JSON library failure |
| TrackingResults.ToHashMap | Source/Helpers/DataProcessingHelpers.cpp:14-29 | a value that is not an array raises "json argument is not an array", and that error is raised for nothing else |
| TrackingResults.CollectOutcome | Source/Helpers/DataProcessingHelpers.cpp:22-28 | reading succeeds exactly when every element has a key and a pose; otherwise it fails with the error of the first element that does not, its key being read before its pose |
| TrackingResults.CollectKeys | Source/Helpers/DataProcessingHelpers.cpp:23-27 | the map's keys are exactly the elements' keys |
| TrackingResults.CollectSize | Source/Helpers/DataProcessingHelpers.cpp:22-28 | the map is no larger than the array |
| TrackingResults.CollectSizeDistinct | Source/Helpers/DataProcessingHelpers.cpp:22-28 | the map is as large as the array when no two elements share a key |
| TrackingResults.CollectLastWins | Source/Helpers/DataProcessingHelpers.cpp:23-27 | each key holds the pose of the last element carrying it |
| TrackingResults.CollectRecords | Source/Helpers/DataProcessingHelpers.cpp:22-28 | reading the records written for a list of keys gives each key its pose made valid |
| TrackingResults.RecordFields | Source/Helpers/DataProcessingHelpers.cpp:70-77 | a written record has exactly the members `imageFileName`, `t` and `r`, and no `valid` |
| TrackingResults.RecordReadsBack | Source/Helpers/DataProcessingHelpers.cpp:70-77 | a written record reads back as its name and its pose made valid |
| TrackingResults.WrittenAsIs | Source/Helpers/DataProcessingHelpers.cpp:66-79 | as written, the dumped value is `null` for an empty map and the array of records otherwise |
| TrackingResults.EmptyMapDoesNotReadBack | Source/Helpers/DataProcessingHelpers.cpp:66-79 | as written, an empty map is written as `null`, which reading rejects as not an array; an empty array would read back as the empty map |
| TrackingResults.Written | Source/Helpers/DataProcessingHelpers.cpp:66-79 | with results started as an array, one record per map entry, in the map's iteration order |
| TrackingResults.WrittenAsIsNonEmpty | Source/Helpers/DataProcessingHelpers.cpp:66-79 | for a non-empty map the as-written value and the corrected one coincide |
| TrackingResults.WriteReadRoundTrip | Source/Helpers/DataProcessingHelpers.cpp:62-84 | for a map of finite poses, writing it and reading it back yields the same keys, translations and rotations, with every pose valid |
| TrackingResults.LastIndex | Source/Helpers/DataProcessingHelpers.cpp:52 | the position of the last occurrence of a character, or none when it does not occur |
| TrackingResults.LoadTrackingResults | Source/Helpers/DataProcessingHelpers.cpp:48-60 | a missing path, a missing file or an extension other than `.json` raises "No JSON file with extrinsics found in the image sequence directory", and nothing else raises it; past that guard an unparsable file is a JSON library failure and a parsed one is read as records |
| TrackingResults.LoadWrittenResults | Source/Helpers/DataProcessingHelpers.cpp:48-84 | a map of finite poses written by the corrected writer to an existing `name.json` file loads back as the same keys with every pose made valid, the file's text parsing back to the value dumped |
| TrackingResults.FileName | Source/Helpers/DataProcessingHelpers.cpp:52 | the file name is a suffix of the path holding no separator, preceded by a separator whenever it is shorter than the path |
| TrackingResults.Extension | Source/Helpers/DataProcessingHelpers.cpp:52 | a non-empty extension starts with a period, is a proper suffix of the path, and holds no separator and no other period |
| TrackingResults.NameExtension | Source/Helpers/DataProcessingHelpers.cpp:52 | a file name has no extension exactly when it is `..` or has no period after its first character; otherwise the extension is a period-led proper suffix with no other period |
| TrackingResults.JsonExtension | Source/Helpers/DataProcessingHelpers.cpp:51-52 | a file `name.json` with a non-empty name has the extension `.json`, in any directory |
| TrackingResults.HiddenJsonRefused | Source/Helpers/DataProcessingHelpers.cpp:51-56 | a file named just `.json` has no extension and is refused |
| FrameData.New | Source/Helpers/HelperFunctions.h:176-188 | a new object has every flag down and zero readings, keeps the given required set, and adds its four listeners to the engine's table |
| FrameData.Copy | Source/Helpers/HelperFunctions.h:160-174 | a copy keeps the worker, the three validity flags and the required set, resets the received-extrinsic flag, the time stamp and the quality, and registers its own four listeners |
| FrameData.Destroy | Source/Helpers/HelperFunctions.h:190-199 | destruction removes only registrations of this object |
| FrameData.ConstructDestroyBalanced | Source/Helpers/HelperFunctions.h:167-198 | constructing an object, fresh or copied, and then destroying it leaves the engine's listener table unchanged |
| FrameData.CopyOutlivesOriginal | Source/Helpers/HelperFunctions.h:160-199 | destroying the original leaves the copy's listeners registered |
| FrameData.Handle | Source/Helpers/HelperFunctions.h:201-227 | the image flag rises only for a non-empty image; the received-extrinsic flag rises for non-null data, independently of the valid-extrinsic flag, which follows the engine's valid bit; the intrinsic flag rises for a non-null wrapper; no handler lowers a flag |
| FrameData.HandleTrackingState | Source/Helpers/HelperFunctions.h:229-234 | the handler succeeds exactly when the first tracked object has numbers under `timeStamp` and `quality`, storing them; a failure on the quality leaves the new time stamp in place, a failure on the time stamp changes nothing; the failure is a JSON library failure and no other field changes |
| FrameData.TrackedNumber | Source/Helpers/HelperFunctions.h:231-233 | a reading exists exactly when the first tracked object is an object holding a number under the key, and is that number |
| FrameData.BooleanTimeStampRefused | Source/Helpers/HelperFunctions.h:232 | a boolean time stamp makes the handler fail and keep the previous readings |
| FrameData.Deliver | Source/Helpers/HelperFunctions.h:201-234 | delivering events never changes the worker or the required set, and raises no error when no tracking-state event is among them |
| FrameData.DeliverKeepsFlags | Source/Helpers/HelperFunctions.h:201-227 | whatever the engine delivers, the flags only ever rise |
| FrameData.DeliverRaisesImage | Source/Helpers/HelperFunctions.h:203-206 | a delivered non-empty image leaves the image flag raised |
| FrameData.Ready | Source/Helpers/HelperFunctions.h:240-247 | readiness is image ∧ intrinsic ∧ valid extrinsic for the default set and image ∧ intrinsic for `Image_IntrinsicData` |
| FrameData.Evaluate | Source/Helpers/HelperFunctions.h:236-248 | `operator()` polls the engine once, the polled events are handled before the answer, and the answer is the readiness of the resulting flags |
| FrameData.StaysReady | Source/Helpers/HelperFunctions.h:236-248 | once ready, an object stays ready on every later evaluation |
| FrameData.RequiredSetsDiffer | Source/Helpers/HelperFunctions.h:240-247 | for every set of flags, readiness under the default set implies readiness under `Image_IntrinsicData`, and the two disagree exactly for an image and intrinsics without valid extrinsic data |

## Left out

- The engine itself: its internals, threads and callback trampolines (`dispatchCallback`, the `dispatch*Event` functions) are left out. Handlers are called directly with what the engine would pass.
- The `NullCallbackHandler` template parameter is left out, because it does nothing.
- Time and sleeping are left out. `waitFor`'s clock is an input sequence of readings. The 1 ms sleep in `GetValidFrameData::operator()` only makes readings increase, which is assumed of the clock.
- JSON text is not modelled: `dump` and `parse` are absent, and a parse outcome is an input. The library's distinction between integer and floating numbers is also not modelled.
- Floating point is not modelled. Components are reals, so the rounding to `float` is ignored, and there is no NaN or infinity. The decimal text `std::to_string` gives a number is a parameter of `describe`.
- TrackingResults.WriteReadRoundTrip and TrackingResults.LoadWrittenResults: hold for finite poses only. In the source, `dump` writes a NaN or infinite component as `null`, which `get<float>()` then refuses, so a results file holding such a pose does not load; with real components the model has no such values.
- JsonValue.At: a missing key under the constant `operator[]` is undefined behaviour in the JSON library. The model treats it as the library failure that `at` raises.
- The wording of the invocation error ("Command ... could not be processed ...") is not modelled. It is represented as `Invocation(command)`.
- `std::runtime_error` messages that embed a caught error's text are represented as `Prefixed(prefix, cause)`, not as concatenated strings.
- The worker pointer argument of each engine call is left out, because every trace concerns one worker.
- The getter calls `toCVMat` makes on an image wrapper are left out, and so is the pixel copy. Images are the size and format the engine reports.
- `toVLImageGrey` (Source/Helpers/ImageHelpers.cpp:10-20) is modelled only as its channel check. The wrapper it creates and releases is left out.
- The getters of `GetJsonCommandResult` and `GetValidFrameData` are plain field reads of the modelled state.
- The `toString` template of HelperFunctions.h is console formatting and is left out. So are `operator<<`, `loadFrame` and `writeImage`.
- File I/O is left out. Whether the results file exists and its parse outcome are inputs. `create_directories` and the writing of the dumped text are left out.
- The path handling in `loadTrackingResults` models `extension()` on POSIX paths. Root names and Windows separators are left out.
- The visualisation code, the demo `main`, `resolveFilePath`, `didTrackSync`, `tracksInFramesSync`, `countTrackedFramesSync` and Source/Extrinsic.cpp are not part of this model. `runDetection` returns the wrapper pointer that the `Extrinsic` class would take over.
- Startup.CreateTrackerAsync carries no contract of its own. It is `AwaitCommand` on the createTracker command, whose contract covers it.
- FrameData.HandleTrackingState: an exception escaping a listener through the engine's C interface is undefined behaviour. The model ends the delivery at that event and reports the error.
- SyncExec.ExecuteBinarySync: a parse exception thrown inside the engine's callback escapes through the engine's C interface, which is undefined behaviour. The model raises a JSON library failure and releases nothing, because the pair owning the buffer was not built.
- Extrinsics.Describe: `describe` on an empty array computes `size - 1` on an unsigned size. That case is excluded by precondition rather than modelled as the out-of-bounds read it would be.

## Findings

| source | as written | input that shows it | evidently intended | confidence | as-written member | corrected member |
|---|---|---|---|---|---|---|
| Source/Helpers/DataProcessingHelpers.cpp:66-83 | `results` starts as a default-constructed (null) JSON value, and only `push_back` turns it into an array | an empty map of extrinsics: the file holds `null`, and `loadTrackingResults` on that file raises "json argument is not an array" | an empty map is written as `[]` and reads back as the empty map | medium; not executed | TrackingResults.WrittenAsIs, TrackingResults.EmptyMapDoesNotReadBack | TrackingResults.Written, TrackingResults.WriteReadRoundTrip |

=== FILE: command_cell.dfy ===
/** The asynchronous command cell `GetJsonCommandResult`
    (Source/Helpers/GetJsonCommandResult.h): a command that is pushed to the
    worker lazily, on the first evaluation, and whose callback fills an error
    and a result slot.  The callback handler template argument is the default
    `NullCallbackHandler`, which does nothing; the callback trampoline is
    replaced by calling `HandleCallback` directly. */
module CommandCell {
  import opened Wrappers
  import opened JsonValue
  import opened Handles
  import opened Commands
  import opened Engine

  /** The arguments of one callback: the error and result C strings, `None`
      standing for a null pointer. */
  datatype Callback = Callback(error: Option<string>, result: Option<string>)

  datatype Cell = Cell(
    worker: Ptr,
    data: Json,
    gotResult: bool,
    invocationError: bool,
    error: string,
    result: string,
    commandPushed: bool)

  /** `GetJsonCommandResult(worker, data)`: nothing pushed, no callback seen,
      both slots empty and no invocation error. */
  function NewCell(worker: Ptr, data: Json): (c: Cell)
    ensures c.worker == worker && c.data == data
    ensures !c.gotResult && !c.invocationError && !c.commandPushed
    ensures c.error == [] && c.result == []
  {
    Cell(worker, data, false, false, [], [], false)
  }

  /** The `make*Command` factories: a fresh cell whose command text is the
      JSON built for `command`. */
  function MakeCommand(worker: Ptr, command: Command): (c: Cell)
    ensures c.data == Encode(command) && Decode(c.data) == Some(command)
    ensures c == NewCell(worker, c.data)
  {
    DecodeEncode(command);
    NewCell(worker, Encode(command))
  }

  /** `handleCallback(error, result)`: marks the callback as received; a null
      error clears the error slot and stores a non-null result, leaving the
      previous result in place for a null one; a non-null error clears the
      result slot and stores the error. */
  function HandleCallback(c: Cell, cb: Callback): (c': Cell)
    ensures c'.gotResult
    ensures cb.error.None? ==> c'.error == [] && c'.result == cb.result.GetOr(c.result)
    ensures cb.error.Some? ==> c'.error == cb.error.value && c'.result == []
    ensures c' == c.(gotResult := c'.gotResult, error := c'.error, result := c'.result)
  {
    match cb.error
    case None => c.(gotResult := true, error := [], result := if cb.result.Some? then cb.result.value else c.result)
    case Some(e) => c.(gotResult := true, result := [], error := e)
  }

  /** Handles the callbacks in the order the engine dispatches them. */
  function HandleAll(c: Cell, cbs: seq<Callback>): (c': Cell)
    decreases |cbs|
  {
    if cbs == [] then c else HandleAll(HandleCallback(c, cbs[0]), cbs[1..])
  }

  /** The engine's side of one evaluation: whether it accepts the command if
      this evaluation pushes it, and the callbacks it dispatches when the
      evaluation processes callbacks. */
  datatype Delivery = Delivery(pushAccepted: bool, callbacks: seq<Callback>)

  /** One evaluation: the cell afterwards, what `operator()` returned and the
      engine calls it made. */
  datatype Step = Step(cell: Cell, ready: bool, calls: seq<Call>)

  /** `operator()`: pushes the command if it has not been pushed yet (fixing
      the invocation-error flag from the push's success), processes callbacks,
      polls events and returns whether a callback has been received. */
  function Invoke(c: Cell, d: Delivery): (st: Step)
    ensures st.cell.commandPushed && st.cell.data == c.data && st.cell.worker == c.worker
    ensures st.ready == st.cell.gotResult
  {
    var pushed := if c.commandPushed then c else c.(invocationError := !d.pushAccepted, commandPushed := true);
    var push := if c.commandPushed then [] else [PushJsonCommand(c.data)];
    var handled := HandleAll(pushed, d.callbacks);
    HandleAllKeeps(pushed, d.callbacks);
    Step(handled, handled.gotResult, push + [ProcessCallbacks, PollEvents])
  }

  lemma {:induction false} HandleAllKeeps(c: Cell, cbs: seq<Callback>)
    ensures var c' := HandleAll(c, cbs);
      && c'.worker == c.worker && c'.data == c.data
      && c'.invocationError == c.invocationError && c'.commandPushed == c.commandPushed
      && c'.gotResult == (c.gotResult || cbs != [])
    decreases |cbs|
  {
    if cbs != [] {
      HandleAllKeeps(HandleCallback(c, cbs[0]), cbs[1..]);
    }
  }

  /** The last callback decides the error slot: empty after a null error,
      the error text otherwise. */
  lemma {:induction false} LastCallbackDecidesError(c: Cell, cbs: seq<Callback>)
    requires cbs != []
    ensures HandleAll(c, cbs).error == cbs[|cbs| - 1].error.GetOr([])
    decreases |cbs|
  {
    if |cbs| > 1 {
      LastCallbackDecidesError(HandleCallback(c, cbs[0]), cbs[1..]);
    }
  }

  /** One evaluation pushes the command exactly when it was not pushed before;
      afterwards it is pushed; the invocation-error flag is set from the push
      when the push happens and kept otherwise; the result is true exactly
      when a callback has been received, now or earlier. */
  lemma InvokeContract(c: Cell, d: Delivery)
    ensures var st := Invoke(c, d);
      && st.cell.commandPushed
      && st.cell.data == c.data && st.cell.worker == c.worker
      && (c.commandPushed ==> st.cell.invocationError == c.invocationError && st.calls == [ProcessCallbacks, PollEvents])
      && (!c.commandPushed ==> st.cell.invocationError == !d.pushAccepted
                               && st.calls == [PushJsonCommand(c.data), ProcessCallbacks, PollEvents])
      && st.ready == st.cell.gotResult
      && (st.ready <==> c.gotResult || d.callbacks != [])
  {
    var pushed := if c.commandPushed then c else c.(invocationError := !d.pushAccepted, commandPushed := true);
    HandleAllKeeps(pushed, d.callbacks);
  }

  /** Repeated evaluations with the engine's successive deliveries: the final
      cell, the values returned by each evaluation and the engine calls made. */
  datatype Run = Run(cell: Cell, returned: seq<bool>, calls: seq<Call>)

  function Evaluate(c: Cell, ds: seq<Delivery>): (r: Run)
    ensures |r.returned| == |ds|
    decreases |ds|
  {
    if ds == [] then Run(c, [], [])
    else
      var st := Invoke(c, ds[0]);
      var rest := Evaluate(st.cell, ds[1..]);
      Run(rest.cell, [st.ready] + rest.returned, st.calls + rest.calls)
  }

  /** However often a fresh cell is evaluated, its command is pushed exactly
      once (on the first evaluation), the invocation error is the negation of
      that push's success, and the i-th evaluation returns true exactly when
      some callback arrived during evaluations 0..i — so once true it stays true. */
  lemma {:induction false} PushedOnce(c: Cell, ds: seq<Delivery>)
    requires !c.commandPushed && !c.gotResult
    requires ds != []
    ensures var r := Evaluate(c, ds);
      && Occurrences(r.calls, PushJsonCommand(c.data)) == 1
      && r.cell.invocationError == !ds[0].pushAccepted
      && (forall i :: 0 <= i < |ds| ==> (r.returned[i] <==> exists j :: 0 <= j <= i && ds[j].callbacks != []))
  {
    var st := Invoke(c, ds[0]);
    InvokeContract(c, ds[0]);
    AlreadyPushed(st.cell, ds[1..], c.data);
    var rest := Evaluate(st.cell, ds[1..]);
    var r := Evaluate(c, ds);
    assert r.calls == st.calls + rest.calls;
    OccurrencesAppend(st.calls, rest.calls, PushJsonCommand(c.data));
    OccurrencesAbsent(rest.calls, PushJsonCommand(c.data));
    FirstPushCounted(c.data);
    forall i | 0 <= i < |ds|
      ensures r.returned[i] <==> exists j :: 0 <= j <= i && ds[j].callbacks != []
    {
      if i > 0 {
        assert r.returned[i] == rest.returned[i - 1];
        if st.cell.gotResult {
          assert ds[0].callbacks != [];
        } else {
          ShiftWitness(ds, i);
        }
      }
    }
  }

  /** The first evaluation's calls hold its push exactly once. */
  lemma FirstPushCounted(data: Json)
    ensures Occurrences([PushJsonCommand(data), ProcessCallbacks, PollEvents], PushJsonCommand(data)) == 1
  {
    var push := PushJsonCommand(data);
    var trace := [push, ProcessCallbacks, PollEvents];
    assert trace[..|trace| - 1] == [push, ProcessCallbacks];
    assert [push, ProcessCallbacks][..1] == [push];
    assert [push][..0] == [];
    assert Occurrences([push], push) == 1;
    assert Occurrences([push, ProcessCallbacks], push) == 1;
  }

  /** When the first delivery carries no callbacks, a delivery with callbacks
      among the first `i + 1` is one among the first `i` of the rest. */
  lemma ShiftWitness(ds: seq<Delivery>, i: nat)
    requires 0 < i < |ds| && ds[0].callbacks == []
    ensures (exists j :: 0 <= j <= i && ds[j].callbacks != [])
        <==> (exists j :: 0 <= j <= i - 1 && ds[1..][j].callbacks != [])
  {
    if exists j :: 0 <= j <= i && ds[j].callbacks != [] {
      var j :| 0 <= j <= i && ds[j].callbacks != [];
      assert ds[1..][j - 1] == ds[j];
    }
    if exists j :: 0 <= j <= i - 1 && ds[1..][j].callbacks != [] {
      var j :| 0 <= j <= i - 1 && ds[1..][j].callbacks != [];
      assert ds[j + 1] == ds[1..][j];
    }
  }

  /** Once pushed, evaluating a cell never pushes again and never changes the
      invocation-error flag; returned values are the received flag, which
      only ever becomes true. */
  lemma {:induction false} AlreadyPushed(c: Cell, ds: seq<Delivery>, data: Json)
    requires c.commandPushed && c.data == data
    ensures var r := Evaluate(c, ds);
      && PushJsonCommand(data) !in r.calls
      && r.cell.invocationError == c.invocationError
      && r.cell.commandPushed && r.cell.data == data
      && (c.gotResult ==> r.cell.gotResult && forall i :: 0 <= i < |ds| ==> r.returned[i])
      && (!c.gotResult ==> forall i :: 0 <= i < |ds| ==>
            (r.returned[i] <==> exists j :: 0 <= j <= i && ds[j].callbacks != []))
    decreases |ds|
  {
    if ds != [] {
      var st := Invoke(c, ds[0]);
      InvokeContract(c, ds[0]);
      AlreadyPushed(st.cell, ds[1..], data);
      var rest := Evaluate(st.cell, ds[1..]);
      var r := Evaluate(c, ds);
      if !c.gotResult {
        forall i | 0 <= i < |ds|
          ensures r.returned[i] <==> exists j :: 0 <= j <= i && ds[j].callbacks != []
        {
          if i > 0 {
            assert r.returned[i] == rest.returned[i - 1];
            if !st.cell.gotResult {
              ShiftWitness(ds, i);
            }
          }
        }
      }
    }
  }

  /** Evaluating one more time extends the run by that evaluation's step. */
  lemma {:induction false} EvaluateSnoc(c: Cell, ds: seq<Delivery>, d: Delivery)
    ensures var r := Evaluate(c, ds);
      var st := Invoke(r.cell, d);
      Evaluate(c, ds + [d]) == Run(st.cell, r.returned + [st.ready], r.calls + st.calls)
    decreases |ds|
  {
    if ds == [] {
      assert [] + [d] == [d];
    } else {
      var st0 := Invoke(c, ds[0]);
      assert (ds + [d])[0] == ds[0];
      assert (ds + [d])[1..] == ds[1..] + [d];
      EvaluateSnoc(st0.cell, ds[1..], d);
    }
  }

  /** A cell only ever pushes its own command, processes callbacks and polls events. */
  lemma {:induction false} EvaluateCalls(c: Cell, ds: seq<Delivery>)
    ensures forall call :: call in Evaluate(c, ds).calls ==>
      call == PushJsonCommand(c.data) || call == ProcessCallbacks || call == PollEvents
    decreases |ds|
  {
    if ds != [] {
      InvokeContract(c, ds[0]);
      EvaluateCalls(Invoke(c, ds[0]).cell, ds[1..]);
    }
  }
}

=== FILE: commands.dfy ===
/** The JSON command vocabulary: the `make*Command` factories of
    Source/Helpers/GetJsonCommandResult.h, the command-string builders of
    Source/Helpers/HelperFunctions.cpp and Source/MultiViewDetector.cpp, and a
    decoder that recognises exactly the commands they build. */
module Commands {
  import opened Wrappers
  import opened JsonValue

  /** The commands the code issues.  `ResetHard` is only sent node-scoped. */
  datatype Command =
    | CreateTracker(uri: string)
    | CreateTrackerFromString(str: string, fakeFilename: string)
    | RunTracking
    | RunTrackingOnce
    | GetAttribute(att: string)
    | SetAttribute(att: string, val: string)
    | GetModelProperties
    | RemoveAllModels
    | AddModel(model: Json)
    | SetModelProperties(properties: Json)
    | SetModelPropertiesForAll(properties: Json)
    | SetMultipleModelProperties(models: Json)
    | ResetHard

  /** The `"name"` each command carries. */
  function Name(c: Command): string {
    match c
    case CreateTracker(_) => "createTracker"
    case CreateTrackerFromString(_, _) => "createTrackerFromString"
    case RunTracking => "runTracking"
    case RunTrackingOnce => "runTrackingOnce"
    case GetAttribute(_) => "getAttribute"
    case SetAttribute(_, _) => "setAttribute"
    case GetModelProperties => "getModelProperties"
    case RemoveAllModels => "removeAllModels"
    case AddModel(_) => "addModel"
    case SetModelProperties(_) => "setModelProperties"
    case SetModelPropertiesForAll(_) => "setModelPropertiesForAll"
    case SetMultipleModelProperties(_) => "setMultipleModelProperties"
    case ResetHard => "resetHard"
  }

  /** Commands built without a `"param"` member. */
  predicate ParameterLess(c: Command) {
    c.RunTracking? || c.RunTrackingOnce? || c.GetModelProperties? || c.RemoveAllModels? || c.ResetHard?
  }

  /** The `"param"` member of a command that has one. */
  function Param(c: Command): Json
    requires !ParameterLess(c)
  {
    match c
    case CreateTracker(uri) => Obj(map["uri" := Str(uri)])
    case CreateTrackerFromString(str, fakeFilename) =>
      Obj(map["str" := Str(str), "fakeFilename" := Str(fakeFilename)])
    case GetAttribute(att) => Obj(map["att" := Str(att)])
    case SetAttribute(att, val) => Obj(map["att" := Str(att), "val" := Str(val)])
    case AddModel(model) => model
    case SetModelProperties(properties) => properties
    case SetModelPropertiesForAll(properties) => properties
    case SetMultipleModelProperties(models) => Obj(map["models" := models])
  }

  /** The JSON object a factory builds: `"name"`, and `"param"` when the
      command has parameters. */
  function Encode(c: Command): (r: Json)
    ensures r.Obj? && "name" in r.fields && r.fields["name"] == Str(Name(c))
    ensures "param" in r.fields <==> !ParameterLess(c)
    ensures r.fields.Keys <= {"name", "param"}
  {
    if ParameterLess(c) then Obj(map["name" := Str(Name(c))])
    else Obj(map["name" := Str(Name(c)), "param" := Param(c)])
  }

  /** A string-valued object with exactly the given keys. */
  predicate StringMembers(j: Json, keys: set<string>) {
    j.Obj? && j.fields.Keys == keys && forall k :: k in keys ==> j.fields[k].Str?
  }

  /** Recognises a parameter object for the command named `name`. */
  function DecodeParam(name: string, p: Json): Option<Command> {
    if name == "createTracker" && StringMembers(p, {"uri"}) then
      Some(CreateTracker(p.fields["uri"].s))
    else if name == "createTrackerFromString" && StringMembers(p, {"str", "fakeFilename"}) then
      Some(CreateTrackerFromString(p.fields["str"].s, p.fields["fakeFilename"].s))
    else if name == "getAttribute" && StringMembers(p, {"att"}) then
      Some(GetAttribute(p.fields["att"].s))
    else if name == "setAttribute" && StringMembers(p, {"att", "val"}) then
      Some(SetAttribute(p.fields["att"].s, p.fields["val"].s))
    else if name == "addModel" then Some(AddModel(p))
    else if name == "setModelProperties" then Some(SetModelProperties(p))
    else if name == "setModelPropertiesForAll" then Some(SetModelPropertiesForAll(p))
    else if name == "setMultipleModelProperties" && p.Obj? && p.fields.Keys == {"models"} then
      Some(SetMultipleModelProperties(p.fields["models"]))
    else None
  }

  /** Recognises a command name that is sent without parameters. */
  function DecodeBare(name: string): Option<Command> {
    if name == "runTracking" then Some(RunTracking)
    else if name == "runTrackingOnce" then Some(RunTrackingOnce)
    else if name == "getModelProperties" then Some(GetModelProperties)
    else if name == "removeAllModels" then Some(RemoveAllModels)
    else if name == "resetHard" then Some(ResetHard)
    else None
  }

  /** The command a JSON value spells, if it is exactly one the factories build. */
  function Decode(j: Json): Option<Command> {
    if !j.Obj? || "name" !in j.fields || !j.fields["name"].Str? then None
    else if j.fields.Keys == {"name"} then DecodeBare(j.fields["name"].s)
    else if j.fields.Keys == {"name", "param"} then DecodeParam(j.fields["name"].s, j.fields["param"])
    else None
  }

  /** Every command is recognised from the JSON it is built into. */
  lemma DecodeEncode(c: Command)
    ensures Decode(Encode(c)) == Some(c)
  {
    var j := Encode(c);
    if ParameterLess(c) {
      assert j.fields.Keys == {"name"};
    } else {
      assert j.fields.Keys == {"name", "param"};
    }
  }

  lemma {:induction false} EncodeDecode(j: Json)
    requires Decode(j).Some?
    ensures Encode(Decode(j).value) == j
  {
    var c := Decode(j).value;
    var n := j.fields["name"];
    if j.fields.Keys == {"name"} {
      assert j.fields == map["name" := n];
    } else {
      var p := j.fields["param"];
      assert j.fields == map["name" := n, "param" := p];
      if c.CreateTracker? {
        assert p.fields == map["uri" := p.fields["uri"]];
      } else if c.CreateTrackerFromString? {
        assert p.fields == map["str" := p.fields["str"], "fakeFilename" := p.fields["fakeFilename"]];
      } else if c.GetAttribute? {
        assert p.fields == map["att" := p.fields["att"]];
      } else if c.SetAttribute? {
        assert p.fields == map["att" := p.fields["att"], "val" := p.fields["val"]];
      } else if c.SetMultipleModelProperties? {
        assert p.fields == map["models" := p.fields["models"]];
      }
    }
  }

  /** Decoding is the exact inverse of encoding: a JSON value decodes to `c`
      if and only if it is the value built for `c`.  In particular two
      different commands are never built into the same JSON. */
  lemma DecodeIffEncode(j: Json, c: Command)
    ensures Decode(j) == Some(c) <==> Encode(c) == j
  {
    DecodeEncode(c);
    if Decode(j) == Some(c) {
      EncodeDecode(j);
    }
  }

  /** A command addressed to one node of the engine's graph:
      `{"nodeName": node, "content": <command>}`. */
  function EncodeNodeCommand(node: string, c: Command): (r: Json)
    ensures r.Obj? && r.fields.Keys == {"nodeName", "content"}
    ensures r.fields["nodeName"] == Str(node) && Decode(r.fields["content"]) == Some(c)
  {
    DecodeEncode(c);
    Obj(map["nodeName" := Str(node), "content" := Encode(c)])
  }

  /** `getResetHardCommand(trackerName)`: `{"nodeName": trackerName,
      "content": {"name": "resetHard"}}`. */
  function ResetHardCommand(trackerName: string): (r: Json)
    ensures r == Obj(map["nodeName" := Str(trackerName), "content" := Obj(map["name" := Str("resetHard")])])
  {
    EncodeNodeCommand(trackerName, ResetHard)
  }

  /** The tracker-creation command `startTrackerSync` sends: from a file path
      when no content is given, otherwise from the inline content under the
      path as its fake file name. */
  function CreateTrackerCommandFor(trackerPath: string, trackerContent: string): Command {
    if trackerContent == [] then CreateTracker(trackerPath)
    else CreateTrackerFromString(trackerContent, trackerPath)
  }
}

=== FILE: decimal.dfy ===
/** `std::to_string` on unsigned values: the decimal digits, most significant
    first, without sign or leading zeros. */
module Decimal {

  function DigitChar(d: nat): (c: char)
    requires d < 10
    ensures '0' <= c <= '9'
  {
    "0123456789"[d]
  }

  function DigitValue(c: char): (d: nat)
    requires '0' <= c <= '9'
    ensures d < 10
  {
    (c as int - '0' as int) as nat
  }

  lemma DigitRoundTrip(d: nat)
    requires d < 10
    ensures DigitValue(DigitChar(d)) == d
  {
  }

  predicate IsDigits(s: string) {
    forall i :: 0 <= i < |s| ==> '0' <= s[i] <= '9'
  }

  function NatToString(n: nat): (s: string)
    ensures |s| >= 1 && IsDigits(s)
    ensures |s| > 1 ==> s[0] != '0'
    decreases n
  {
    if n < 10 then [DigitChar(n)] else NatToString(n / 10) + [DigitChar(n % 10)]
  }

  /** The value a string of decimal digits denotes. */
  function ParseDigits(s: string): nat
    requires IsDigits(s)
    decreases |s|
  {
    if s == [] then 0 else ParseDigits(s[..|s| - 1]) * 10 + DigitValue(s[|s| - 1])
  }

  /** Reading the digits back gives the number. */
  lemma {:induction false} ParseNatToString(n: nat)
    ensures ParseDigits(NatToString(n)) == n
    decreases n
  {
    var s := NatToString(n);
    if n < 10 {
      DigitRoundTrip(n);
      assert s[..0] == [];
    } else {
      ParseNatToString(n / 10);
      DigitRoundTrip(n % 10);
      assert s[..|s| - 1] == NatToString(n / 10);
    }
  }

  /** Different numbers are written differently. */
  lemma NatToStringInjective(a: nat, b: nat)
    ensures NatToString(a) == NatToString(b) <==> a == b
  {
    if NatToString(a) == NatToString(b) {
      ParseNatToString(a);
      ParseNatToString(b);
    }
  }

  /** Two strings with a common prefix are equal exactly when their rests are. */
  lemma PrefixCancel(p: string, a: string, b: string)
    ensures p + a == p + b <==> a == b
  {
    if p + a == p + b {
      assert a == (p + a)[|p|..];
      assert b == (p + b)[|p|..];
    }
  }

  /** A key made of a fixed prefix and an index names exactly one index. */
  lemma IndexedKeyInjective(p: string, i: nat, j: nat)
    ensures p + NatToString(i) == p + NatToString(j) <==> i == j
  {
    PrefixCancel(p, NatToString(i), NatToString(j));
    NatToStringInjective(i, j);
  }
}

=== FILE: detector.dfy ===
/** The multi-view detector (Source/MultiViewDetector.cpp): a synchronous
    worker with a tracker that is reset, fed one grey image per camera and
    run once per frame.  The image conversions it relies on
    (Source/Helpers/ImageHelpers.cpp) are modelled down to their checks;
    pixel copying and colour conversion are not. */
module Detector {
  import opened Wrappers
  import opened JsonValue
  import opened Handles
  import opened Failures
  import opened Commands
  import opened Engine
  import opened SyncExec
  import opened Startup
  import opened Decimal

  /** `unsigned int` holds values modulo 2^32. */
  const UintModulus: nat := 0x1_0000_0000

  /** The detector's state: the worker it owns and the topology read from the
      tracking configuration. */
  datatype Detector = Detector(worker: Ptr, trackerName: string, inputName: string, cameraCount: nat)

  /** The tracking configuration as `vlSDKUtil_get` hands it over: a buffer
      (null when the file cannot be retrieved) and its text. */
  datatype ConfigFile = ConfigFile(buffer: Ptr, content: Payload)

  datatype Topology = Topology(trackerName: string, inputName: string, cameraCount: nat)

  /** `j[k0][k1]...` with the non-const subscript: a missing member or a null
      value reads as null, and subscripting any other non-object throws. */
  function Path(j: Json, keys: seq<string>): (r: Option<Json>)
    decreases |keys|
  {
    if keys == [] then Some(j)
    else match Index(j, keys[0])
      case None => None
      case Some(v) => Path(v, keys[1..])
  }

  /** The topology the constructor reads: the tracker's name, the input
      node's name, and the number of tracking cameras as an `unsigned int`. */
  function ReadTopology(config: Json): (r: Result<Topology, Error>)
    ensures r.Success? <==>
      && Path(config, ["tracker", "name"]).Some? && Path(config, ["tracker", "name"]).value.Str?
      && Path(config, ["input", "useImageSource"]).Some? && Path(config, ["input", "useImageSource"]).value.Str?
      && Path(config, ["tracker", "parameters", "trackingCameras"]).Some?
    ensures r.Success? ==>
      && Str(r.value.trackerName) == Path(config, ["tracker", "name"]).value
      && Str(r.value.inputName) == Path(config, ["input", "useImageSource"]).value
      && r.value.cameraCount == Size(Path(config, ["tracker", "parameters", "trackingCameras"]).value) % UintModulus
    ensures r.Failure? ==> r.error == JsonFailure
  {
    match (Path(config, ["tracker", "name"]), Path(config, ["input", "useImageSource"]),
           Path(config, ["tracker", "parameters", "trackingCameras"]))
    case (Some(Str(tracker)), Some(Str(input)), Some(cameras)) =>
      Success(Topology(tracker, input, Size(cameras) % UintModulus))
    case _ => Failure(JsonFailure)
  }

  /** A configuration with a named tracker, a named input and a list of
      tracking cameras yields exactly those names and as many cameras; with
      no `parameters` the tracker has no cameras. */
  lemma ReadTopologyOfConfig(tracker: string, input: string, cameras: seq<Json>, withParameters: bool)
    requires |cameras| < UintModulus
    ensures var parameters := map["trackingCameras" := Arr(cameras)];
      var trackerNode := if withParameters then map["name" := Str(tracker), "parameters" := Obj(parameters)]
                         else map["name" := Str(tracker)];
      var config := Obj(map["tracker" := Obj(trackerNode), "input" := Obj(map["useImageSource" := Str(input)])]);
      ReadTopology(config) == Success(Topology(tracker, input, if withParameters then |cameras| else 0))
  {
  }

  /** The constructor's body once the worker exists: retrieve and parse the
      configuration and read the topology.  The configuration buffer is
      released once parsed or on a throw; a throw destroys the worker member,
      which releases the worker. */
  function ConstructorBody(worker: Ptr, configPath: string, file: ConfigFile): (r: Traced<Result<Detector, Error>>)
    ensures r.value.Success? <==>
      file.buffer != NullPtr && file.content.parsed.Some? && ReadTopology(file.content.parsed.value).Success?
    ensures file.buffer == NullPtr ==>
      r.value == Failure(Runtime("Could not retrieve tracking configuration file from " + configPath))
    ensures file.buffer != NullPtr && file.content.parsed.None? ==> r.value == Failure(JsonFailure)
    ensures r.value.Success? ==>
      var t := ReadTopology(file.content.parsed.value).value;
      r.value.value == Detector(worker, t.trackerName, t.inputName, t.cameraCount) && t.cameraCount < UintModulus
    ensures |r.calls| >= 1 && r.calls[0] == RetrieveFile(configPath)
    ensures Occurrences(r.calls, BufferReleased(file.buffer)) == (if file.buffer != NullPtr then 1 else 0)
    ensures Occurrences(r.calls, WorkerReleased(worker)) == if r.value.Failure? && worker != NullPtr then 1 else 0
  {
    var value :=
      if file.buffer == NullPtr then Failure(Runtime("Could not retrieve tracking configuration file from " + configPath))
      else match file.content.parsed
        case None => Failure(JsonFailure)
        case Some(config) =>
          match ReadTopology(config)
          case Failure(e) => Failure(e)
          case Success(t) => Success(Detector(worker, t.trackerName, t.inputName, t.cameraCount));
    ConstructorTailCounts(configPath, file.buffer, worker, value.Failure?);
    Traced(value, ConstructorTail(configPath, file.buffer, worker, value.Failure?))
  }

  /** `MultiViewDetector(licenseFilepath, trackingConfigFilepath)`: creates the
      worker, then runs the body.  The worker is released exactly once when
      anything throws, and the configuration buffer whenever it was retrieved. */
  function NewDetector(licensePath: string, configPath: string, replies: WorkerReplies,
                       createReply: SyncReply, runReply: SyncReply, running: bool, file: ConfigFile)
    : (r: Traced<Result<Detector, Error>>)
    ensures var w := CreateSyncWorker(licensePath, configPath, replies, createReply, runReply, running);
      var body := ConstructorBody(replies.worker, configPath, file);
      && (r.value.Success? <==> w.value.Success? && body.value.Success?)
      && (w.value.Failure? ==> r == Traced(Failure(w.value.error), w.calls))
      && (w.value.Success? ==> r == Traced(body.value, w.calls + body.calls))
      && Occurrences(r.calls, BufferReleased(file.buffer)) ==
           (if w.value.Success? && file.buffer != NullPtr then 1 else 0)
    ensures Occurrences(r.calls, WorkerReleased(replies.worker)) ==
      if r.value.Failure? && replies.worker != NullPtr then 1 else 0
  {
    var w := CreateSyncWorker(licensePath, configPath, replies, createReply, runReply, running);
    var body := ConstructorBody(replies.worker, configPath, file);
    NewDetectorCounts(w.value.Success?, w.calls, body, replies.worker, file.buffer);
    if w.value.Failure? then Traced(Failure(w.value.error), w.calls)
    else Traced(body.value, w.calls + body.calls)
  }

  /** The release counts of the constructor, from those of its two phases. */
  lemma NewDetectorCounts(workerCreated: bool, calls: seq<Call>, body: Traced<Result<Detector, Error>>, worker: Ptr, buffer: Ptr)
    requires forall c :: c in calls && c.Release? ==> c == WorkerReleased(worker)
    requires Occurrences(calls, WorkerReleased(worker)) == if !workerCreated && worker != NullPtr then 1 else 0
    requires Occurrences(body.calls, BufferReleased(buffer)) == (if buffer != NullPtr then 1 else 0)
    requires Occurrences(body.calls, WorkerReleased(worker)) == if body.value.Failure? && worker != NullPtr then 1 else 0
    ensures Occurrences(calls, BufferReleased(buffer)) == 0
    ensures workerCreated ==>
      && Occurrences(calls + body.calls, BufferReleased(buffer)) == (if buffer != NullPtr then 1 else 0)
      && Occurrences(calls + body.calls, WorkerReleased(worker)) == if body.value.Failure? && worker != NullPtr then 1 else 0
  {
    assert BufferReleased(buffer) !in calls by {
      assert DeleteFunctor(ByteBuffer, buffer).fn != DeleteFunctor(Handles.Worker, worker).fn;
    }
    OccurrencesAbsent(calls, BufferReleased(buffer));
    OccurrencesAppend(calls, body.calls, BufferReleased(buffer));
    OccurrencesAppend(calls, body.calls, WorkerReleased(worker));
  }

  function BufferReleased(b: Ptr): Call {
    Release(DeleteFunctor(ByteBuffer, b))
  }

  /** The calls the constructor body makes: retrieve the file, release its
      buffer (a null buffer is not released) and, when the body throws,
      release the worker member. */
  function ConstructorTail(configPath: string, buffer: Ptr, worker: Ptr, throws: bool): seq<Call> {
    [RetrieveFile(configPath)] + ReleaseCalls(ByteBuffer, buffer) + (if throws then ReleaseWorker(worker) else [])
  }

  lemma ConstructorTailCounts(configPath: string, buffer: Ptr, worker: Ptr, throws: bool)
    ensures var t := ConstructorTail(configPath, buffer, worker, throws);
      && Occurrences(t, BufferReleased(buffer)) == (if buffer != NullPtr then 1 else 0)
      && Occurrences(t, WorkerReleased(worker)) == (if throws && worker != NullPtr then 1 else 0)
  {
    var head := [RetrieveFile(configPath)] + ReleaseCalls(ByteBuffer, buffer);
    var last := if throws then ReleaseWorker(worker) else [];
    assert WorkerReleased(worker) != BufferReleased(buffer) by {
      assert DeleteFunctor(ByteBuffer, buffer).fn != DeleteFunctor(Handles.Worker, worker).fn;
    }
    OccurrencesAbsent([RetrieveFile(configPath)], BufferReleased(buffer));
    OccurrencesAbsent([RetrieveFile(configPath)], WorkerReleased(worker));
    OccurrencesAppend([RetrieveFile(configPath)], ReleaseCalls(ByteBuffer, buffer), BufferReleased(buffer));
    OccurrencesAppend([RetrieveFile(configPath)], ReleaseCalls(ByteBuffer, buffer), WorkerReleased(worker));
    if buffer != NullPtr {
      assert ReleaseCalls(ByteBuffer, buffer) == [BufferReleased(buffer)];
      assert [BufferReleased(buffer)][..0] == [];
    }
    OccurrencesAbsent(ReleaseCalls(ByteBuffer, buffer), WorkerReleased(worker));
    OccurrencesAppend(head, last, BufferReleased(buffer));
    OccurrencesAppend(head, last, WorkerReleased(worker));
    OccurrencesAbsent(last, BufferReleased(buffer));
    if throws {
      ReleaseWorkerCount([], worker);
      assert [] + ReleaseWorker(worker) == last;
    } else {
      OccurrencesAbsent(last, WorkerReleased(worker));
    }
  }

  /** `resetTracker()`: sends `resetHard` to the tracker node and discards the result. */
  function ResetTracker(d: Detector, reply: SyncReply): (r: Traced<Result<(), Error>>)
    ensures r.calls == [ProcessJsonCommandSync(ResetHardCommand(d.trackerName))]
    ensures r.value.Success? <==> reply.accepted && TextOrEmpty(reply.error).text == []
    ensures r.value.Failure? ==> r.value.error == ExecuteSync(ResetHardCommand(d.trackerName), reply).error
  {
    var command := ResetHardCommand(d.trackerName);
    match ExecuteSync(command, reply)
    case Success(_) => Traced(Success(()), [ProcessJsonCommandSync(command)])
    case Failure(e) => Traced(Failure(e), [ProcessJsonCommandSync(command)])
  }

  /** The key camera `i`'s image is injected under. */
  function InjectKey(i: nat): string {
    "injectImage_" + NatToString(i)
  }

  /** `toVLImageGrey`'s check: only single-channel images are accepted. */
  predicate IsGrey(image: Raster) {
    image.channels == 1
  }

  const NotGrey := "Given images are not GREY images"

  /** The injection of cameras `0..n` of a frame whose size was checked:
      each grey image is set on the input node in camera order; the first
      non-grey image throws, after the images before it were injected. */
  function InjectUpTo(d: Detector, frame: seq<Raster>, n: nat): (r: Traced<Result<(), Error>>)
    requires n <= |frame|
    ensures |r.calls| <= n
    ensures forall k :: 0 <= k < |r.calls| ==>
      IsGrey(frame[k]) && r.calls[k] == SetNodeImageSync(d.inputName, InjectKey(k), frame[k])
    ensures r.value.Success? <==> forall k :: 0 <= k < n ==> IsGrey(frame[k])
    ensures r.value.Success? ==> |r.calls| == n
    ensures r.value.Failure? ==>
      |r.calls| < n && !IsGrey(frame[|r.calls|]) && r.value.error == Runtime(NotGrey)
    decreases n
  {
    if n == 0 then Traced(Success(()), [])
    else
      var prev := InjectUpTo(d, frame, n - 1);
      if prev.value.Failure? then prev
      else if !IsGrey(frame[n - 1]) then Traced(Failure(Runtime(NotGrey)), prev.calls)
      else Traced(Success(()), prev.calls + [SetNodeImageSync(d.inputName, InjectKey(n - 1), frame[n - 1])])
  }

  const FrameSizeMismatch := "Cannot inject frame: Number of images in frame does not match number of cameras!"

  /** `injectFrame(frame)`: a frame with a different number of images than
      cameras throws before anything is sent; otherwise camera `i`'s image is
      injected under `injectImage_i`, stopping at the first non-grey image. */
  function InjectFrame(d: Detector, frame: seq<Raster>): (r: Traced<Result<(), Error>>)
    ensures |frame| != d.cameraCount ==> r == Traced(Failure(Runtime(FrameSizeMismatch)), [])
    ensures r.value.Success? <==> |frame| == d.cameraCount && forall k :: 0 <= k < |frame| ==> IsGrey(frame[k])
    ensures r.value.Success? ==> |r.calls| == |frame|
    ensures forall k :: 0 <= k < |r.calls| ==>
      k < |frame| && IsGrey(frame[k]) && r.calls[k] == SetNodeImageSync(d.inputName, InjectKey(k), frame[k])
    ensures r.value.Failure? && |frame| == d.cameraCount ==>
      |r.calls| < |frame| && !IsGrey(frame[|r.calls|]) && r.value.error == Runtime(NotGrey)
  {
    if |frame| != d.cameraCount then Traced(Failure(Runtime(FrameSizeMismatch)), [])
    else InjectUpTo(d, frame, |frame|)
  }

  /** `injectFrame` as the source writes it, a counted loop over the cameras. */
  method InjectFrameLoop(d: Detector, frame: seq<Raster>) returns (result: Result<(), Error>, calls: seq<Call>)
    ensures Traced(result, calls) == InjectFrame(d, frame)
  {
    if |frame| != d.cameraCount {
      return Failure(Runtime(FrameSizeMismatch)), [];
    }
    calls := [];
    var i := 0;
    while i < d.cameraCount
      invariant 0 <= i <= |frame|
      invariant InjectUpTo(d, frame, i) == Traced(Success(()), calls)
    {
      if !IsGrey(frame[i]) {
        return Failure(Runtime(NotGrey)), calls;
      }
      calls := calls + [SetNodeImageSync(d.inputName, InjectKey(i), frame[i])];
      i := i + 1;
    }
    result := Success(());
  }

  /** A successful injection sets every camera's image under its own key. */
  lemma InjectKeysDistinct(d: Detector, frame: seq<Raster>)
    requires InjectFrame(d, frame).value.Success?
    ensures var calls := InjectFrame(d, frame).calls;
      forall a, b :: 0 <= a < b < |calls| ==> calls[a].key != calls[b].key
  {
    var calls := InjectFrame(d, frame).calls;
    forall a, b | 0 <= a < b < |calls|
      ensures calls[a].key != calls[b].key
    {
      IndexedKeyInjective("injectImage_", a, b);
    }
  }

  /** `runDetection(frame)`: resets the tracker so that the previous pose is
      forgotten, injects the frame, runs the tracker once and takes its
      extrinsic data, here the pointer the engine returns. */
  function RunDetection(d: Detector, frame: seq<Raster>, resetReply: SyncReply, extrinsic: Ptr): (r: Traced<Result<Ptr, Error>>)
    ensures r.value.Success? <==> ResetTracker(d, resetReply).value.Success? && InjectFrame(d, frame).value.Success?
    ensures r.value.Success? ==> r.value.value == extrinsic
    ensures var reset := ResetTracker(d, resetReply);
      var inject := InjectFrame(d, frame);
      && (reset.value.Failure? ==> r == Traced(Failure(reset.value.error), reset.calls))
      && (reset.value.Success? && inject.value.Failure? ==>
            r == Traced(Failure(inject.value.error), reset.calls + inject.calls))
      && (r.value.Success? ==>
            r.calls == reset.calls + inject.calls + [RunOnceSync, GetNodeExtrinsicDataSync(d.trackerName, "extrinsic")])
    ensures DetectionShape(r.calls, d.trackerName)
    ensures RunOnceSync in r.calls <==> r.value.Success?
  {
    var reset := ResetTracker(d, resetReply);
    var inject := InjectFrame(d, frame);
    var start := ProcessJsonCommandSync(ResetHardCommand(d.trackerName));
    var tail := [RunOnceSync, GetNodeExtrinsicDataSync(d.trackerName, "extrinsic")];
    assert reset.calls == [start];
    InjectionsOnly(d, frame);
    DetectionShapes(start, inject.calls, tail, d.trackerName);
    if reset.value.Failure? then
      Traced(Failure(reset.value.error), reset.calls)
    else if inject.value.Failure? then
      Traced(Failure(inject.value.error), reset.calls + inject.calls)
    else
      Traced(Success(extrinsic), reset.calls + inject.calls + tail)
  }

  /** A trace made of image injections only. */
  predicate OnlyInjections(t: seq<Call>) {
    forall k :: 0 <= k < |t| ==> t[k].SetNodeImageSync?
  }

  lemma InjectionsOnly(d: Detector, frame: seq<Raster>)
    ensures OnlyInjections(InjectFrame(d, frame).calls)
  {
    var t := InjectFrame(d, frame).calls;
    forall k | 0 <= k < |t|
      ensures t[k].SetNodeImageSync?
    {
    }
  }

  /** A reset followed by injections, and that followed by the run and the
      extrinsic query, both have the shape of a detection; only the latter
      holds the run. */
  lemma DetectionShapes(start: Call, inject: seq<Call>, tail: seq<Call>, trackerName: string)
    requires start == ProcessJsonCommandSync(ResetHardCommand(trackerName))
    requires OnlyInjections(inject)
    requires tail == [RunOnceSync, GetNodeExtrinsicDataSync(trackerName, "extrinsic")]
    ensures DetectionShape([start], trackerName) && RunOnceSync !in [start]
    ensures DetectionShape([start] + inject, trackerName) && RunOnceSync !in [start] + inject
    ensures DetectionShape([start] + inject + tail, trackerName) && RunOnceSync in [start] + inject + tail
  {
    var pre := [start] + inject;
    assert forall i :: 0 <= i < |pre| ==> pre[i] != RunOnceSync by {
      forall i | 0 <= i < |pre|
        ensures pre[i] != RunOnceSync
      {
        if i > 0 {
          assert pre[i] == inject[i - 1];
        }
      }
    }
    var r := pre + tail;
    assert forall i :: 0 <= i < |pre| ==> r[i] == pre[i];
    assert r[|r| - 2] == RunOnceSync;
  }

  /** The trace of one detection: it starts with the reset command and no
      image is injected after the tracker ran. */
  predicate DetectionShape(t: seq<Call>, trackerName: string) {
    && |t| >= 1
    && t[0] == ProcessJsonCommandSync(ResetHardCommand(trackerName))
    && forall i, j :: 0 <= i < j < |t| && t[i] == RunOnceSync ==> !t[j].SetNodeImageSync?
  }

  /** No image is injected after a run of the tracker unless a reset was sent
      in between: every frame is detected from scratch. */
  predicate ResetBetweenRunAndInjection(t: seq<Call>, trackerName: string) {
    forall i, j :: 0 <= i < j < |t| && t[i] == RunOnceSync && t[j].SetNodeImageSync? ==>
      exists k :: i < k < j && t[k] == ProcessJsonCommandSync(ResetHardCommand(trackerName))
  }

  lemma ResetBetweenAppend(a: seq<Call>, b: seq<Call>, trackerName: string)
    requires ResetBetweenRunAndInjection(a, trackerName)
    requires DetectionShape(b, trackerName)
    ensures ResetBetweenRunAndInjection(a + b, trackerName)
  {
    var t := a + b;
    forall i, j | 0 <= i < j < |t| && t[i] == RunOnceSync && t[j].SetNodeImageSync?
      ensures exists k :: i < k < j && t[k] == ProcessJsonCommandSync(ResetHardCommand(trackerName))
    {
      if j < |a| {
        assert a[i] == RunOnceSync && a[j].SetNodeImageSync?;
        var k :| i < k < j && a[k] == ProcessJsonCommandSync(ResetHardCommand(trackerName));
        assert t[k] == a[k];
      } else if i < |a| {
        assert t[|a|] == b[0];
        assert j != |a|;
      }
    }
  }

  /** What the engine answers during one detection. */
  datatype DetectionInput = DetectionInput(frame: seq<Raster>, resetReply: SyncReply, extrinsic: Ptr)

  /** The engine calls of consecutive detections, each run whether or not the
      previous one threw. */
  function DetectionsTrace(d: Detector, inputs: seq<DetectionInput>): seq<Call>
    decreases |inputs|
  {
    if inputs == [] then []
    else
      var last := inputs[|inputs| - 1];
      DetectionsTrace(d, inputs[..|inputs| - 1]) + RunDetection(d, last.frame, last.resetReply, last.extrinsic).calls
  }

  /** However many frames are detected, no frame's images reach the tracker
      after a run without a reset in between. */
  lemma {:induction false} DetectionsResetBetween(d: Detector, inputs: seq<DetectionInput>)
    ensures ResetBetweenRunAndInjection(DetectionsTrace(d, inputs), d.trackerName)
    decreases |inputs|
  {
    if inputs != [] {
      var last := inputs[|inputs| - 1];
      DetectionsResetBetween(d, inputs[..|inputs| - 1]);
      ResetBetweenAppend(DetectionsTrace(d, inputs[..|inputs| - 1]),
                         RunDetection(d, last.frame, last.resetReply, last.extrinsic).calls, d.trackerName);
    }
  }

  // ---------------------------------------------------------------------
  // Line-model images

  datatype ImageFormat = Grey | Rgba | Rgb | OtherFormat

  /** An image the engine returns for a node: the wrapper pointer (null when
      there is none) and what the wrapper reports about it. */
  datatype NodeImage = NodeImage(ptr: Ptr, width: nat, height: nat, format: ImageFormat)

  /** A 3-channel 8-bit image of the given size (`CV_8UC3`); its pixels are
      not modelled. */
  datatype Bgr = Bgr(width: nat, height: nat)

  /** `toCVMat(image)`: a null wrapper, an empty size or an unsupported format
      throws; grey, RGBA and RGB images become a BGR image of the same size. */
  function ToCvMat(image: NodeImage): (r: Result<Bgr, Error>)
    ensures r.Success? <==> image.ptr != NullPtr && image.width != 0 && image.height != 0 && image.format != OtherFormat
    ensures r.Success? ==> r.value == Bgr(image.width, image.height)
    ensures image.ptr == NullPtr ==> r == Failure(Runtime("No valid image pointer"))
    ensures image.ptr != NullPtr && (image.width == 0 || image.height == 0) ==>
      r == Failure(Runtime("No valid image size " + NatToString(image.width) + " x " + NatToString(image.height)))
  {
    if image.ptr == NullPtr then Failure(Runtime("No valid image pointer"))
    else if image.width == 0 || image.height == 0 then
      Failure(Runtime("No valid image size " + NatToString(image.width) + " x " + NatToString(image.height)))
    else if image.format == OtherFormat then Failure(Runtime("Unsupported image type"))
    else Success(Bgr(image.width, image.height))
  }

  function LineModelKey(i: nat): string {
    "imageLineModel_" + NatToString(i)
  }

  /** The engine calls for camera `i`: fetch its line-model image and release
      the wrapper when the iteration ends, converted or not. */
  function FetchCalls(d: Detector, images: nat -> NodeImage, i: nat): seq<Call> {
    [GetNodeImageSync(d.trackerName, LineModelKey(i))] + ReleaseCalls(Handles.Image, images(i).ptr)
  }

  /** The calls for cameras `0..n`. */
  function FetchRange(d: Detector, images: nat -> NodeImage, n: nat): seq<Call>
    decreases n
  {
    if n == 0 then [] else FetchRange(d, images, n - 1) + FetchCalls(d, images, n - 1)
  }

  /** The first camera below `n` whose image cannot be converted, or `n`. */
  function FirstFailure(images: nat -> NodeImage, n: nat): (s: nat)
    ensures s <= n
    ensures forall k :: 0 <= k < s ==> ToCvMat(images(k)).Success?
    ensures s < n ==> ToCvMat(images(s)).Failure?
    decreases n
  {
    if n == 0 then 0
    else
      var s := FirstFailure(images, n - 1);
      if s < n - 1 then s
      else if ToCvMat(images(n - 1)).Failure? then n - 1
      else n
  }

  /** Cameras `0..n` of `getLineModelImages`: each camera's image is fetched,
      converted and released in turn; the first conversion that throws ends
      the loop after its image was released. */
  function LineModelUpTo(d: Detector, images: nat -> NodeImage, n: nat): (r: Traced<Result<seq<Bgr>, Error>>)
    ensures var s := FirstFailure(images, n);
      && (r.value.Success? <==> s == n)
      && r.calls == FetchRange(d, images, if s == n then n else s + 1)
      && (r.value.Failure? ==> r.value.error == ToCvMat(images(s)).error)
    ensures r.value.Success? ==>
      |r.value.value| == n && forall k :: 0 <= k < n ==> Success(r.value.value[k]) == ToCvMat(images(k))
    decreases n
  {
    if n == 0 then Traced(Success([]), [])
    else
      var prev := LineModelUpTo(d, images, n - 1);
      if prev.value.Failure? then prev
      else
        match ToCvMat(images(n - 1))
        case Failure(e) => Traced(Failure(e), prev.calls + FetchCalls(d, images, n - 1))
        case Success(m) => Traced(Success(prev.value.value + [m]), prev.calls + FetchCalls(d, images, n - 1))
  }

  /** `getLineModelImages()`: one BGR image per camera, in camera order. */
  function GetLineModelImages(d: Detector, images: nat -> NodeImage): (r: Traced<Result<seq<Bgr>, Error>>)
    ensures r.value.Success? <==> forall k :: 0 <= k < d.cameraCount ==> ToCvMat(images(k)).Success?
    ensures r.value.Success? ==>
      |r.value.value| == d.cameraCount
      && forall k :: 0 <= k < d.cameraCount ==> Success(r.value.value[k]) == ToCvMat(images(k))
    ensures var s := FirstFailure(images, d.cameraCount);
      && r.calls == FetchRange(d, images, if s == d.cameraCount then s else s + 1)
      && (r.value.Failure? ==> r.value.error == ToCvMat(images(s)).error)
  {
    LineModelUpTo(d, images, d.cameraCount)
  }

  /** Every non-null wrapper fetched for cameras `0..n` is released exactly
      once, provided the engine hands out distinct wrappers. */
  lemma {:induction false} FetchRangeReleases(d: Detector, images: nat -> NodeImage, n: nat, p: Ptr)
    requires p != NullPtr
    requires forall a, b :: 0 <= a < b < n && images(a).ptr != NullPtr ==> images(a).ptr != images(b).ptr
    ensures Occurrences(FetchRange(d, images, n), Release(DeleteFunctor(Handles.Image, p))) ==
      if exists k :: 0 <= k < n && images(k).ptr == p then 1 else 0
    decreases n
  {
    var rel := Release(DeleteFunctor(Handles.Image, p));
    if n > 0 {
      FetchRangeReleases(d, images, n - 1, p);
      OccurrencesAppend(FetchRange(d, images, n - 1), FetchCalls(d, images, n - 1), rel);
      var get := [GetNodeImageSync(d.trackerName, LineModelKey(n - 1))];
      var release := ReleaseCalls(Handles.Image, images(n - 1).ptr);
      OccurrencesAppend(get, release, rel);
      OccurrencesAbsent(get, rel);
      if images(n - 1).ptr == p {
        assert release == [rel];
        assert release[..0] == [];
        assert !exists k :: 0 <= k < n - 1 && images(k).ptr == p;
      } else {
        OccurrencesAbsent(release, rel);
        if exists k :: 0 <= k < n && images(k).ptr == p {
          var k :| 0 <= k < n && images(k).ptr == p;
          assert k != n - 1;
        }
      }
    }
  }
}

=== FILE: engine.dfy ===
/** The engine seen from the outside: the replies it gives and the calls the
    modelled code makes into it.  The engine itself is opaque; every answer it
    gives is an input of the operation that asks for it, and every operation
    returns the trace of engine calls it made, in order. */
module Engine {
  import opened Wrappers
  import opened JsonValue
  import opened Handles

  /** A C string handed over by the engine, with the outcome of parsing it as
      JSON (`None`: the library would throw a parse error). */
  datatype Payload = Payload(text: string, parsed: Option<Json>)

  /** The empty text: parsing it is a parse error in the library. */
  const EmptyText := Payload("", None)

  /** The outcome of `vlWorker_ProcessJsonCommandSync`: whether the engine
      accepted the command, and the error and result strings its callback
      received (`None` for a null pointer or a callback that never ran). */
  datatype SyncReply = SyncReply(accepted: bool, error: Option<Payload>, result: Option<Payload>)

  /** The arguments of the callback of `vlWorker_ProcessJsonAndBinaryCommandSync`. */
  datatype BinaryCallback = BinaryCallback(error: Option<Payload>, result: Option<Payload>, dataOut: Ptr, size: nat)

  /** The outcome of `vlWorker_ProcessJsonAndBinaryCommandSync`; `callback` is
      `None` when the callback never ran. */
  datatype BinaryReply = BinaryReply(accepted: bool, callback: Option<BinaryCallback>)

  /** A generic raster (`cv::Mat`): pixel layout and content are not modelled
      beyond the channel count. */
  datatype Raster = Raster(width: nat, height: nat, channels: nat, pixels: seq<int>)

  /** The engine calls the modelled code makes.  The worker argument is left
      implicit: every trace concerns one worker. */
  datatype Call =
    | NewWorker
    | NewSyncWorker
    | Start
    | SetLicenseFilePath(path: string)
    | IsRunning
    | ProcessJsonCommandSync(command: Json)
    | ProcessJsonAndBinaryCommandSync(command: Json, data: seq<bv8>)
    | PushJsonCommand(command: Json)
    | ProcessCallbacks
    | PollEvents
    | RunOnceSync
    | SetNodeImageSync(node: string, key: string, image: Raster)
    | GetNodeExtrinsicDataSync(node: string, key: string)
    | GetNodeImageSync(node: string, key: string)
    | RetrieveFile(path: string)
    | Release(call: ReleaseCall)

  /** A value together with the engine calls made to produce it, in order. */
  datatype Traced<T> = Traced(value: T, calls: seq<Call>)

  /** The engine calls a handle makes when it is destroyed. */
  function ReleaseCalls(k: Kind, p: Ptr): (calls: seq<Call>)
    ensures |calls| == if p == NullPtr then 0 else 1
    ensures forall c :: c in calls ==> c == Release(DeleteFunctor(k, p))
  {
    if p == NullPtr then [] else [Release(DeleteFunctor(k, p))]
  }

  /** The number of times `c` occurs in a trace. */
  function Occurrences(trace: seq<Call>, c: Call): nat {
    if trace == [] then 0
    else Occurrences(trace[..|trace| - 1], c) + (if trace[|trace| - 1] == c then 1 else 0)
  }

  lemma OccurrencesAppend(a: seq<Call>, b: seq<Call>, c: Call)
    ensures Occurrences(a + b, c) == Occurrences(a, c) + Occurrences(b, c)
    decreases |b|
  {
    if b == [] {
      assert a + b == a;
    } else {
      assert (a + b)[..|a + b| - 1] == a + b[..|b| - 1];
      OccurrencesAppend(a, b[..|b| - 1], c);
    }
  }

  lemma OccurrencesAbsent(trace: seq<Call>, c: Call)
    requires c !in trace
    ensures Occurrences(trace, c) == 0
    decreases |trace|
  {
    if trace != [] {
      assert trace[..|trace| - 1] <= trace;
      OccurrencesAbsent(trace[..|trace| - 1], c);
    }
  }
}

=== FILE: extrinsics.dfy ===
/** Extrinsic records (Source/Helpers/ExtrinsicDataHelpers.h and .cpp): a
    camera pose as a translation `t`, a rotation quaternion `q` and a validity
    flag; its three sources (an extrinsic-data wrapper, a similarity-transform
    wrapper, a JSON object) and its text layout.  Components are reals: the
    rounding to `float` is not modelled, and neither is the decimal text of a
    number, which is the parameter `fmt` (`std::to_string`) wherever text is built. */
module Extrinsics {
  import opened Wrappers
  import opened JsonValue
  import opened Handles
  import opened Failures

  datatype Extrinsic = Extrinsic(t: seq<real>, q: seq<real>, valid: bool)

  /** `std::array<float, 3> t; std::array<float, 4> q;`: the fixed component counts. */
  predicate Shaped(e: Extrinsic) {
    |e.t| == 3 && |e.q| == 4
  }

  /** What the engine's getters report for a non-null wrapper
      (`..._GetValid`, `..._GetT` into 3 floats, `..._GetR` into 4 floats). */
  datatype WrapperReadings = WrapperReadings(valid: bool, t: seq<real>, r: seq<real>)

  predicate ReadingsShaped(rd: WrapperReadings) {
    |rd.t| == 3 && |rd.r| == 4
  }

  /** The wrapper overloads share everything but the wording of the null check. */
  function FromWrapper(emptyMessage: string, p: Ptr, rd: WrapperReadings): (r: Result<Extrinsic, Error>)
    requires ReadingsShaped(rd)
    ensures r.Failure? <==> p == NullPtr
    ensures r.Failure? ==> r.error == Runtime(emptyMessage)
    ensures r.Success? ==> Shaped(r.value) && r.value == Extrinsic(rd.t, rd.r, rd.valid)
  {
    if p == NullPtr then Failure(Runtime(emptyMessage))
    else Success(Extrinsic(rd.t, rd.r, rd.valid))
  }

  /** `toExtrinsic(vlExtrinsicDataWrapper_t*)`. */
  function FromExtrinsicWrapper(p: Ptr, rd: WrapperReadings): (r: Result<Extrinsic, Error>)
    requires ReadingsShaped(rd)
    ensures r.Failure? <==> p == NullPtr
    ensures r.Failure? ==> r.error == Runtime("extrinsicDataWrapper empty")
    ensures r.Success? ==> Shaped(r.value) && r.value.valid == rd.valid && r.value.t == rd.t && r.value.q == rd.r
  {
    FromWrapper("extrinsicDataWrapper empty", p, rd)
  }

  /** `toExtrinsic(vlSimilarityTransformWrapper_t*)`. */
  function FromSimilarityWrapper(p: Ptr, rd: WrapperReadings): (r: Result<Extrinsic, Error>)
    requires ReadingsShaped(rd)
    ensures r.Failure? <==> p == NullPtr
    ensures r.Failure? ==> r.error == Runtime("similarityTransformWrapper empty")
    ensures r.Success? ==> Shaped(r.value) && r.value.valid == rd.valid && r.value.t == rd.t && r.value.q == rd.r
  {
    FromWrapper("similarityTransformWrapper empty", p, rd)
  }

  /** `toExtrinsic(const nlohmann::json&)`: null is rejected with a runtime
      error; `t` is the 3-element array under `"t"`, `q` the 4-element array
      under `"r"`; `valid` is the boolean under `"valid"` when the key is
      present and true otherwise.  Every other defect is a JSON library failure. */
  function FromJson(j: Json): (r: Result<Extrinsic, Error>)
    ensures r == Failure(Runtime("json extrinsic object empty")) <==> j.Null?
    ensures r.Failure? && !j.Null? ==> r.error == JsonFailure
    ensures r.Success? <==>
      && j.Obj? && "t" in j.fields && "r" in j.fields
      && AsNumbers(j.fields["t"], 3).Some? && AsNumbers(j.fields["r"], 4).Some?
      && ("valid" in j.fields ==> j.fields["valid"].Bool?)
    ensures r.Success? ==>
      && Shaped(r.value)
      && r.value.t == AsNumbers(j.fields["t"], 3).value
      && r.value.q == AsNumbers(j.fields["r"], 4).value
      && (r.value.valid <==> "valid" !in j.fields || j.fields["valid"].b)
  {
    if j.Null? then Failure(Runtime("json extrinsic object empty"))
    else
      var tj :- OrJsonFailure(At(j, "t"));
      var t :- OrJsonFailure(AsNumbers(tj, 3));
      var rj :- OrJsonFailure(At(j, "r"));
      var q :- OrJsonFailure(AsNumbers(rj, 4));
      var valid :- if Contains(j, "valid") then OrJsonFailure(AsBool(At(j, "valid").value)) else Success(true);
      Success(Extrinsic(t, q, valid))
  }

  /** The object `{"t": t, "r": q}` with the components as numbers, plus any
      further members. */
  function PoseObject(e: Extrinsic, others: map<string, Json>): (j: Json)
    requires "t" !in others && "r" !in others
  {
    Obj(others["t" := Numbers(e.t)]["r" := Numbers(e.q)])
  }

  /** A pose read from a JSON object that has no `"valid"` member is valid,
      whatever it was before it was written: the flag does not survive a
      JSON object without the member. */
  lemma FromJsonWithoutValid(e: Extrinsic, others: map<string, Json>)
    requires Shaped(e)
    requires "t" !in others && "r" !in others && "valid" !in others
    ensures FromJson(PoseObject(e, others)) == Success(e.(valid := true))
  {
    NumbersRoundTrip(e.t);
    NumbersRoundTrip(e.q);
  }

  /** ... and one that carries the flag as a boolean reads it back. */
  lemma FromJsonWithValid(e: Extrinsic, others: map<string, Json>)
    requires Shaped(e)
    requires "t" !in others && "r" !in others && "valid" !in others
    ensures FromJson(PoseObject(e, others["valid" := Bool(e.valid)])) == Success(e)
  {
    NumbersRoundTrip(e.t);
    NumbersRoundTrip(e.q);
  }

  /** The formatted elements, each followed by `", "` — the loop of `describe`. */
  function Items(fmt: real -> string, xs: seq<real>): string
    decreases |xs|
  {
    if xs == [] then "" else Items(fmt, xs[..|xs| - 1]) + fmt(xs[|xs| - 1]) + ", "
  }

  /** `describe(arr)`: `"["`, the elements separated by `", "`, `"]"`.  The
      source computes `size - 1` on an unsigned size, so it needs at least
      one element. */
  function Describe(fmt: real -> string, xs: seq<real>): (s: string)
    requires |xs| >= 1
    ensures |s| >= 2 && s[0] == '[' && s[|s| - 1] == ']'
  {
    "[" + Items(fmt, xs[..|xs| - 1]) + fmt(xs[|xs| - 1]) + "]"
  }

  /** The loop of `describe` as written, building the text left to right. */
  method DescribeLoop(fmt: real -> string, xs: seq<real>) returns (s: string)
    requires |xs| >= 1
    ensures s == Describe(fmt, xs)
  {
    s := "[";
    var i := 0;
    while i < |xs| - 1
      invariant 0 <= i <= |xs| - 1
      invariant s == "[" + Items(fmt, xs[..i])
    {
      assert xs[..i + 1][..i] == xs[..i];
      s := s + fmt(xs[i]) + ", ";
      i := i + 1;
    }
    s := s + fmt(xs[|xs| - 1]) + "]";
  }

  /** Reference definition: the parts joined with a separator between
      neighbours, built from the front. */
  function Join(parts: seq<string>, sep: string): string
    requires |parts| >= 1
    decreases |parts|
  {
    if |parts| == 1 then parts[0] else parts[0] + sep + Join(parts[1..], sep)
  }

  function Formatted(fmt: real -> string, xs: seq<real>): (ps: seq<string>)
    ensures |ps| == |xs| && forall i :: 0 <= i < |xs| ==> ps[i] == fmt(xs[i])
  {
    seq(|xs|, i requires 0 <= i < |xs| => fmt(xs[i]))
  }

  lemma {:induction false} JoinSnoc(parts: seq<string>, p: string, sep: string)
    requires |parts| >= 1
    ensures Join(parts + [p], sep) == Join(parts, sep) + sep + p
    decreases |parts|
  {
    if |parts| == 1 {
      assert (parts + [p])[1..] == [p];
    } else {
      assert (parts + [p])[1..] == parts[1..] + [p];
      JoinSnoc(parts[1..], p, sep);
    }
  }

  lemma {:induction false} ItemsJoin(fmt: real -> string, xs: seq<real>, y: real)
    ensures Items(fmt, xs) + fmt(y) == Join(Formatted(fmt, xs + [y]), ", ")
    decreases |xs|
  {
    if xs == [] {
      assert Formatted(fmt, xs + [y]) == [fmt(y)];
    } else {
      var init := xs[..|xs| - 1];
      var last := xs[|xs| - 1];
      ItemsJoin(fmt, init, last);
      assert init + [last] == xs;
      assert Formatted(fmt, xs + [y]) == Formatted(fmt, xs) + [fmt(y)];
      JoinSnoc(Formatted(fmt, xs), fmt(y), ", ");
    }
  }

  /** `describe` lists the formatted elements in index order, separated by
      `", "`, between brackets. */
  lemma DescribeIsJoin(fmt: real -> string, xs: seq<real>)
    requires |xs| >= 1
    ensures Describe(fmt, xs) == "[" + Join(Formatted(fmt, xs), ", ") + "]"
  {
    ItemsJoin(fmt, xs[..|xs| - 1], xs[|xs| - 1]);
    assert xs[..|xs| - 1] + [xs[|xs| - 1]] == xs;
  }

  /** Occurrences of a character in a text. */
  function CountChar(s: string, c: char): nat
    decreases |s|
  {
    if s == [] then 0 else CountChar(s[..|s| - 1], c) + (if s[|s| - 1] == c then 1 else 0)
  }

  lemma {:induction false} CountCharAppend(a: string, b: string, c: char)
    ensures CountChar(a + b, c) == CountChar(a, c) + CountChar(b, c)
    decreases |b|
  {
    if b == [] {
      assert a + b == a;
    } else {
      assert (a + b)[..|a + b| - 1] == a + b[..|b| - 1];
      CountCharAppend(a, b[..|b| - 1], c);
    }
  }

  lemma {:induction false} CountCharAbsent(s: string, c: char)
    requires c !in s
    ensures CountChar(s, c) == 0
    decreases |s|
  {
    if s != [] {
      assert forall k :: 0 <= k < |s| - 1 ==> s[..|s| - 1][k] == s[k];
      CountCharAbsent(s[..|s| - 1], c);
    }
  }

  lemma {:induction false} ItemsCommas(fmt: real -> string, xs: seq<real>)
    requires forall x :: ',' !in fmt(x)
    ensures CountChar(Items(fmt, xs), ',') == |xs|
    decreases |xs|
  {
    if xs != [] {
      var init := xs[..|xs| - 1];
      ItemsCommas(fmt, init);
      CountCharAppend(Items(fmt, init), fmt(xs[|xs| - 1]), ',');
      CountCharAppend(Items(fmt, init) + fmt(xs[|xs| - 1]), ", ", ',');
      CountCharAbsent(fmt(xs[|xs| - 1]), ',');
      assert CountChar(", ", ',') == 1 by {
        assert ", "[..1] == ",";
        assert ","[..0] == "";
      }
    }
  }

  /** When the number format writes no comma (a locale with a decimal point),
      the text of `describe` holds exactly `size - 1` commas: one per separator. */
  lemma DescribeCommas(fmt: real -> string, xs: seq<real>)
    requires |xs| >= 1
    requires forall x :: ',' !in fmt(x)
    ensures CountChar(Describe(fmt, xs), ',') == |xs| - 1
  {
    var init := xs[..|xs| - 1];
    ItemsCommas(fmt, init);
    CountCharAppend("[", Items(fmt, init), ',');
    CountCharAppend("[" + Items(fmt, init), fmt(xs[|xs| - 1]), ',');
    CountCharAppend("[" + Items(fmt, init) + fmt(xs[|xs| - 1]), "]", ',');
    CountCharAbsent("[", ',');
    CountCharAbsent("]", ',');
    CountCharAbsent(fmt(xs[|xs| - 1]), ',');
  }

  function BoolText(b: bool): string {
    if b then "true" else "false"
  }

  /** `to_string(ext)`: a brace-delimited block with a `"t"` line, a `"q"`
      line (the rotation is written under `"q"`, not the `"r"` of the JSON
      records) and a `"valid"` line holding `true` or `false`. */
  function ToString(fmt: real -> string, e: Extrinsic): (s: string)
    requires Shaped(e)
    ensures |s| >= |TOpen| + 3 && s[..|TOpen|] == TOpen && s[|s| - 3..] == "\n}\n"
  {
    var head := TOpen + Describe(fmt, e.t) + QOpen + Describe(fmt, e.q);
    var s := head + ValidClose(e.valid);
    assert TOpen <= s;
    SuffixOfAppend(head, ValidClose(e.valid), 3);
    s
  }

  /** The pieces of the block around the two arrays. */
  const TOpen := "{\n" + "    \"t\": "
  const QOpen := ",\n" + "    \"q\": "

  function ValidClose(valid: bool): string {
    ",\n" + "    \"valid\": " + BoolText(valid) + "\n}\n"
  }

  /** The block ends in `true` exactly for a valid pose and in `false` otherwise. */
  lemma ToStringValidity(fmt: real -> string, e: Extrinsic)
    requires Shaped(e)
    ensures var s := ToString(fmt, e);
      && (e.valid <==> |s| >= 7 && s[|s| - 7..] == "true\n}\n")
      && (!e.valid <==> |s| >= 8 && s[|s| - 8..] == "false\n}\n")
  {
    var close := ValidClose(e.valid);
    var head := TOpen + Describe(fmt, e.t) + QOpen + Describe(fmt, e.q);
    assert ToString(fmt, e) == head + close;
    ValidCloseEnds(e.valid);
    SuffixOfAppend(head, close, 7);
    SuffixOfAppend(head, close, 8);
  }

  /** The block is its five lines, each ended by a line break: the opening
      brace, `"t"` with the described translation, `"q"` with the described
      rotation, `"valid"` with the flag, and the closing brace. */
  lemma ToStringIsLines(fmt: real -> string, e: Extrinsic)
    requires Shaped(e)
    ensures ToString(fmt, e) == Join(["{",
                                      "    \"t\": " + Describe(fmt, e.t) + ",",
                                      "    \"q\": " + Describe(fmt, e.q) + ",",
                                      "    \"valid\": " + BoolText(e.valid),
                                      "}"], "\n") + "\n"
  {
    var dt, dq, b := Describe(fmt, e.t), Describe(fmt, e.q), BoolText(e.valid);
    var o, n, tk, c, qk, vk, cl := "{", "\n", "    \"t\": ", ",", "    \"q\": ", "    \"valid\": ", "}";
    assert TOpen == o + n + tk;
    assert QOpen == c + n + qk;
    assert ValidClose(e.valid) == c + n + vk + b + n + cl + n;
    JoinFive(o, tk + dt + c, qk + dq + c, vk + b, cl, n);
    Regroup(o, n, tk, dt, c, qk, dq, vk, b, cl);
  }

  /** The block's pieces regrouped from the literal runs into lines. */
  lemma Regroup(o: string, n: string, tk: string, dt: string, c: string, qk: string, dq: string,
                vk: string, b: string, cl: string)
    ensures (o + n + tk) + dt + (c + n + qk) + dq + (c + n + vk + b + n + cl + n)
         == o + n + (tk + dt + c) + n + (qk + dq + c) + n + (vk + b) + n + cl + n
  {
  }

  /** `Join` of five parts spelled out. */
  lemma JoinFive(a: string, b: string, c: string, d: string, f: string, sep: string)
    ensures Join([a, b, c, d, f], sep) == a + sep + b + sep + c + sep + d + sep + f
  {
    var ps := [a, b, c, d, f];
    assert ps[1..] == [b, c, d, f];
    assert ps[1..][1..] == [c, d, f];
    assert ps[1..][1..][1..] == [d, f];
    assert ps[1..][1..][1..][1..] == [f];
    assert Join([f], sep) == f;
    assert Join([d, f], sep) == d + sep + f;
    assert Join([c, d, f], sep) == c + sep + (d + sep + f);
    assert Join([b, c, d, f], sep) == b + sep + (c + sep + (d + sep + f));
    assert Join(ps, sep) == a + sep + (b + sep + (c + sep + (d + sep + f)));
  }

  /** The closing lines alone already tell the two flags apart. */
  lemma ValidCloseEnds(valid: bool)
    ensures var s := ValidClose(valid);
      && |s| >= 8
      && (valid <==> s[|s| - 7..] == "true\n}\n")
      && (!valid <==> s[|s| - 8..] == "false\n}\n")
  {
    var s := ValidClose(valid);
    if valid {
      assert s[|s| - 7..] == "true\n}\n";
      assert s[|s| - 8] == ' ';
    } else {
      assert s[|s| - 8..] == "false\n}\n";
      assert s[|s| - 7] == 'a';
    }
  }

  lemma SuffixOfAppend(a: string, b: string, k: nat)
    requires k <= |b|
    ensures (a + b)[|a + b| - k..] == b[|b| - k..]
  {
    var s := a + b;
    assert s[|a|..] == b;
    assert s[|s| - k..] == s[|a|..][|b| - k..];
  }

  /** With a number format that writes no line break, the block has exactly
      five lines. */
  lemma ToStringLines(fmt: real -> string, e: Extrinsic)
    requires Shaped(e)
    requires forall x :: '\n' !in fmt(x)
    ensures CountChar(ToString(fmt, e), '\n') == 5
  {
    DescribeNoBreak(fmt, e.t);
    DescribeNoBreak(fmt, e.q);
    assert TOpen == "{" + "\n" + "    \"t\": ";
    assert QOpen == "," + "\n" + "    \"q\": ";
    CountCharAppend5(TOpen, Describe(fmt, e.t), QOpen, Describe(fmt, e.q), ValidClose(e.valid), '\n');
    LiteralBreaks("{", "    \"t\": ");
    LiteralBreaks(",", "    \"q\": ");
    ValidLineBreaks(e.valid);
  }

  lemma CountCharAppend5(p1: string, p2: string, p3: string, p4: string, p5: string, c: char)
    ensures CountChar(p1 + p2 + p3 + p4 + p5, c)
      == CountChar(p1, c) + CountChar(p2, c) + CountChar(p3, c) + CountChar(p4, c) + CountChar(p5, c)
  {
    CountCharAppend(p1, p2, c);
    CountCharAppend(p1 + p2, p3, c);
    CountCharAppend(p1 + p2 + p3, p4, c);
    CountCharAppend(p1 + p2 + p3 + p4, p5, c);
  }

  /** A text with a single line break between two break-free parts. */
  lemma LiteralBreaks(pre: string, post: string)
    requires '\n' !in pre && '\n' !in post
    ensures CountChar(pre + "\n" + post, '\n') == 1
  {
    CountCharAppend(pre + "\n", post, '\n');
    CountCharAppend(pre, "\n", '\n');
    CountCharAbsent(pre, '\n');
    CountCharAbsent(post, '\n');
    assert "\n"[..0] == "";
  }

  lemma ValidLineBreaks(valid: bool)
    ensures CountChar(ValidClose(valid), '\n') == 3
  {
    var line := "    \"valid\": " + BoolText(valid);
    assert ",\n" + "    \"valid\": " + BoolText(valid) + "\n}\n" == ("," + "\n" + line) + ("\n" + "}") + "\n";
    LiteralBreaks(",", line);
    CountCharAppend("," + "\n" + line, "\n" + "}", '\n');
    CountCharAppend(("," + "\n" + line) + ("\n" + "}"), "\n", '\n');
    LiteralBreaks("", "}");
    assert "" + "\n" + "}" == "\n" + "}";
    assert CountChar("\n", '\n') == 1 by {
      assert "\n"[..0] == "";
    }
  }

  lemma DescribeNoBreak(fmt: real -> string, xs: seq<real>)
    requires |xs| >= 1
    requires forall x :: '\n' !in fmt(x)
    ensures CountChar(Describe(fmt, xs), '\n') == 0
  {
    ItemsNoChar(fmt, xs[..|xs| - 1], '\n');
    CountCharAbsent(Describe(fmt, xs), '\n');
  }

  lemma {:induction false} ItemsNoChar(fmt: real -> string, xs: seq<real>, c: char)
    requires c != ',' && c != ' '
    requires forall x :: c !in fmt(x)
    ensures c !in Items(fmt, xs)
    decreases |xs|
  {
    if xs != [] {
      ItemsNoChar(fmt, xs[..|xs| - 1], c);
    }
  }
}

=== FILE: failures.dfy ===
/** The exceptions the modelled code throws. */
module Failures {
  import opened Wrappers
  import opened JsonValue

  datatype Error =
    /** `std::runtime_error("Command <command> could not be processed. Invalid
        JSON or unsupported command.")`: the engine rejected the command outright. */
    | Invocation(command: Json)
    /** `std::runtime_error(message)` where `message` is the `"message"` member of
        the engine's error reply. */
    | CommandFailed(message: string)
    /** `std::runtime_error` with a fixed text. */
    | Runtime(message: string)
    /** `std::runtime_error(prefix + cause.what())`: a caught error rethrown with a prefix. */
    | Prefixed(prefix: string, cause: Error)
    /** An exception of the JSON library (parse, type or range error).  These do
        not derive from `std::runtime_error`. */
    | JsonFailure

  /** Whether `catch (std::runtime_error&)` catches the error. */
  predicate IsRuntimeError(e: Error) {
    !e.JsonFailure?
  }

  /** `catch (std::runtime_error& e) { throw std::runtime_error(prefix + e.what()); }`:
      a runtime error is rethrown with the prefix in front of its message; any
      other exception passes through the handler unchanged. */
  function Rethrow(prefix: string, e: Error): (r: Error)
    ensures IsRuntimeError(r) <==> IsRuntimeError(e)
    ensures IsRuntimeError(e) ==> r.Prefixed? && r.prefix == prefix && r.cause == e
    ensures !IsRuntimeError(e) ==> r == e
  {
    if IsRuntimeError(e) then Prefixed(prefix, e) else e
  }

  /** A JSON library access whose failure is the library's exception. */
  function OrJsonFailure<T>(o: Option<T>): Result<T, Error> {
    match o
    case Some(v) => Success(v)
    case None => Failure(JsonFailure)
  }
}

=== FILE: frame_data.dfy ===
/** The frame-readiness aggregator `GetValidFrameData`
    (Source/Helpers/HelperFunctions.h): four engine listeners that raise
    flags as images, extrinsic data, intrinsic data and tracking states
    arrive, and a readiness test that polls the engine and checks the flags
    the required set names.  The engine's listener table is a multiset of
    (listener, client) registrations; the client is the object's address,
    modelled as a number. */
module FrameData {
  import opened Wrappers
  import opened JsonValue
  import opened Handles
  import opened Failures
  import opened Engine

  /** `GetValidFrameData::Required`. */
  datatype Required = ImageIntrinsicExtrinsic | ImageIntrinsic

  /** The required set when the constructor is given none. */
  const DefaultRequired := ImageIntrinsicExtrinsic

  datatype Listener = ImageListener | ExtrinsicDataListener | IntrinsicDataListener | TrackingStateListener

  datatype Registration = Registration(listener: Listener, client: nat)

  datatype Frame = Frame(
    worker: Ptr,
    gotValidImage: bool,
    gotValidExtrinsicData: bool,
    gotExtrinsicData: bool,
    gotValidIntrinsicData: bool,
    required: Required,
    timeStamp: real,
    quality: real)

  /** The four registrations an object at `client` makes. */
  function Listeners(client: nat): (l: multiset<Registration>)
    ensures |l| == 4
  {
    multiset{Registration(ImageListener, client), Registration(ExtrinsicDataListener, client),
             Registration(IntrinsicDataListener, client), Registration(TrackingStateListener, client)}
  }

  /** An object together with the engine's listener table after its construction. */
  datatype Constructed = Constructed(frame: Frame, table: multiset<Registration>)

  /** `GetValidFrameData(worker, requiredElements)`: every flag down, both
      readings zero, and the four listeners added for this object. */
  function New(worker: Ptr, required: Required, client: nat, table: multiset<Registration>): (c: Constructed)
    ensures c.frame.worker == worker && c.frame.required == required
    ensures !c.frame.gotValidImage && !c.frame.gotValidExtrinsicData && !c.frame.gotExtrinsicData && !c.frame.gotValidIntrinsicData
    ensures c.frame.timeStamp == 0.0 && c.frame.quality == 0.0
    ensures c.table == table + Listeners(client)
  {
    Constructed(Frame(worker, false, false, false, false, required, 0.0, 0.0), table + Listeners(client))
  }

  /** `GetValidFrameData(const GetValidFrameData&)`: the worker, the three
      validity flags and the required set are copied; the received-extrinsic
      flag and both readings are left at their defaults; the copy registers
      its own four listeners. */
  function Copy(other: Frame, client: nat, table: multiset<Registration>): (c: Constructed)
    ensures c.frame.worker == other.worker && c.frame.required == other.required
    ensures c.frame.gotValidImage == other.gotValidImage
    ensures c.frame.gotValidExtrinsicData == other.gotValidExtrinsicData
    ensures c.frame.gotValidIntrinsicData == other.gotValidIntrinsicData
    ensures !c.frame.gotExtrinsicData && c.frame.timeStamp == 0.0 && c.frame.quality == 0.0
    ensures c.table == table + Listeners(client)
  {
    Constructed(Frame(other.worker, other.gotValidImage, other.gotValidExtrinsicData, false,
                      other.gotValidIntrinsicData, other.required, 0.0, 0.0),
                table + Listeners(client))
  }

  /** `~GetValidFrameData()`: the four listeners of this object are removed. */
  function Destroy(client: nat, table: multiset<Registration>): (t: multiset<Registration>)
    ensures t <= table
    ensures forall r: Registration :: r.client != client ==> t[r] == table[r]
  {
    table - Listeners(client)
  }

  /** Constructing and then destroying an object, fresh or copied, leaves the
      engine's listener table as it was. */
  lemma ConstructDestroyBalanced(worker: Ptr, required: Required, other: Frame, client: nat, table: multiset<Registration>)
    ensures Destroy(client, New(worker, required, client, table).table) == table
    ensures Destroy(client, Copy(other, client, table).table) == table
  {
    assert table + Listeners(client) - Listeners(client) == table;
  }

  /** Destroying the original leaves the listeners of a copy in place. */
  lemma CopyOutlivesOriginal(original: nat, copy: nat, other: Frame, table: multiset<Registration>)
    requires original != copy
    ensures Destroy(original, Copy(other, copy, table + Listeners(original)).table) == table + Listeners(copy)
  {
    var t := table + Listeners(original) + Listeners(copy);
    assert Copy(other, copy, table + Listeners(original)).table == t;
    assert t - Listeners(original) == table + Listeners(copy) by {
      forall r
        ensures (t - Listeners(original))[r] == (table + Listeners(copy))[r]
      {
        if r.client == original {
          assert Listeners(copy)[r] == 0;
        } else {
          assert Listeners(original)[r] == 0;
        }
      }
    }
  }

  /** What the engine hands a listener: an image's size, an extrinsic data
      wrapper (null or not) with the validity it reports, an intrinsic data
      wrapper, or a tracking-state text. */
  datatype Event =
    | ImageEvent(width: nat, height: nat)
    | ExtrinsicDataEvent(data: Ptr, valid: bool)
    | IntrinsicDataEvent(data: Ptr)
    | TrackingStateEvent(state: Payload)

  /** The state after a handler, and the exception it raised, if any. */
  datatype Handled = Handled(frame: Frame, error: Option<Error>)

  /** `handleTrackingStateEvent(data)`: `parse(data)["objects"][0]`, then the
      number under `"timeStamp"` and the number under `"quality"`, read in
      that order, so a failure on `"quality"` leaves the new time stamp in place. */
  function HandleTrackingState(f: Frame, state: Payload): (h: Handled)
    ensures h.frame.(timeStamp := f.timeStamp, quality := f.quality) == f
    ensures h.error.None? <==> TrackedNumber(state, "timeStamp").Some? && TrackedNumber(state, "quality").Some?
    ensures h.error.None? ==>
      h.frame.timeStamp == TrackedNumber(state, "timeStamp").value && h.frame.quality == TrackedNumber(state, "quality").value
    ensures h.error.Some? ==> h.error.value == JsonFailure && h.frame.quality == f.quality
    ensures h.error.Some? ==>
      h.frame.timeStamp == (if TrackedNumber(state, "timeStamp").Some? then TrackedNumber(state, "timeStamp").value else f.timeStamp)
  {
    match TrackedNumber(state, "timeStamp")
    case None => Handled(f, Some(JsonFailure))
    case Some(t) =>
      match TrackedNumber(state, "quality")
      case None => Handled(f.(timeStamp := t), Some(JsonFailure))
      case Some(q) => Handled(f.(timeStamp := t, quality := q), None)
  }

  /** The first tracked object of a tracking state: `["objects"]` and `[0]` on
      the parsed (mutable) value. */
  function TrackedObject(state: Payload): Option<Json> {
    var j :- state.parsed;
    var objects :- Index(j, "objects");
    IndexAt(objects, 0)
  }

  /** `trackedObject[key].get<double>()` on the (constant) first tracked object. */
  function TrackedNumber(state: Payload, key: string): (r: Option<real>)
    ensures r.Some? <==> TrackedObject(state).Some? && TrackedObject(state).value.Obj?
                         && key in TrackedObject(state).value.fields && TrackedObject(state).value.fields[key].Num?
    ensures r.Some? ==> r.value == TrackedObject(state).value.fields[key].x
  {
    var o :- TrackedObject(state);
    var v :- At(o, key);
    AsDouble(v)
  }

  /** A boolean time stamp is not a number to `get<double>()`: the handler
      fails on it and keeps the previous readings. */
  lemma BooleanTimeStampRefused(f: Frame, text: string, b: bool, q: real)
    ensures var state := Payload(text, Some(Obj(map["objects" := Arr([Obj(map["timeStamp" := Bool(b), "quality" := Num(q)])])])));
      HandleTrackingState(f, state) == Handled(f, Some(JsonFailure))
  {
    var state := Payload(text, Some(Obj(map["objects" := Arr([Obj(map["timeStamp" := Bool(b), "quality" := Num(q)])])])));
    assert TrackedObject(state) == Some(Obj(map["timeStamp" := Bool(b), "quality" := Num(q)]));
  }

  /** Dispatches one event to its handler.  The image handler raises the
      image flag for a non-empty image; the extrinsic handler raises the
      received flag for a non-null wrapper and, independently, the valid flag
      when the engine reports the data valid; the intrinsic handler raises its
      flag for a non-null wrapper; no handler lowers a flag. */
  function Handle(f: Frame, ev: Event): (h: Handled)
    ensures h.error.Some? ==> ev.TrackingStateEvent?
    ensures h.frame.worker == f.worker && h.frame.required == f.required
    ensures h.frame.gotValidImage <==> f.gotValidImage || (ev.ImageEvent? && ev.width > 0 && ev.height > 0)
    ensures h.frame.gotExtrinsicData <==> f.gotExtrinsicData || (ev.ExtrinsicDataEvent? && ev.data != NullPtr)
    ensures h.frame.gotValidExtrinsicData <==> f.gotValidExtrinsicData || (ev.ExtrinsicDataEvent? && ev.valid)
    ensures h.frame.gotValidIntrinsicData <==> f.gotValidIntrinsicData || (ev.IntrinsicDataEvent? && ev.data != NullPtr)
    ensures !ev.TrackingStateEvent? ==> h.frame.timeStamp == f.timeStamp && h.frame.quality == f.quality
  {
    match ev
    case ImageEvent(width, height) =>
      Handled(if width > 0 && height > 0 then f.(gotValidImage := true) else f, None)
    case ExtrinsicDataEvent(data, valid) =>
      var received := if data != NullPtr then f.(gotExtrinsicData := true) else f;
      Handled(if valid then received.(gotValidExtrinsicData := true) else received, None)
    case IntrinsicDataEvent(data) =>
      Handled(if data != NullPtr then f.(gotValidIntrinsicData := true) else f, None)
    case TrackingStateEvent(state) =>
      HandleTrackingState(f, state)
  }

  /** Delivers events in order; an exception out of a handler ends the
      delivery, and only the tracking-state handler throws. */
  function Deliver(f: Frame, evs: seq<Event>): (h: Handled)
    ensures h.frame.worker == f.worker && h.frame.required == f.required
    ensures (forall k :: 0 <= k < |evs| ==> !evs[k].TrackingStateEvent?) ==> h.error.None?
    decreases |evs|
  {
    if evs == [] then Handled(f, None)
    else
      var h := Handle(f, evs[0]);
      if h.error.Some? then h else Deliver(h.frame, evs[1..])
  }

  /** Every flag raised before is still raised after. */
  predicate FlagsKept(f: Frame, g: Frame) {
    && (f.gotValidImage ==> g.gotValidImage)
    && (f.gotValidExtrinsicData ==> g.gotValidExtrinsicData)
    && (f.gotExtrinsicData ==> g.gotExtrinsicData)
    && (f.gotValidIntrinsicData ==> g.gotValidIntrinsicData)
    && f.worker == g.worker && f.required == g.required
  }

  /** Whatever the engine delivers, flags only ever go up. */
  lemma {:induction false} DeliverKeepsFlags(f: Frame, evs: seq<Event>)
    ensures FlagsKept(f, Deliver(f, evs).frame)
    decreases |evs|
  {
    if evs != [] {
      var h := Handle(f, evs[0]);
      if h.error.None? {
        DeliverKeepsFlags(h.frame, evs[1..]);
      }
    }
  }

  /** A non-empty image among the delivered events (with no exception before
      it) leaves the image flag raised. */
  lemma {:induction false} DeliverRaisesImage(f: Frame, evs: seq<Event>, i: nat)
    requires i < |evs| && evs[i].ImageEvent? && evs[i].width > 0 && evs[i].height > 0
    requires forall k :: 0 <= k < i ==> !evs[k].TrackingStateEvent?
    ensures Deliver(f, evs).frame.gotValidImage
    decreases |evs|
  {
    var h := Handle(f, evs[0]);
    if i == 0 {
      DeliverKeepsFlags(h.frame, evs[1..]);
    } else {
      DeliverRaisesImage(h.frame, evs[1..], i - 1);
    }
  }

  /** The flags `operator()` checks, by required set. */
  function Ready(f: Frame): (ready: bool)
    ensures ready ==> f.gotValidImage && f.gotValidIntrinsicData
    ensures f.required == ImageIntrinsic ==> (ready <==> f.gotValidImage && f.gotValidIntrinsicData)
    ensures f.required == ImageIntrinsicExtrinsic ==> (ready <==> f.gotValidImage && f.gotValidIntrinsicData && f.gotValidExtrinsicData)
  {
    match f.required
    case ImageIntrinsicExtrinsic => f.gotValidImage && f.gotValidIntrinsicData && f.gotValidExtrinsicData
    case ImageIntrinsic => f.gotValidImage && f.gotValidIntrinsicData
  }

  /** One evaluation of `operator()`, and the engine calls it made. */
  datatype Poll = Poll(frame: Frame, ready: bool, calls: seq<Call>, error: Option<Error>)

  /** `operator()`: polls the engine, which dispatches the pending events to
      the handlers, then reports whether the required flags are raised. */
  function Evaluate(f: Frame, pending: seq<Event>): (p: Poll)
    ensures p.calls == [PollEvents]
    ensures p.frame == Deliver(f, pending).frame
    ensures FlagsKept(f, p.frame)
    ensures p.error.None? ==> (p.ready <==> Ready(p.frame))
  {
    DeliverKeepsFlags(f, pending);
    var h := Deliver(f, pending);
    Poll(h.frame, h.error.None? && Ready(h.frame), [PollEvents], h.error)
  }

  /** Once ready, every later evaluation that raises no exception is ready too. */
  lemma StaysReady(f: Frame, pending: seq<Event>)
    requires Ready(f)
    ensures Evaluate(f, pending).error.None? ==> Evaluate(f, pending).ready
  {
    var g := Evaluate(f, pending).frame;
    assert FlagsKept(f, g);
  }

  /** The default set asks strictly more than `ImageIntrinsic`: whatever the
      flags, readiness under the default set implies readiness under the
      other, and the two disagree exactly for an image and intrinsics without
      valid extrinsic data. */
  lemma RequiredSetsDiffer(f: Frame)
    ensures Ready(f.(required := DefaultRequired)) ==> Ready(f.(required := ImageIntrinsic))
    ensures Ready(f.(required := ImageIntrinsic)) != Ready(f.(required := DefaultRequired))
            <==> f.gotValidImage && f.gotValidIntrinsicData && !f.gotValidExtrinsicData
  {
  }
}

=== FILE: handles.dfy ===
/** Owning handles of engine resources (Source/Helpers/PointerHandler.h).

    Each handle kind is a `std::unique_ptr` whose deleter (`DeleteFunctor`)
    calls one release function of the engine, fixed at compile time.  Pointers
    are modelled as natural numbers, 0 being null.  A `Scope` is a set of live
    handle variables together with the log of release calls made so far; the
    operations of `Op` are the `unique_ptr` operations the code uses. */
module Handles {
  import opened Wrappers

  type Ptr = nat

  const NullPtr: Ptr := 0

  /** The six owning-handle aliases. */
  datatype Kind =
    | ByteBuffer
    | ExtrinsicData
    | SimilarityTransform
    | Image
    | IntrinsicData
    | Worker

  /** The engine's release functions. */
  datatype ReleaseFn =
    | VlReleaseBinaryBuffer
    | VlDeleteExtrinsicDataWrapper
    | VlDeleteSimilarityTransformWrapper
    | VlDeleteImageWrapper
    | VlDeleteIntrinsicDataWrapper
    | VlDeleteWorker

  /** The release function each alias binds into its deleter. */
  function ReleaseFnOf(k: Kind): ReleaseFn {
    match k
    case ByteBuffer => VlReleaseBinaryBuffer
    case ExtrinsicData => VlDeleteExtrinsicDataWrapper
    case SimilarityTransform => VlDeleteSimilarityTransformWrapper
    case Image => VlDeleteImageWrapper
    case IntrinsicData => VlDeleteIntrinsicDataWrapper
    case Worker => VlDeleteWorker
  }

  /** The resource kind a release function is meant for. */
  function KindReleasedBy(f: ReleaseFn): Kind {
    match f
    case VlReleaseBinaryBuffer => ByteBuffer
    case VlDeleteExtrinsicDataWrapper => ExtrinsicData
    case VlDeleteSimilarityTransformWrapper => SimilarityTransform
    case VlDeleteImageWrapper => Image
    case VlDeleteIntrinsicDataWrapper => IntrinsicData
    case VlDeleteWorker => Worker
  }

  /** Kinds and release functions are paired one to one: no two kinds share a
      release function and every release function belongs to exactly one kind. */
  lemma ReleasePairing(k: Kind, f: ReleaseFn)
    ensures KindReleasedBy(ReleaseFnOf(k)) == k
    ensures ReleaseFnOf(KindReleasedBy(f)) == f
    ensures ReleaseFnOf(k) == f <==> KindReleasedBy(f) == k
  {
  }

  datatype ReleaseCall = ReleaseCall(fn: ReleaseFn, ptr: Ptr)

  /** `DeleteFunctor<T, DeleteFn>::operator()(ptr)`: one call of the bound
      release function on exactly the given pointer. */
  function DeleteFunctor(k: Kind, p: Ptr): (c: ReleaseCall)
    ensures c.ptr == p
    ensures KindReleasedBy(c.fn) == k
  {
    ReleaseCall(ReleaseFnOf(k), p)
  }

  /** The release calls a handle of kind `k` makes when it gives up pointer
      `p`: none for null, exactly one otherwise. */
  function ReleaseIfSet(k: Kind, p: Ptr): (calls: seq<ReleaseCall>)
    ensures |calls| == if p == NullPtr then 0 else 1
    ensures forall c :: c in calls ==> c.ptr == p && c.fn == ReleaseFnOf(k)
  {
    if p == NullPtr then [] else [DeleteFunctor(k, p)]
  }

  datatype UniquePtr = UniquePtr(kind: Kind, ptr: Ptr)

  /** Live handle variables, the release calls made so far and every non-null
      pointer ever handed to a handle, with its kind. */
  datatype Scope = Scope(slots: map<nat, UniquePtr>, log: seq<ReleaseCall>, acquired: map<Ptr, Kind>)

  const EmptyScope := Scope(map[], [], map[])

  datatype Op =
    /** `Handle v(p);` */
    | Construct(v: nat, kind: Kind, p: Ptr)
    /** `v.reset(p);` */
    | Reset(v: nat, p: Ptr)
    /** `Handle dst(std::move(src));` */
    | MoveConstruct(dst: nat, src: nat)
    /** `dst = std::move(src);` */
    | MoveAssign(dst: nat, src: nat)
    /** End of the lifetime of `v` (scope exit, stack unwinding, owner destroyed). */
    | Destroy(v: nat)

  /** A pointer that may be handed to a handle: null, or one no handle has owned yet. */
  predicate Fresh(s: Scope, p: Ptr) {
    p == NullPtr || p !in s.acquired
  }

  /** What the C++ program must respect for the operation to be well-formed:
      live variables, matching handle types, and pointers not owned elsewhere. */
  predicate Allowed(s: Scope, op: Op) {
    match op
    case Construct(v, _, p) => v !in s.slots && Fresh(s, p)
    case Reset(v, p) => v in s.slots && Fresh(s, p)
    case MoveConstruct(dst, src) => dst !in s.slots && src in s.slots
    case MoveAssign(dst, src) =>
      dst in s.slots && src in s.slots && s.slots[dst].kind == s.slots[src].kind
    case Destroy(v) => v in s.slots
  }

  function Acquire(acquired: map<Ptr, Kind>, k: Kind, p: Ptr): map<Ptr, Kind> {
    if p == NullPtr then acquired else acquired[p := k]
  }

  /** The effect of one `unique_ptr` operation. */
  function Apply(s: Scope, op: Op): Scope
    requires Allowed(s, op)
  {
    match op
    case Construct(v, k, p) =>
      Scope(s.slots[v := UniquePtr(k, p)], s.log, Acquire(s.acquired, k, p))
    case Reset(v, p) =>
      // store the new pointer first, then release the old one if it was set
      var h := s.slots[v];
      Scope(s.slots[v := UniquePtr(h.kind, p)], s.log + ReleaseIfSet(h.kind, h.ptr),
            Acquire(s.acquired, h.kind, p))
    case MoveConstruct(dst, src) =>
      var h := s.slots[src];
      Scope(s.slots[src := UniquePtr(h.kind, NullPtr)][dst := h], s.log, s.acquired)
    case MoveAssign(dst, src) =>
      // `dst.reset(src.release())`
      var p := s.slots[src].ptr;
      var released := s.slots[src := UniquePtr(s.slots[src].kind, NullPtr)];
      var prev := released[dst];
      Scope(released[dst := UniquePtr(prev.kind, p)], s.log + ReleaseIfSet(prev.kind, prev.ptr), s.acquired)
    case Destroy(v) =>
      var h := s.slots[v];
      Scope(s.slots - {v}, s.log + ReleaseIfSet(h.kind, h.ptr), s.acquired)
  }

  /** Runs a sequence of operations; `None` when one of them is not well-formed. */
  function Run(s: Scope, ops: seq<Op>): Option<Scope>
    decreases |ops|
  {
    if ops == [] then Some(s)
    else if Allowed(s, ops[0]) then Run(Apply(s, ops[0]), ops[1..])
    else None
  }

  /** How often `p` has been released. */
  function Released(log: seq<ReleaseCall>, p: Ptr): nat {
    if log == [] then 0
    else Released(log[..|log| - 1], p) + (if log[|log| - 1].ptr == p then 1 else 0)
  }

  lemma ReleasedAppend(log: seq<ReleaseCall>, extra: seq<ReleaseCall>, p: Ptr)
    ensures Released(log + extra, p) == Released(log, p) + Released(extra, p)
    decreases |extra|
  {
    if extra == [] {
      assert log + extra == log;
    } else {
      var n := |extra| - 1;
      assert (log + extra)[..|log + extra| - 1] == log + extra[..n];
      ReleasedAppend(log, extra[..n], p);
    }
  }

  /** The set of non-null pointers currently held by some handle. */
  function Owned(slots: map<nat, UniquePtr>): set<Ptr> {
    set v | v in slots && slots[v].ptr != NullPtr :: slots[v].ptr
  }

  /** The ownership invariant: every held pointer is acquired, with its kind;
      no two handles hold the same pointer; an acquired pointer has been
      released once exactly when no handle holds it any more, and never more
      often; every release call names an acquired pointer and its matching
      release function. */
  predicate Inv(s: Scope) {
    && NullPtr !in s.acquired
    && HeldAcquired(s)
    && Unique(s)
    && ReleaseCounts(s)
    && LogValid(s)
  }

  /** Every held pointer is acquired, with the kind of its handle. */
  predicate HeldAcquired(s: Scope) {
    forall v :: v in s.slots && s.slots[v].ptr != NullPtr ==>
      s.slots[v].ptr in s.acquired && s.acquired[s.slots[v].ptr] == s.slots[v].kind
  }

  /** No two handles hold the same pointer. */
  predicate Unique(s: Scope) {
    forall v, w :: v in s.slots && w in s.slots && v != w && s.slots[v].ptr != NullPtr ==>
      s.slots[v].ptr != s.slots[w].ptr
  }

  /** Every release call names an acquired pointer and its kind's release function. */
  predicate LogValid(s: Scope) {
    forall i :: 0 <= i < |s.log| ==>
      s.log[i].ptr in s.acquired && s.log[i].fn == ReleaseFnOf(s.acquired[s.log[i].ptr])
  }

  /** An acquired pointer has been released once exactly when no handle holds it. */
  predicate ReleaseCounts(s: Scope) {
    forall p :: p in s.acquired ==> Released(s.log, p) == if p in Owned(s.slots) then 0 else 1
  }

  lemma EmptyScopeInv()
    ensures Inv(EmptyScope)
  {
  }

  /** A pointer never acquired has never been released. */
  lemma NotAcquiredNotReleased(s: Scope, p: Ptr)
    requires Inv(s)
    requires p !in s.acquired
    ensures Released(s.log, p) == 0
  {
    ReleasedZero(s.log, p);
  }

  lemma ReleasedZero(log: seq<ReleaseCall>, p: Ptr)
    requires forall i :: 0 <= i < |log| ==> log[i].ptr != p
    ensures Released(log, p) == 0
    decreases |log|
  {
    if log != [] {
      ReleasedZero(log[..|log| - 1], p);
    }
  }

  lemma ReleaseIfSetCount(k: Kind, q: Ptr, p: Ptr)
    ensures Released(ReleaseIfSet(k, q), p) == if q != NullPtr && q == p then 1 else 0
  {
    if q != NullPtr {
      assert ReleaseIfSet(k, q)[..0] == [];
    }
  }

  lemma OwnedWitness(slots: map<nat, UniquePtr>, v: nat)
    requires v in slots && slots[v].ptr != NullPtr
    ensures slots[v].ptr in Owned(slots)
  {
  }

  lemma NotOwned(slots: map<nat, UniquePtr>, q: Ptr)
    requires forall w :: w in slots ==> slots[w].ptr != q
    ensures q !in Owned(slots)
  {
  }

  /** Replacing the handle in one variable does not change whether some other
      pointer is held. */
  lemma OwnedUpdateOther(slots: map<nat, UniquePtr>, v: nat, h: UniquePtr, q: Ptr)
    requires q != NullPtr && q != h.ptr
    requires v in slots ==> slots[v].ptr != q
    ensures q in Owned(slots[v := h]) <==> q in Owned(slots)
  {
    var slots' := slots[v := h];
    if q in Owned(slots) {
      var w :| w in slots && slots[w].ptr != NullPtr && slots[w].ptr == q;
      assert w != v;
      OwnedWitness(slots', w);
    }
    if q in Owned(slots') {
      var w :| w in slots' && slots'[w].ptr != NullPtr && slots'[w].ptr == q;
      assert w != v;
      OwnedWitness(slots, w);
    }
  }

  lemma OwnedRemoveOther(slots: map<nat, UniquePtr>, v: nat, q: Ptr)
    requires q != NullPtr
    requires v in slots ==> slots[v].ptr != q
    ensures q in Owned(slots - {v}) <==> q in Owned(slots)
  {
    var slots' := slots - {v};
    if q in Owned(slots) {
      var w :| w in slots && slots[w].ptr != NullPtr && slots[w].ptr == q;
      OwnedWitness(slots', w);
    }
  }

  /** Appending the release calls `extra` adds their count to every pointer. */
  lemma ReleasedAfter(log: seq<ReleaseCall>, k: Kind, prev: Ptr, q: Ptr)
    ensures Released(log + ReleaseIfSet(k, prev), q)
         == Released(log, q) + if prev != NullPtr && prev == q then 1 else 0
  {
    ReleasedAppend(log, ReleaseIfSet(k, prev), q);
    ReleaseIfSetCount(k, prev, q);
  }

  /** Appending release calls for an acquired pointer, with its own release
      function, keeps every logged call well-formed. */
  lemma LogWellFormed(s: Scope, k: Kind, prev: Ptr, acquired: map<Ptr, Kind>)
    requires forall i :: 0 <= i < |s.log| ==>
      s.log[i].ptr in s.acquired && s.log[i].fn == ReleaseFnOf(s.acquired[s.log[i].ptr])
    requires s.acquired.Keys <= acquired.Keys
    requires forall p :: p in s.acquired ==> acquired[p] == s.acquired[p]
    requires prev != NullPtr ==> prev in acquired && acquired[prev] == k
    ensures var log := s.log + ReleaseIfSet(k, prev);
      forall i :: 0 <= i < |log| ==> log[i].ptr in acquired && log[i].fn == ReleaseFnOf(acquired[log[i].ptr])
  {
    var log := s.log + ReleaseIfSet(k, prev);
    forall i | 0 <= i < |log|
      ensures log[i].ptr in acquired && log[i].fn == ReleaseFnOf(acquired[log[i].ptr])
    {
      if i < |s.log| {
        assert log[i] == s.log[i];
      } else {
        assert log[i] in ReleaseIfSet(k, prev);
      }
    }
  }

  lemma ConstructReleaseCounts(s: Scope, v: nat, k: Kind, p: Ptr)
    requires Inv(s) && Allowed(s, Construct(v, k, p))
    ensures ReleaseCounts(Apply(s, Construct(v, k, p)))
  {
    var s' := Apply(s, Construct(v, k, p));
    if p != NullPtr {
      NotAcquiredNotReleased(s, p);
      OwnedWitness(s'.slots, v);
    }
    forall q | q in s'.acquired
      ensures Released(s'.log, q) == if q in Owned(s'.slots) then 0 else 1
    {
      if q != p {
        OwnedUpdateOther(s.slots, v, UniquePtr(k, p), q);
      }
    }
  }

  lemma ConstructShape(s: Scope, v: nat, k: Kind, p: Ptr)
    requires Inv(s) && Allowed(s, Construct(v, k, p))
    ensures HeldAcquired(Apply(s, Construct(v, k, p))) && Unique(Apply(s, Construct(v, k, p)))
  {
  }

  lemma ConstructPreservesInv(s: Scope, v: nat, k: Kind, p: Ptr)
    requires Inv(s) && Allowed(s, Construct(v, k, p))
    ensures Inv(Apply(s, Construct(v, k, p)))
  {
    ConstructReleaseCounts(s, v, k, p);
    ConstructShape(s, v, k, p);
  }

  lemma ResetReleaseCounts(s: Scope, v: nat, p: Ptr)
    requires Inv(s) && Allowed(s, Reset(v, p))
    ensures ReleaseCounts(Apply(s, Reset(v, p)))
  {
    var h := s.slots[v];
    var s' := Apply(s, Reset(v, p));
    if p != NullPtr {
      NotAcquiredNotReleased(s, p);
    }
    forall q | q in s'.acquired
      ensures Released(s'.log, q) == if q in Owned(s'.slots) then 0 else 1
    {
      ReleasedAfter(s.log, h.kind, h.ptr, q);
      if q == p {
        OwnedWitness(s'.slots, v);
      } else if q == h.ptr {
        OwnedWitness(s.slots, v);
        NotOwned(s'.slots, q);
      } else {
        OwnedUpdateOther(s.slots, v, UniquePtr(h.kind, p), q);
      }
    }
  }

  lemma ResetShape(s: Scope, v: nat, p: Ptr)
    requires Inv(s) && Allowed(s, Reset(v, p))
    ensures HeldAcquired(Apply(s, Reset(v, p))) && Unique(Apply(s, Reset(v, p)))
  {
  }

  lemma ResetPreservesInv(s: Scope, v: nat, p: Ptr)
    requires Inv(s) && Allowed(s, Reset(v, p))
    ensures Inv(Apply(s, Reset(v, p)))
  {
    ResetReleaseCounts(s, v, p);
    ResetShape(s, v, p);
    var h := s.slots[v];
    var s' := Apply(s, Reset(v, p));
    LogWellFormed(s, h.kind, h.ptr, s'.acquired);
  }

  lemma MoveConstructPreservesInv(s: Scope, dst: nat, src: nat)
    requires Inv(s) && Allowed(s, MoveConstruct(dst, src))
    ensures Inv(Apply(s, MoveConstruct(dst, src)))
  {
    var h := s.slots[src];
    var step := s.slots[src := UniquePtr(h.kind, NullPtr)];
    var s' := Apply(s, MoveConstruct(dst, src));
    forall q | q in s'.acquired
      ensures Released(s'.log, q) == if q in Owned(s'.slots) then 0 else 1
    {
      if q == h.ptr {
        OwnedWitness(s.slots, src);
        OwnedWitness(s'.slots, dst);
      } else {
        OwnedUpdateOther(s.slots, src, UniquePtr(h.kind, NullPtr), q);
        OwnedUpdateOther(step, dst, h, q);
      }
    }
  }

  lemma MoveAssignReleaseCounts(s: Scope, dst: nat, src: nat)
    requires Inv(s) && Allowed(s, MoveAssign(dst, src))
    ensures ReleaseCounts(Apply(s, MoveAssign(dst, src)))
  {
    var p := s.slots[src].ptr;
    var step := s.slots[src := UniquePtr(s.slots[src].kind, NullPtr)];
    var prev := step[dst];
    var s' := Apply(s, MoveAssign(dst, src));
    assert s'.slots == step[dst := UniquePtr(prev.kind, p)];
    forall q | q in s'.acquired
      ensures Released(s'.log, q) == if q in Owned(s'.slots) then 0 else 1
    {
      ReleasedAfter(s.log, prev.kind, prev.ptr, q);
      if q == p {
        OwnedWitness(s.slots, src);
        OwnedWitness(s'.slots, dst);
      } else if q == prev.ptr {
        OwnedWitness(s.slots, dst);
        NotOwned(s'.slots, q);
      } else {
        OwnedUpdateOther(s.slots, src, UniquePtr(s.slots[src].kind, NullPtr), q);
        OwnedUpdateOther(step, dst, UniquePtr(prev.kind, p), q);
      }
    }
  }

  lemma MoveAssignShape(s: Scope, dst: nat, src: nat)
    requires Inv(s) && Allowed(s, MoveAssign(dst, src))
    ensures HeldAcquired(Apply(s, MoveAssign(dst, src))) && Unique(Apply(s, MoveAssign(dst, src)))
  {
  }

  lemma MoveAssignPreservesInv(s: Scope, dst: nat, src: nat)
    requires Inv(s) && Allowed(s, MoveAssign(dst, src))
    ensures Inv(Apply(s, MoveAssign(dst, src)))
  {
    MoveAssignReleaseCounts(s, dst, src);
    MoveAssignShape(s, dst, src);
    var step := s.slots[src := UniquePtr(s.slots[src].kind, NullPtr)];
    var prev := step[dst];
    var s' := Apply(s, MoveAssign(dst, src));
    LogWellFormed(s, prev.kind, prev.ptr, s'.acquired);
  }

  lemma DestroyPreservesInv(s: Scope, v: nat)
    requires Inv(s) && Allowed(s, Destroy(v))
    ensures Inv(Apply(s, Destroy(v)))
  {
    var h := s.slots[v];
    var s' := Apply(s, Destroy(v));
    forall q | q in s'.acquired
      ensures Released(s'.log, q) == if q in Owned(s'.slots) then 0 else 1
    {
      ReleasedAfter(s.log, h.kind, h.ptr, q);
      if q == h.ptr {
        OwnedWitness(s.slots, v);
        NotOwned(s'.slots, q);
      } else {
        OwnedRemoveOther(s.slots, v, q);
      }
    }
    LogWellFormed(s, h.kind, h.ptr, s'.acquired);
  }

  /** Every well-formed `unique_ptr` operation preserves the ownership invariant. */
  lemma ApplyPreservesInv(s: Scope, op: Op)
    requires Inv(s) && Allowed(s, op)
    ensures Inv(Apply(s, op))
  {
    match op
    case Construct(v, k, p) => ConstructPreservesInv(s, v, k, p);
    case Reset(v, p) => ResetPreservesInv(s, v, p);
    case MoveConstruct(dst, src) => MoveConstructPreservesInv(s, dst, src);
    case MoveAssign(dst, src) => MoveAssignPreservesInv(s, dst, src);
    case Destroy(v) => DestroyPreservesInv(s, v);
  }

  lemma {:induction false} RunPreservesInv(s: Scope, ops: seq<Op>)
    requires Inv(s)
    requires Run(s, ops).Some?
    ensures Inv(Run(s, ops).value)
    decreases |ops|
  {
    if ops != [] {
      ApplyPreservesInv(s, ops[0]);
      RunPreservesInv(Apply(s, ops[0]), ops[1..]);
    }
  }

  /** Exactly-once release: after any well-formed sequence of constructions,
      resets, moves and destructions that ends with every handle destroyed,
      each pointer ever owned has been released exactly once, by the release
      function of its own kind, and null has never been released. */
  lemma ExactlyOnceRelease(ops: seq<Op>)
    requires Run(EmptyScope, ops).Some?
    requires Run(EmptyScope, ops).value.slots == map[]
    ensures var s := Run(EmptyScope, ops).value;
      && (forall p :: p in s.acquired ==> Released(s.log, p) == 1)
      && (forall c :: c in s.log ==> c.ptr != NullPtr && c.ptr in s.acquired && c.fn == ReleaseFnOf(s.acquired[c.ptr]))
  {
    EmptyScopeInv();
    RunPreservesInv(EmptyScope, ops);
    var s := Run(EmptyScope, ops).value;
    assert Owned(s.slots) == {};
  }

  /** While some handle still holds a pointer, that pointer has not been released. */
  lemma HeldNeverReleased(ops: seq<Op>, v: nat)
    requires Run(EmptyScope, ops).Some?
    requires v in Run(EmptyScope, ops).value.slots
    ensures var s := Run(EmptyScope, ops).value;
      Released(s.log, s.slots[v].ptr) == 0
  {
    EmptyScopeInv();
    RunPreservesInv(EmptyScope, ops);
    var s := Run(EmptyScope, ops).value;
    var p := s.slots[v].ptr;
    if p != NullPtr {
      assert p in Owned(s.slots);
    } else {
      ReleasedZero(s.log, p);
    }
  }
}

=== FILE: json.dfy ===
/** JSON values, structurally, and the parts of the JSON library's access
    semantics that the modelled code relies on.  Text (`dump` / `parse`) is
    not modelled: where the code parses text, the parse outcome is an input
    (see `Engine.Payload`).  Every access that the library answers with an
    exception yields `None` here; callers turn that into `Failures.JsonFailure`. */
module JsonValue {
  import opened Wrappers

  /** Numbers are kept as mathematical reals: the library's distinction between
      integer, unsigned and floating numbers, and float rounding, are not modelled. */
  datatype Json =
    | Null
    | Bool(b: bool)
    | Num(x: real)
    | Str(s: string)
    | Arr(items: seq<Json>)
    | Obj(fields: map<string, Json>)

  /** `j[key]` on a mutable value: an object yields the member or a freshly
      inserted null, a null value silently becomes an object, anything else throws. */
  function Index(j: Json, key: string): (r: Option<Json>)
    ensures r.None? <==> !(j.Obj? || j.Null?)
    ensures r.Some? ==> r.value == if j.Obj? && key in j.fields then j.fields[key] else Null
  {
    match j
    case Obj(fields) => if key in fields then Some(fields[key]) else Some(Null)
    case Null => Some(Null)
    case _ => None
  }

  /** `j.at(key)` and `j[key]` on a constant value: a missing key or a non-object
      throws (for the constant `operator[]` a missing key is undefined behaviour
      in the library; the model treats it as a failure as well). */
  function At(j: Json, key: string): (r: Option<Json>)
    ensures r.Some? <==> j.Obj? && key in j.fields
    ensures r.Some? ==> r.value == j.fields[key]
  {
    if j.Obj? && key in j.fields then Some(j.fields[key]) else None
  }

  /** `j[i]` on a mutable value: null becomes an array padded with nulls, an
      array is padded with nulls when too short, anything else throws. */
  function IndexAt(j: Json, i: nat): (r: Option<Json>)
    ensures r.None? <==> !(j.Arr? || j.Null?)
  {
    match j
    case Null => Some(Null)
    case Arr(items) => if i < |items| then Some(items[i]) else Some(Null)
    case _ => None
  }

  /** `j.contains(key)`: false for every non-object. */
  predicate Contains(j: Json, key: string) {
    j.Obj? && key in j.fields
  }

  /** `j.get<std::string>()`. */
  function AsString(j: Json): Option<string> {
    if j.Str? then Some(j.s) else None
  }

  /** `j.get<bool>()`, also the conversion `(bool)j`. */
  function AsBool(j: Json): Option<bool> {
    if j.Bool? then Some(j.b) else None
  }

  /** The values `get<float>()` converts: numbers, and booleans (read as 1
      and 0).  The library routes every arithmetic type other than its own
      `double` through a conversion that also accepts booleans. */
  predicate IsNumeric(j: Json) {
    j.Num? || j.Bool?
  }

  function NumberOf(j: Json): real
    requires IsNumeric(j)
  {
    if j.Num? then j.x else if j.b then 1.0 else 0.0
  }

  /** `j.get<double>()`: `double` is the library's own floating-point type,
      whose conversion accepts the three number kinds only, so a boolean
      throws a type error (unlike `get<float>()`, see `NumberOf`). */
  function AsDouble(j: Json): (r: Option<real>)
    ensures r.Some? <==> j.Num?
    ensures r.Some? ==> r.value == j.x
  {
    if j.Num? then Some(j.x) else None
  }

  /** `j.get<std::array<float, n>>()`: the value must be an array; elements
      0 .. n-1 are read with `at(i)`, so a shorter array throws and any
      elements beyond n are ignored. */
  function AsNumbers(j: Json, n: nat): (r: Option<seq<real>>)
    ensures r.Some? ==> |r.value| == n
    ensures r.Some? <==> j.Arr? && n <= |j.items| && forall i :: 0 <= i < n ==> IsNumeric(j.items[i])
    ensures r.Some? ==> forall i :: 0 <= i < n ==> r.value[i] == NumberOf(j.items[i])
  {
    if j.Arr? && n <= |j.items| && forall i :: 0 <= i < n ==> IsNumeric(j.items[i]) then
      Some(seq(n, i requires 0 <= i < n => NumberOf(j.items[i])))
    else
      None
  }

  /** `j.size()`: 0 for null, the element or member count for arrays and
      objects, 1 for every other value. */
  function Size(j: Json): nat {
    match j
    case Null => 0
    case Arr(items) => |items|
    case Obj(fields) => |fields|
    case _ => 1
  }

  /** The JSON array holding the given numbers in order. */
  function Numbers(xs: seq<real>): (r: Json)
    ensures r.Arr? && |r.items| == |xs|
    ensures forall i :: 0 <= i < |xs| ==> r.items[i] == Num(xs[i])
  {
    Arr(seq(|xs|, i requires 0 <= i < |xs| => Num(xs[i])))
  }

  /** Reading back an array written by `Numbers` yields the same numbers. */
  lemma NumbersRoundTrip(xs: seq<real>)
    ensures AsNumbers(Numbers(xs), |xs|) == Some(xs)
  {
    var r := AsNumbers(Numbers(xs), |xs|);
    assert r.Some?;
    assert r.value == xs;
  }
}

=== FILE: polling.dfy ===
/** The polling primitive `waitFor` (Source/Helpers/HelperFunctions.h).

    The predicate is a state transformer `f: S -> (S, bool)`: evaluating it may
    change the state it observes (pushing a command, pumping callbacks).  The
    steady clock is a function from the number of completed iterations to a
    reading: `clock(0)` is the start time and `clock(k)` the reading taken by
    the loop condition after the k-th evaluation and its sleep.  The sleep
    itself is not modelled; it only guarantees that the clock advances, which
    `Steady` states. */
module Polling {

  /** The state after `n` evaluations of the predicate starting from `s`. */
  function StateAfter<S>(f: S -> (S, bool), s: S, n: nat): S
    decreases n
  {
    if n == 0 then s else StateAfter(f, f(s).0, n - 1)
  }

  /** The answer of the evaluation that follows the first `i` evaluations. */
  function Answer<S>(f: S -> (S, bool), s: S, i: nat): bool {
    f(StateAfter(f, s, i)).1
  }

  /** Each iteration sleeps, so every reading of the steady clock is later than the one before. */
  ghost predicate Steady(clock: nat -> int) {
    forall k: nat :: Tick(clock, k)
  }

  /** The reading after the `k`-th is later than it. */
  ghost predicate Tick(clock: nat -> int, k: nat) {
    clock(k) < clock(k + 1)
  }

  /** What `waitFor` returns, with the predicate's final state and the number
      of evaluations it made. */
  datatype Outcome<S> = Outcome(ok: bool, state: S, evaluations: nat)

  /** The do-while loop of `waitFor` after `k` completed iterations, in state `s`. */
  function WaitLoop<S>(f: S -> (S, bool), s: S, clock: nat -> int, timeout: int, k: nat): (o: Outcome<S>)
    requires Steady(clock)
    decreases clock(0) + timeout - clock(k)
    ensures o.evaluations > k
    ensures o.state == StateAfter(f, s, o.evaluations - k)
    ensures forall i :: 0 <= i < o.evaluations - k - 1 ==>
      !Answer(f, s, i) && clock(k + i + 1) - clock(0) < timeout
    ensures o.ok == Answer(f, s, o.evaluations - k - 1)
    ensures !o.ok ==> clock(o.evaluations) - clock(0) >= timeout
  {
    var (s', b) := f(s);
    if b then Outcome(true, s', k + 1)
    else if clock(k + 1) - clock(0) < timeout then
      assert Tick(clock, k);
      var o := WaitLoop(f, s', clock, timeout, k + 1);
      AnswersShift(f, s, o.evaluations - k - 1);
      o
    else Outcome(false, s', k + 1)
  }

  /** `waitFor(f, timeout)`: evaluates the predicate at least once; returns
      true at the first evaluation that yields true, without evaluating again;
      returns false only after every evaluation yielded false and a clock
      reading showed that at least `timeout` had elapsed; each iteration
      evaluates the predicate exactly once before reading the clock, and the
      loop went on after an evaluation only while the elapsed time was below
      `timeout`. */
  function WaitFor<S>(f: S -> (S, bool), s: S, clock: nat -> int, timeout: int): (o: Outcome<S>)
    requires Steady(clock)
    ensures o.evaluations >= 1
    ensures o.state == StateAfter(f, s, o.evaluations)
    ensures forall i :: 0 <= i < o.evaluations - 1 ==> !Answer(f, s, i) && clock(i + 1) - clock(0) < timeout
    ensures o.ok <==> Answer(f, s, o.evaluations - 1)
    ensures !o.ok ==> clock(o.evaluations) - clock(0) >= timeout
  {
    WaitLoop(f, s, clock, timeout, 0)
  }

  /** One evaluation before the last, as `WaitFor` reports it. */
  lemma WaitForBefore<S>(f: S -> (S, bool), s: S, clock: nat -> int, timeout: int, i: nat)
    requires Steady(clock)
    requires i < WaitFor(f, s, clock, timeout).evaluations - 1
    ensures !Answer(f, s, i) && clock(i + 1) - clock(0) < timeout
  {
  }

  /** The same loop written as the source writes it, as a `do`/`while`. */
  method WaitForLoop<S>(f: S -> (S, bool), s: S, clock: nat -> int, timeout: int) returns (ok: bool, state: S, evaluations: nat)
    requires Steady(clock)
    ensures evaluations >= 1
    ensures state == StateAfter(f, s, evaluations)
    ensures forall i :: 0 <= i < evaluations - 1 ==> !Answer(f, s, i) && clock(i + 1) - clock(0) < timeout
    ensures ok <==> Answer(f, s, evaluations - 1)
    ensures !ok ==> clock(evaluations) - clock(0) >= timeout
  {
    state := s;
    evaluations := 0;
    while true
      invariant state == StateAfter(f, s, evaluations)
      invariant forall i :: 0 <= i < evaluations ==> !Answer(f, s, i) && clock(i + 1) - clock(0) < timeout
      decreases clock(0) + timeout - clock(evaluations)
    {
      var answer: bool;
      StateAfterStep(f, s, evaluations);
      assert Answer(f, s, evaluations) == f(state).1;
      state, answer := f(state).0, f(state).1;
      evaluations := evaluations + 1;
      if answer {
        return true, state, evaluations;
      }
      if clock(evaluations) - clock(0) >= timeout {
        return false, state, evaluations;
      }
      assert Tick(clock, evaluations - 1);
    }
  }

  /** The answers after the first evaluation are those of the state it leaves. */
  lemma AnswersShift<S>(f: S -> (S, bool), s: S, n: nat)
    ensures forall i :: 1 <= i < n ==> Answer(f, s, i) == Answer(f, f(s).0, i - 1)
  {
    forall i | 1 <= i < n
      ensures Answer(f, s, i) == Answer(f, f(s).0, i - 1)
    {
      assert StateAfter(f, s, i) == StateAfter(f, f(s).0, i - 1);
    }
  }

  /** One more evaluation extends the state sequence by one step. */
  lemma {:induction false} StateAfterStep<S>(f: S -> (S, bool), s: S, n: nat)
    ensures StateAfter(f, s, n + 1) == f(StateAfter(f, s, n)).0
    decreases n
  {
    if n > 0 {
      StateAfterStep(f, f(s).0, n - 1);
    }
  }

  /** A predicate that holds immediately makes `waitFor` return true after a
      single evaluation, whatever the timeout. */
  lemma ImmediateSuccess<S>(f: S -> (S, bool), s: S, clock: nat -> int, timeout: int)
    requires Steady(clock)
    requires f(s).1
    ensures WaitFor(f, s, clock, timeout) == Outcome(true, f(s).0, 1)
  {
  }

  /** With a timeout of zero or less the predicate is still evaluated, exactly once. */
  lemma ZeroTimeoutEvaluatesOnce<S>(f: S -> (S, bool), s: S, clock: nat -> int, timeout: int)
    requires Steady(clock)
    requires timeout <= 0
    ensures WaitFor(f, s, clock, timeout).evaluations == 1
    ensures WaitFor(f, s, clock, timeout).ok == f(s).1
  {
    assert Tick(clock, 0);
  }

  lemma {:induction false} ClockAdvances(clock: nat -> int, n: nat)
    requires Steady(clock)
    ensures clock(n) - clock(0) >= n
    decreases n
  {
    if n > 0 {
      ClockAdvances(clock, n - 1);
      assert Tick(clock, n - 1);
    }
  }

  /** The loop ends: it makes at most `max(1, timeout)` evaluations, counting
      time in clock ticks. */
  lemma EvaluationsBounded<S>(f: S -> (S, bool), s: S, clock: nat -> int, timeout: int)
    requires Steady(clock)
    ensures WaitFor(f, s, clock, timeout).evaluations <= if timeout <= 1 then 1 else timeout
  {
    var o := WaitFor(f, s, clock, timeout);
    if o.evaluations > 1 {
      var i := o.evaluations - 2;
      assert !Answer(f, s, i) && clock(i + 1) - clock(0) < timeout;
      ClockAdvances(clock, i + 1);
    }
  }

  /** A predicate that never holds makes `waitFor` return false, and only once
      the elapsed time reached the timeout. */
  lemma NeverTrueTimesOut<S>(f: S -> (S, bool), s: S, clock: nat -> int, timeout: int)
    requires Steady(clock)
    requires forall i: nat :: !Answer(f, s, i)
    ensures !WaitFor(f, s, clock, timeout).ok
    ensures clock(WaitFor(f, s, clock, timeout).evaluations) - clock(0) >= timeout
  {
  }
}

=== FILE: startup.dfy ===
/** Bringing a worker and its tracker up (Source/Helpers/HelperFunctions.cpp
    and `createSyncWorker` of Source/MultiViewDetector.cpp): the worker
    fixtures, the asynchronous `createTracker` / `runTracker` /
    `startTracker` that poll a command cell with `waitFor`, and the blocking
    `startTrackerSync` and `createSyncWorker`.

    Console output on the failure paths is not modelled; only the returned
    value, the exception and the engine calls are. */
module Startup {
  import opened Wrappers
  import opened JsonValue
  import opened Handles
  import opened Failures
  import opened Commands
  import opened Engine
  import opened SyncExec
  import opened CommandCell
  import opened Polling

  /** The two fixtures differ only in the constructor they call. */
  datatype Mode = Async | Sync

  /** The engine's answers while a worker is brought up: the pointer the
      constructor returned, whether `vlWorker_Start` succeeded and whether the
      licence file was accepted. */
  datatype WorkerReplies = WorkerReplies(worker: Ptr, started: bool, licenseAccepted: bool)

  function NewCall(mode: Mode): Call {
    if mode == Async then NewWorker else NewSyncWorker
  }

  /** The engine calls that release the worker handle, when it holds one. */
  function ReleaseWorker(w: Ptr): seq<Call> {
    ReleaseCalls(Handles.Worker, w)
  }

  function WorkerReleased(w: Ptr): Call {
    Release(DeleteFunctor(Handles.Worker, w))
  }

  lemma ReleaseWorkerCount(prefix: seq<Call>, w: Ptr)
    requires WorkerReleased(w) !in prefix
    ensures Occurrences(prefix + ReleaseWorker(w), WorkerReleased(w)) == if w == NullPtr then 0 else 1
    ensures Occurrences(prefix, WorkerReleased(w)) == 0
  {
    OccurrencesAbsent(prefix, WorkerReleased(w));
    OccurrencesAppend(prefix, ReleaseWorker(w), WorkerReleased(w));
    if w != NullPtr {
      assert ReleaseWorker(w)[..0] == [];
    }
  }

  /** `AsyncWorkerFixture(licenseFile)` and `SyncWorkerFixture(licenseFile)`:
      create the worker, start it and, when a licence file is given, set it.
      The value is the owned worker pointer.  A throw after the worker member
      was set destroys that member, which releases the worker. */
  function NewFixture(mode: Mode, licenseFile: Option<string>, replies: WorkerReplies): (r: Traced<Result<Ptr, Error>>)
    ensures r.value.Success? <==>
      replies.worker != NullPtr && replies.started && (licenseFile.None? || replies.licenseAccepted)
    ensures r.value.Success? ==> r.value.value == replies.worker
    ensures replies.worker == NullPtr ==>
      r.value == Failure(Runtime(if mode == Async then "vlNew_Worker returned nullptr." else "vlNew_SyncWorker returned nullptr."))
    ensures replies.worker != NullPtr && !replies.started ==> r.value == Failure(Runtime("vlWorker_Start returned false."))
    ensures replies.worker != NullPtr && replies.started && licenseFile.Some? && !replies.licenseAccepted ==>
      r.value == Failure(Runtime("Failed: Could not set License"))
    ensures |r.calls| >= 1 && r.calls[0] == NewCall(mode)
    ensures Start in r.calls <==> replies.worker != NullPtr
    ensures (exists path :: SetLicenseFilePath(path) in r.calls) <==>
      replies.worker != NullPtr && replies.started && licenseFile.Some?
    ensures licenseFile.Some? && replies.worker != NullPtr && replies.started ==> SetLicenseFilePath(licenseFile.value) in r.calls
    ensures r.calls == [NewCall(mode)]
                 + (if replies.worker != NullPtr then [Start] else [])
                 + (if replies.worker != NullPtr && replies.started && licenseFile.Some?
                    then [SetLicenseFilePath(licenseFile.value)] else [])
                 + (if r.value.Failure? then ReleaseWorker(replies.worker) else [])
    ensures Occurrences(r.calls, WorkerReleased(replies.worker)) ==
      if r.value.Failure? && replies.worker != NullPtr then 1 else 0
  {
    ReleaseOnFailure(replies.worker, FixtureSteps(mode, licenseFile, replies))
  }

  /** The fixture's steps up to the first failure, before the worker member
      is destroyed. */
  function FixtureSteps(mode: Mode, licenseFile: Option<string>, replies: WorkerReplies): (r: Traced<Result<Ptr, Error>>)
    ensures r.value.Success? <==>
      replies.worker != NullPtr && replies.started && (licenseFile.None? || replies.licenseAccepted)
    ensures r.value.Success? ==> r.value.value == replies.worker
    ensures replies.worker == NullPtr ==>
      r.value == Failure(Runtime(if mode == Async then "vlNew_Worker returned nullptr." else "vlNew_SyncWorker returned nullptr."))
    ensures replies.worker != NullPtr && !replies.started ==> r.value == Failure(Runtime("vlWorker_Start returned false."))
    ensures replies.worker != NullPtr && replies.started && licenseFile.Some? && !replies.licenseAccepted ==>
      r.value == Failure(Runtime("Failed: Could not set License"))
    ensures |r.calls| >= 1 && r.calls[0] == NewCall(mode)
    ensures Start in r.calls <==> replies.worker != NullPtr
    ensures (exists path :: SetLicenseFilePath(path) in r.calls) <==>
      replies.worker != NullPtr && replies.started && licenseFile.Some?
    ensures licenseFile.Some? && replies.worker != NullPtr && replies.started ==> SetLicenseFilePath(licenseFile.value) in r.calls
    ensures r.calls == [NewCall(mode)]
                 + (if replies.worker != NullPtr then [Start] else [])
                 + (if replies.worker != NullPtr && replies.started && licenseFile.Some?
                    then [SetLicenseFilePath(licenseFile.value)] else [])
    ensures forall c :: c in r.calls ==> !c.Release?
  {
    var w := replies.worker;
    if w == NullPtr then
      Traced(Failure(Runtime(if mode == Async then "vlNew_Worker returned nullptr." else "vlNew_SyncWorker returned nullptr.")),
             [NewCall(mode)])
    else if !replies.started then
      Traced(Failure(Runtime("vlWorker_Start returned false.")), [NewCall(mode), Start])
    else
      match licenseFile
      case None => Traced(Success(w), [NewCall(mode), Start])
      case Some(path) =>
        var calls := [NewCall(mode), Start, SetLicenseFilePath(path)];
        if !replies.licenseAccepted then Traced(Failure(Runtime("Failed: Could not set License")), calls)
        else Traced(Success(w), calls)
  }

  /** The blocking command that creates the tracker: from the file when no
      content is given, else from the content under the path as file name. */
  function CreateCommandJson(trackerPath: string, trackerContent: string): Json {
    Encode(CreateTrackerCommandFor(trackerPath, trackerContent))
  }

  /** `startTrackerSync(worker, trackerPath, trackerContent)`: creates the
      tracker, enables tracking and checks that the worker runs.  A runtime
      error of either command makes it return false without sending anything
      further; a JSON library error is not caught and escapes. */
  function StartTrackerSync(trackerPath: string, trackerContent: string, createReply: SyncReply, runReply: SyncReply, running: bool)
    : (r: Traced<Result<bool, Error>>)
    ensures var create := ExecuteSync(CreateCommandJson(trackerPath, trackerContent), createReply);
      var run := ExecuteSync(Encode(RunTracking), runReply);
      && (r.value == Success(true) <==> create.Success? && run.Success? && running)
      && (r.value.Failure? <==> create == Failure(JsonFailure) || (create.Success? && run == Failure(JsonFailure)))
      && (r.value.Failure? ==> r.value.error == JsonFailure)
      && (ProcessJsonCommandSync(Encode(RunTracking)) in r.calls <==> create.Success?)
      && (IsRunning in r.calls <==> create.Success? && run.Success?)
    ensures var create := ExecuteSync(CreateCommandJson(trackerPath, trackerContent), createReply);
      var run := ExecuteSync(Encode(RunTracking), runReply);
      r.calls == [ProcessJsonCommandSync(CreateCommandJson(trackerPath, trackerContent))]
                 + (if create.Success? then [ProcessJsonCommandSync(Encode(RunTracking))] else [])
                 + (if create.Success? && run.Success? then [IsRunning] else [])
    ensures |r.calls| >= 1
    ensures trackerContent == [] ==> r.calls[0] == ProcessJsonCommandSync(Encode(CreateTracker(trackerPath)))
    ensures trackerContent != [] ==>
      r.calls[0] == ProcessJsonCommandSync(Encode(CreateTrackerFromString(trackerContent, trackerPath)))
  {
    var create := CreateCommandJson(trackerPath, trackerContent);
    var run := Encode(RunTracking);
    assert create != run by {
      assert create.fields["name"] != run.fields["name"];
    }
    match ExecuteSync(create, createReply)
    case Failure(e) =>
      Traced(if IsRuntimeError(e) then Success(false) else Failure(e), [ProcessJsonCommandSync(create)])
    case Success(_) =>
      match ExecuteSync(run, runReply)
      case Failure(e) =>
        Traced(if IsRuntimeError(e) then Success(false) else Failure(e),
               [ProcessJsonCommandSync(create), ProcessJsonCommandSync(run)])
      case Success(_) =>
        Traced(Success(running), [ProcessJsonCommandSync(create), ProcessJsonCommandSync(run), IsRunning])
  }

  /** `createSyncWorker(licenseFilepath, trackingConfigFilepath)`: unlike the
      fixtures it does not check the constructor's result.  It starts the
      worker, sets the licence, creates the tracker from the configuration
      file, enables tracking and checks that the worker runs; each failure
      throws, the command errors prefixed with the step that failed, and the
      local handle releases the worker on the way out. */
  function CreateSyncWorker(licensePath: string, configPath: string, replies: WorkerReplies,
                            createReply: SyncReply, runReply: SyncReply, running: bool): (r: Traced<Result<Ptr, Error>>)
    ensures var create := ExecuteSync(Encode(CreateTracker(configPath)), createReply);
      var run := ExecuteSync(Encode(RunTracking), runReply);
      && (r.value.Success? <==> replies.started && replies.licenseAccepted && create.Success? && run.Success? && running)
      && (!replies.started ==> r.value == Failure(Runtime("vlWorker_Start returned false.")))
      && (replies.started && !replies.licenseAccepted ==> r.value == Failure(Runtime("Could not set License")))
      && (replies.started && replies.licenseAccepted && create.Failure? ==>
            r.value == Failure(Rethrow("Could not create tracker: ", create.error)))
      && (replies.started && replies.licenseAccepted && create.Success? && run.Failure? ==>
            r.value == Failure(Rethrow("Could not enable tracking: ", run.error)))
      && (replies.started && replies.licenseAccepted && create.Success? && run.Success? && !running ==>
            r.value == Failure(Runtime("Tracker is not Running")))
    ensures r.value.Success? ==> r.value.value == replies.worker
    ensures var create := ExecuteSync(Encode(CreateTracker(configPath)), createReply);
      var run := ExecuteSync(Encode(RunTracking), runReply);
      r.calls == SyncWorkerCalls(licensePath, configPath, replies.started, replies.licenseAccepted, create.Success?, run.Success?)
                 + (if r.value.Failure? then ReleaseWorker(replies.worker) else [])
    ensures Occurrences(r.calls, WorkerReleased(replies.worker)) ==
      if r.value.Failure? && replies.worker != NullPtr then 1 else 0
    ensures forall c :: c in r.calls && c.Release? ==> c == WorkerReleased(replies.worker)
  {
    ReleaseOnFailure(replies.worker, SyncSteps(licensePath, configPath, replies, createReply, runReply, running))
  }

  /** The engine calls of `createSyncWorker` before its local worker handle
      goes out of scope: each step is made exactly when every step before it
      succeeded, the licence being set from `licensePath`, the tracker
      created from `configPath` and the running query made last. */
  function SyncWorkerCalls(licensePath: string, configPath: string, started: bool, licensed: bool,
                           created: bool, enabled: bool): seq<Call> {
    [NewSyncWorker, Start]
    + (if started then [SetLicenseFilePath(licensePath)] else [])
    + (if started && licensed then [ProcessJsonCommandSync(Encode(CreateTracker(configPath)))] else [])
    + (if started && licensed && created then [ProcessJsonCommandSync(Encode(RunTracking))] else [])
    + (if started && licensed && created && enabled then [IsRunning] else [])
  }

  /** The calls `createSyncWorker` makes before its local worker handle goes
      out of scope: Start, the licence, then the tracker phase; none of them
      releases anything. */
  function SyncSteps(licensePath: string, configPath: string, replies: WorkerReplies,
                     createReply: SyncReply, runReply: SyncReply, running: bool): (r: Traced<Result<Ptr, Error>>)
    ensures var create := ExecuteSync(Encode(CreateTracker(configPath)), createReply);
      var run := ExecuteSync(Encode(RunTracking), runReply);
      && (r.value.Success? <==> replies.started && replies.licenseAccepted && create.Success? && run.Success? && running)
      && (!replies.started ==> r.value == Failure(Runtime("vlWorker_Start returned false.")))
      && (replies.started && !replies.licenseAccepted ==> r.value == Failure(Runtime("Could not set License")))
      && (replies.started && replies.licenseAccepted && create.Failure? ==>
            r.value == Failure(Rethrow("Could not create tracker: ", create.error)))
      && (replies.started && replies.licenseAccepted && create.Success? && run.Failure? ==>
            r.value == Failure(Rethrow("Could not enable tracking: ", run.error)))
      && (replies.started && replies.licenseAccepted && create.Success? && run.Success? && !running ==>
            r.value == Failure(Runtime("Tracker is not Running")))
    ensures r.value.Success? ==> r.value.value == replies.worker
    ensures var create := ExecuteSync(Encode(CreateTracker(configPath)), createReply);
      var run := ExecuteSync(Encode(RunTracking), runReply);
      r.calls == SyncWorkerCalls(licensePath, configPath, replies.started, replies.licenseAccepted, create.Success?, run.Success?)
    ensures forall c :: c in r.calls ==> !c.Release?
  {
    var calls0 := [NewSyncWorker, Start];
    if !replies.started then
      Traced(Failure(Runtime("vlWorker_Start returned false.")), calls0)
    else if !replies.licenseAccepted then
      Traced(Failure(Runtime("Could not set License")), calls0 + [SetLicenseFilePath(licensePath)])
    else
      SyncTrackerPhase(replies.worker, configPath, createReply, runReply, running, calls0 + [SetLicenseFilePath(licensePath)])
  }

  /** The commands `createSyncWorker` sends once the licence is set, after the
      calls `pre`: create the tracker, enable tracking, check that the worker
      runs; a failure is rethrown with the step's prefix. */
  function SyncTrackerPhase(w: Ptr, configPath: string, createReply: SyncReply, runReply: SyncReply, running: bool,
                            pre: seq<Call>): (r: Traced<Result<Ptr, Error>>)
    requires forall c :: c in pre ==> !c.Release?
    ensures var create := ExecuteSync(Encode(CreateTracker(configPath)), createReply);
      var run := ExecuteSync(Encode(RunTracking), runReply);
      && (r.value.Success? <==> create.Success? && run.Success? && running)
      && (create.Failure? ==> r.value == Failure(Rethrow("Could not create tracker: ", create.error)))
      && (create.Success? && run.Failure? ==> r.value == Failure(Rethrow("Could not enable tracking: ", run.error)))
      && (create.Success? && run.Success? && !running ==> r.value == Failure(Runtime("Tracker is not Running")))
    ensures r.value.Success? ==> r.value.value == w
    ensures var create := ExecuteSync(Encode(CreateTracker(configPath)), createReply);
      var run := ExecuteSync(Encode(RunTracking), runReply);
      r.calls == pre + [ProcessJsonCommandSync(Encode(CreateTracker(configPath)))]
                 + (if create.Success? then [ProcessJsonCommandSync(Encode(RunTracking))] else [])
                 + (if create.Success? && run.Success? then [IsRunning] else [])
    ensures forall c :: c in r.calls ==> !c.Release?
  {
    var create := Encode(CreateTracker(configPath));
    var run := Encode(RunTracking);
    var calls1 := pre + [ProcessJsonCommandSync(create)];
    var calls2 := calls1 + [ProcessJsonCommandSync(run)];
    var calls3 := calls2 + [IsRunning];
    match ExecuteSync(create, createReply)
    case Failure(e) =>
      assert calls1 + [] + [] == calls1;
      Traced(Failure(Rethrow("Could not create tracker: ", e)), calls1)
    case Success(_) =>
      match ExecuteSync(run, runReply)
      case Failure(e) =>
        assert calls2 + [] == calls2;
        Traced(Failure(Rethrow("Could not enable tracking: ", e)), calls2)
      case Success(_) =>
        if running then Traced(Success(w), calls3) else Traced(Failure(Runtime("Tracker is not Running")), calls3)
  }

  /** The local worker handle going out of scope on a throw: the worker is
      released once after the calls made, and kept on success. */
  function ReleaseOnFailure(w: Ptr, steps: Traced<Result<Ptr, Error>>): (r: Traced<Result<Ptr, Error>>)
    requires forall c :: c in steps.calls ==> !c.Release?
    ensures r.value == steps.value
    ensures r.calls == steps.calls + (if r.value.Failure? then ReleaseWorker(w) else [])
    ensures Occurrences(r.calls, WorkerReleased(w)) == if r.value.Failure? && w != NullPtr then 1 else 0
    ensures forall c :: c in r.calls && c.Release? ==> c == WorkerReleased(w)
    ensures forall c: Call :: !c.Release? ==> (c in r.calls <==> c in steps.calls)
  {
    ReleaseWorkerCount(steps.calls, w);
    if steps.value.Failure? then
      Traced(steps.value, steps.calls + ReleaseWorker(w))
    else
      Traced(steps.value, steps.calls)
  }

  /** The detector's start-up and `startTrackerSync` agree: on a started,
      licensed worker, `createSyncWorker` succeeds exactly when
      `startTrackerSync` with the same replies returns true; and a runtime
      error that makes `startTrackerSync` return false makes
      `createSyncWorker` throw. */
  lemma CreateSyncWorkerAgreesWithStartTrackerSync(licensePath: string, configPath: string, w: Ptr,
                                                   createReply: SyncReply, runReply: SyncReply, running: bool)
    ensures var r := CreateSyncWorker(licensePath, configPath, WorkerReplies(w, true, true), createReply, runReply, running);
      var s := StartTrackerSync(configPath, "", createReply, runReply, running);
      && (r.value.Success? <==> s.value == Success(true))
      && (s.value == Success(false) ==> r.value.Failure? && IsRuntimeError(r.value.error))
  {
  }

  // ---------------------------------------------------------------------
  // Asynchronous start-up: a command cell polled by `waitFor`.

  /** `initializationTimeout`: 15000 ms; clock readings are in milliseconds. */
  const InitializationTimeout := 15000

  /** The state `waitFor` threads through the command cell: the cell, the
      number of evaluations so far (which selects the engine's next
      delivery) and the engine calls made. */
  datatype Pumped = Pumped(cell: Cell, k: nat, calls: seq<Call>)

  /** One evaluation of the cell, with the engine's `k`-th delivery. */
  function PumpStep(script: nat -> Delivery, p: Pumped): (Pumped, bool) {
    var st := Invoke(p.cell, script(p.k));
    (Pumped(st.cell, p.k + 1, p.calls + st.calls), st.ready)
  }

  function Pump(script: nat -> Delivery): Pumped -> (Pumped, bool) {
    p => PumpStep(script, p)
  }

  /** The first `n` deliveries. */
  function Prefix(script: nat -> Delivery, n: nat): (ds: seq<Delivery>)
    ensures |ds| == n && forall i :: 0 <= i < n ==> ds[i] == script(i)
  {
    seq(n, i requires 0 <= i < n => script(i))
  }

  /** `n` evaluations under `waitFor` are the cell's run over the first `n` deliveries. */
  lemma {:induction false} PumpIsEvaluate(script: nat -> Delivery, cell: Cell, n: nat)
    ensures var r := Evaluate(cell, Prefix(script, n));
      StateAfter(Pump(script), Pumped(cell, 0, []), n) == Pumped(r.cell, n, r.calls)
    decreases n
  {
    if n == 0 {
      assert Prefix(script, 0) == [];
    } else {
      PumpIsEvaluate(script, cell, n - 1);
      StateAfterStep(Pump(script), Pumped(cell, 0, []), n - 1);
      assert Prefix(script, n) == Prefix(script, n - 1) + [script(n - 1)];
      EvaluateSnoc(cell, Prefix(script, n - 1), script(n - 1));
    }
  }

  /** The `i`-th answer of the polled cell is true exactly when one of the
      first `i + 1` deliveries carried a callback. */
  lemma AnswerIff(script: nat -> Delivery, cell: Cell, i: nat)
    requires !cell.commandPushed && !cell.gotResult
    ensures Answer(Pump(script), Pumped(cell, 0, []), i) <==> exists j :: 0 <= j <= i && script(j).callbacks != []
  {
    var ds := Prefix(script, i + 1);
    PumpIsEvaluate(script, cell, i);
    assert ds == Prefix(script, i) + [script(i)];
    EvaluateSnoc(cell, Prefix(script, i), script(i));
    PushedOnce(cell, ds);
    assert Evaluate(cell, ds).returned[i] <==> exists j :: 0 <= j <= i && ds[j].callbacks != [];
    if exists j :: 0 <= j <= i && script(j).callbacks != [] {
      var j :| 0 <= j <= i && script(j).callbacks != [];
      assert ds[j] == script(j);
    }
  }

  /** Every evaluation of a fresh cell sends its command exactly once, first,
      and otherwise only processes callbacks and polls events. */
  lemma PumpCalls(script: nat -> Delivery, cell: Cell, n: nat)
    requires !cell.commandPushed && !cell.gotResult && n >= 1
    ensures var calls := StateAfter(Pump(script), Pumped(cell, 0, []), n).calls;
      && Occurrences(calls, PushJsonCommand(cell.data)) == 1
      && calls[0] == PushJsonCommand(cell.data)
      && (forall call :: call in calls ==>
            call == PushJsonCommand(cell.data) || call == ProcessCallbacks || call == PollEvents)
  {
    PumpIsEvaluate(script, cell, n);
    var ds := Prefix(script, n);
    PushedOnce(cell, ds);
    EvaluateCalls(cell, ds);
    InvokeContract(cell, ds[0]);
    assert Evaluate(cell, ds).calls == Invoke(cell, ds[0]).calls + Evaluate(Invoke(cell, ds[0]).cell, ds[1..]).calls;
  }

  /** After the evaluation that receives the first callbacks, the error slot
      holds the last of them's error, or is empty for a null error. */
  lemma PumpError(script: nat -> Delivery, cell: Cell, n: nat)
    requires n >= 1
    ensures var last := script(n - 1).callbacks;
      last != [] ==> StateAfter(Pump(script), Pumped(cell, 0, []), n).cell.error == last[|last| - 1].error.GetOr([])
  {
    if script(n - 1).callbacks == [] {
      return;
    }
    PumpIsEvaluate(script, cell, n);
    assert Prefix(script, n) == Prefix(script, n - 1) + [script(n - 1)];
    EvaluateSnoc(cell, Prefix(script, n - 1), script(n - 1));
    var c0 := Evaluate(cell, Prefix(script, n - 1)).cell;
    var pushed := if c0.commandPushed then c0 else c0.(invocationError := !script(n - 1).pushAccepted, commandPushed := true);
    LastCallbackDecidesError(pushed, script(n - 1).callbacks);
  }

  /** The first `n` deliveries carried no callbacks, and each evaluation
      after them still found the elapsed time below the timeout. */
  ghost predicate Quiet(script: nat -> Delivery, clock: nat -> int, n: int, timeout: int) {
    forall i: nat :: i < n ==> script(i).callbacks == [] && clock(i + 1) - clock(0) < timeout
  }

  /** `waitFor` on a fresh cell stops at the first delivery that carries
      callbacks, or times out after deliveries that all carried none. */
  lemma PolledStop(script: nat -> Delivery, cell: Cell, clock: nat -> int, timeout: int)
    requires Steady(clock)
    requires !cell.commandPushed && !cell.gotResult
    ensures var o := WaitFor(Pump(script), Pumped(cell, 0, []), clock, timeout);
      && (Quiet(script, clock, o.evaluations - 1, timeout))
      && (o.ok <==> script(o.evaluations - 1).callbacks != [])
  {
    var o := WaitFor(Pump(script), Pumped(cell, 0, []), clock, timeout);
    forall i: nat | i < o.evaluations - 1
      ensures script(i).callbacks == [] && clock(i + 1) - clock(0) < timeout
    {
      WaitForBefore(Pump(script), Pumped(cell, 0, []), clock, timeout, i);
      QuietBefore(script, cell, i);
    }
    StopsAt(script, cell, o.evaluations - 1);
  }

  /** A false answer means delivery `i` carried no callbacks. */
  lemma QuietBefore(script: nat -> Delivery, cell: Cell, i: nat)
    requires !cell.commandPushed && !cell.gotResult
    requires !Answer(Pump(script), Pumped(cell, 0, []), i)
    ensures script(i).callbacks == []
  {
    AnswerIff(script, cell, i);
  }

  /** After quiet deliveries, the answer is whether the next one carries callbacks. */
  lemma StopsAt(script: nat -> Delivery, cell: Cell, n: nat)
    requires !cell.commandPushed && !cell.gotResult
    requires forall i :: 0 <= i < n ==> script(i).callbacks == []
    ensures Answer(Pump(script), Pumped(cell, 0, []), n) <==> script(n).callbacks != []
  {
    AnswerIff(script, cell, n);
    FirstWitness(script, n);
  }

  /** Deliveries before `n` that all carried no callbacks leave the `n`-th
      as the only candidate. */
  lemma FirstWitness(script: nat -> Delivery, n: nat)
    requires forall i :: 0 <= i < n ==> script(i).callbacks == []
    ensures (exists j :: 0 <= j <= n && script(j).callbacks != []) <==> script(n).callbacks != []
  {
  }

  /** The caller's verdict on the callbacks of the last delivery: at least
      one arrived and the last one reported no error. */
  predicate Accepted(last: seq<Callback>) {
    last != [] && last[|last| - 1].error.GetOr([]) == []
  }

  /** What polling one command yields: whether the caller treats it as done
      (a callback arrived before the timeout and left the error slot empty),
      the number of evaluations and the engine calls. */
  datatype Polled = Polled(ok: bool, evaluations: nat, calls: seq<Call>)

  /** The shared core of `createTracker` and `runTracker`: build the command
      cell, `waitFor` it with the initialization timeout and accept it only if
      the error slot is empty.  `script(k)` is the engine's side of the k-th
      evaluation and `clock` the steady clock. */
  function AwaitCommand(worker: Ptr, data: Json, script: nat -> Delivery, clock: nat -> int): (r: Polled)
    requires Steady(clock)
    ensures r.evaluations >= 1
    ensures Quiet(script, clock, r.evaluations - 1, InitializationTimeout)
    ensures var last := script(r.evaluations - 1).callbacks;
      r.ok <==> Accepted(last)
    ensures script(r.evaluations - 1).callbacks == [] ==> clock(r.evaluations) - clock(0) >= InitializationTimeout
    ensures Occurrences(r.calls, PushJsonCommand(data)) == 1 && r.calls[0] == PushJsonCommand(data)
    ensures forall call :: call in r.calls ==>
      call == PushJsonCommand(data) || call == ProcessCallbacks || call == PollEvents
  {
    var cell := NewCell(worker, data);
    AcceptPolled(data, script, cell, PollCell(script, cell, clock, InitializationTimeout), clock)
  }

  /** `waitFor(cell, timeout)` on a fresh command cell. */
  function PollCell(script: nat -> Delivery, cell: Cell, clock: nat -> int, timeout: int): (o: Outcome<Pumped>)
    requires Steady(clock)
    requires !cell.commandPushed && !cell.gotResult
    ensures o.evaluations >= 1
    ensures o.state == StateAfter(Pump(script), Pumped(cell, 0, []), o.evaluations)
    ensures Quiet(script, clock, o.evaluations - 1, timeout)
    ensures o.ok <==> script(o.evaluations - 1).callbacks != []
    ensures !o.ok ==> clock(o.evaluations) - clock(0) >= timeout
  {
    PolledStop(script, cell, clock, timeout);
    WaitFor(Pump(script), Pumped(cell, 0, []), clock, timeout)
  }

  /** The caller's verdict on a finished `waitFor`: done, and the error slot
      left empty. */
  function AcceptPolled(data: Json, script: nat -> Delivery, cell: Cell, o: Outcome<Pumped>, clock: nat -> int)
    : (r: Polled)
    requires !cell.commandPushed && !cell.gotResult && cell.data == data
    requires o.evaluations >= 1
    requires o.state == StateAfter(Pump(script), Pumped(cell, 0, []), o.evaluations)
    requires Quiet(script, clock, o.evaluations - 1, InitializationTimeout)
    requires o.ok <==> script(o.evaluations - 1).callbacks != []
    requires !o.ok ==> clock(o.evaluations) - clock(0) >= InitializationTimeout
    ensures r.evaluations >= 1
    ensures Quiet(script, clock, r.evaluations - 1, InitializationTimeout)
    ensures var last := script(r.evaluations - 1).callbacks;
      r.ok <==> Accepted(last)
    ensures script(r.evaluations - 1).callbacks == [] ==> clock(r.evaluations) - clock(0) >= InitializationTimeout
    ensures Occurrences(r.calls, PushJsonCommand(data)) == 1 && r.calls[0] == PushJsonCommand(data)
    ensures forall call :: call in r.calls ==>
      call == PushJsonCommand(data) || call == ProcessCallbacks || call == PollEvents
  {
    PumpCalls(script, cell, o.evaluations);
    PumpError(script, cell, o.evaluations);
    Polled(o.ok && o.state.cell.error == [], o.evaluations, o.state.calls)
  }

  /** `createTracker(worker, trackerPath)`. */
  function CreateTrackerAsync(worker: Ptr, trackerPath: string, script: nat -> Delivery, clock: nat -> int): Polled
    requires Steady(clock)
  {
    AwaitCommand(worker, Encode(CreateTracker(trackerPath)), script, clock)
  }

  /** `runTracker(worker)`: polls `runTracking` like `createTracker` and, once
      it is accepted, additionally asks the engine whether the worker runs. */
  function RunTrackerAsync(worker: Ptr, script: nat -> Delivery, clock: nat -> int, running: bool): (r: Polled)
    requires Steady(clock)
    ensures var o := AwaitCommand(worker, Encode(RunTracking), script, clock);
      && r.evaluations == o.evaluations
      && (r.ok <==> o.ok && running)
      && (IsRunning in r.calls <==> o.ok)
    ensures Occurrences(r.calls, PushJsonCommand(Encode(RunTracking))) == 1
  {
    AwaitRunning(worker, Encode(RunTracking), script, clock, running)
  }

  /** Polls the command `data` and, once it is accepted, asks the engine
      whether the worker runs. */
  function AwaitRunning(worker: Ptr, data: Json, script: nat -> Delivery, clock: nat -> int, running: bool): (r: Polled)
    requires Steady(clock)
    ensures var o := AwaitCommand(worker, data, script, clock);
      && r.evaluations == o.evaluations
      && (r.ok <==> o.ok && running)
      && (IsRunning in r.calls <==> o.ok)
    ensures Occurrences(r.calls, PushJsonCommand(data)) == 1
  {
    var o := AwaitCommand(worker, data, script, clock);
    PushesOnly(o.calls, data, data);
    CheckRunning(o, running, PushJsonCommand(data))
  }

  /** The running query after a polled command: asked only when the command
      was accepted, and deciding the outcome then. */
  function CheckRunning(o: Polled, running: bool, push: Call): (r: Polled)
    requires IsRunning !in o.calls && push != IsRunning
    ensures r.evaluations == o.evaluations
    ensures r.ok <==> o.ok && running
    ensures IsRunning in r.calls <==> o.ok
    ensures Occurrences(r.calls, push) == Occurrences(o.calls, push)
  {
    if !o.ok then o
    else
      OccurrencesAppend(o.calls, [IsRunning], push);
      OccurrencesAbsent([IsRunning], push);
      Polled(running, o.evaluations, o.calls + [IsRunning])
  }

  /** A trace of one polled command holds no other command and no running query. */
  lemma PushesOnly(calls: seq<Call>, command: Json, other: Json)
    requires forall call :: call in calls ==> call == PushJsonCommand(command) || call == ProcessCallbacks || call == PollEvents
    ensures IsRunning !in calls
    ensures other != command ==> PushJsonCommand(other) !in calls
  {
  }

  /** The push counts of two phases, the second one running only after the first. */
  lemma PhaseCounts(first: seq<Call>, second: seq<Call>, a: Call, b: Call)
    requires Occurrences(first, a) == 1 && b !in first
    requires Occurrences(second, b) == 1 && a !in second
    ensures Occurrences(first, b) == 0
    ensures Occurrences(first + second, a) == 1 && Occurrences(first + second, b) == 1
  {
    OccurrencesAbsent(first, b);
    OccurrencesAbsent(second, a);
    OccurrencesAppend(first, second, a);
    OccurrencesAppend(first, second, b);
  }

  /** `startTracker(worker, trackerPath)`: `createTracker && runTracker`; the
      run command is never pushed when the creation was not accepted.  Each
      phase polls with its own clock readings and engine deliveries. */
  function StartTrackerAsync(worker: Ptr, trackerPath: string,
                             createScript: nat -> Delivery, createClock: nat -> int,
                             runScript: nat -> Delivery, runClock: nat -> int, running: bool): (r: Traced<bool>)
    requires Steady(createClock) && Steady(runClock)
    ensures r.value <==> CreateTrackerAsync(worker, trackerPath, createScript, createClock).ok
                         && RunTrackerAsync(worker, runScript, runClock, running).ok
    ensures Occurrences(r.calls, PushJsonCommand(Encode(CreateTracker(trackerPath)))) == 1
    ensures Occurrences(r.calls, PushJsonCommand(Encode(RunTracking))) ==
      if CreateTrackerAsync(worker, trackerPath, createScript, createClock).ok then 1 else 0
  {
    var create := Encode(CreateTracker(trackerPath));
    var run := Encode(RunTracking);
    assert create != run by {
      assert create.fields["name"] != run.fields["name"];
    }
    var c := CreateTrackerAsync(worker, trackerPath, createScript, createClock);
    PushesOnly(c.calls, create, run);
    OccurrencesAbsent(c.calls, PushJsonCommand(run));
    if !c.ok then Traced(false, c.calls)
    else
      var rt := RunTrackerAsync(worker, runScript, runClock, running);
      PushesOnly(AwaitCommand(worker, run, runScript, runClock).calls, run, create);
      assert PushJsonCommand(create) !in rt.calls;
      PhaseCounts(c.calls, rt.calls, PushJsonCommand(create), PushJsonCommand(run));
      Traced(rt.ok, c.calls + rt.calls)
  }
}

=== FILE: sync_exec.dfy ===
/** Blocking command execution on a synchronous worker
    (Source/Helpers/HelperFunctions.cpp and the identical `execute` of
    Source/MultiViewDetector.cpp): the decoding of the engine's
    (accepted, error, result) reply into a result or a failure. */
module SyncExec {
  import opened Wrappers
  import opened JsonValue
  import opened Handles
  import opened Failures
  import opened Commands
  import opened Engine

  /** An error reply that names its failure: an object whose `"message"`
      member is a string. */
  predicate HasMessage(j: Json) {
    j.Obj? && "message" in j.fields && j.fields["message"].Str?
  }

  /** `resultJson["message"].get<std::string>()` on a parsed error reply.  The
      text variant subscripts a constant value and the binary variant a
      mutable one; either way only a string member reads, and every other
      value throws. */
  function ErrorMessage(errorJson: Json): (r: Result<string, Error>)
    ensures r.Success? <==> HasMessage(errorJson)
    ensures r.Success? ==> r.value == errorJson.fields["message"].s
    ensures r.Failure? ==> r.error == JsonFailure
  {
    match At(errorJson, "message")
    case Some(Str(m)) => Success(m)
    case _ => Failure(JsonFailure)
  }

  /** The error raised for a parsed error reply: its message, or the library's
      failure to read one. */
  function MessageError(errorJson: Json): (e: Error)
    ensures e.CommandFailed? <==> HasMessage(errorJson)
    ensures e.CommandFailed? ==> e.message == errorJson.fields["message"].s
    ensures !e.CommandFailed? ==> e == JsonFailure
  {
    match ErrorMessage(errorJson)
    case Success(m) => CommandFailed(m)
    case Failure(f) => f
  }

  /** The error raised for a non-empty error channel: the parsed reply's
      `"message"`, or a JSON library failure when the text does not parse or
      carries no string `"message"`. */
  function CommandError(error: Payload): (e: Error)
    ensures e.CommandFailed? <==> error.parsed.Some? && HasMessage(error.parsed.value)
    ensures e.CommandFailed? ==> e.message == error.parsed.value.fields["message"].s
    ensures !e.CommandFailed? ==> e == JsonFailure
  {
    match error.parsed
    case None => JsonFailure
    case Some(j) => MessageError(j)
  }

  /** A C string that may be null, read as `s ? s : ""`. */
  function TextOrEmpty(p: Option<Payload>): Payload {
    match p
    case Some(payload) => payload
    case None => EmptyText
  }

  /** `executeSync(worker, cmd)` (text variant): a rejected command raises an
      invocation error naming the command, whatever the error channel holds;
      an accepted command with a non-empty error raises that error's
      `"message"`; otherwise the result text is returned verbatim, a null
      result being the empty text. */
  function ExecuteSync(command: Json, reply: SyncReply): (r: Result<Payload, Error>)
    ensures !reply.accepted <==> r == Failure(Invocation(command))
    ensures reply.accepted && TextOrEmpty(reply.error).text != [] ==>
              r == Failure(CommandError(TextOrEmpty(reply.error)))
    ensures r.Success? <==> reply.accepted && TextOrEmpty(reply.error).text == []
    ensures r.Success? ==> r.value == TextOrEmpty(reply.result)
    ensures r.Success? ==> r.value.text == TextOrEmpty(reply.result).text
    ensures r.Success? && reply.result.None? ==> r.value.text == []
  {
    if !reply.accepted then Failure(Invocation(command))
    else
      var error := TextOrEmpty(reply.error);
      if error.text != [] then Failure(CommandError(error))
      else Success(TextOrEmpty(reply.result))
  }

  /** An accepted command whose error channel is non-empty raises the reply's
      string `"message"` when it has one, and a JSON library failure
      otherwise, whatever the result channel holds. */
  lemma ExecuteSyncRaisesMessage(command: Json, error: Payload, result: Option<Payload>)
    requires error.text != []
    ensures var r := ExecuteSync(command, SyncReply(true, Some(error), result));
      && (error.parsed.Some? && HasMessage(error.parsed.value) ==>
            r == Failure(CommandFailed(error.parsed.value.fields["message"].s)))
      && (!(error.parsed.Some? && HasMessage(error.parsed.value)) ==> r == Failure(JsonFailure))
  {
  }

  /** What the binary variant returns: the parsed result, the output buffer
      (owned, released with `vlReleaseBinaryBuffer`) and its size. */
  datatype BinaryCommandResult = BinaryCommandResult(result: Json, data: Ptr, size: nat)

  /** `s ? json::parse(s) : json()`: a null string is the null value. */
  function ParseOrNull(p: Option<Payload>): Option<Json> {
    match p
    case None => Some(Null)
    case Some(payload) => payload.parsed
  }

  /** Whether the callback ran to its end, so that the result pair, and with
      it the handle owning the output buffer, was built: both channels parsed. */
  predicate BufferBuilt(reply: BinaryReply) {
    reply.callback.Some?
    && ParseOrNull(reply.callback.value.error).Some?
    && ParseOrNull(reply.callback.value.result).Some?
  }

  /** `executeSync(worker, command, data, size)` (binary variant): the callback
      parses both channels; a non-null parsed error raises its `"message"`
      before the invocation flag is looked at, so an engine message takes
      precedence over the invocation error.  On both throws the local result
      pair is destroyed, and its buffer handle releases the output buffer;
      on success the buffer is handed to the caller. */
  function ExecuteBinarySync(command: Json, data: seq<bv8>, reply: BinaryReply)
    : (r: Traced<Result<BinaryCommandResult, Error>>)
    ensures r.value.Success? ==> reply.accepted
    ensures reply.callback.None? ==>
      r.value == if reply.accepted then Success(BinaryCommandResult(Null, NullPtr, 0)) else Failure(Invocation(command))
    ensures reply.callback.Some? && ParseOrNull(reply.callback.value.error) == Some(Null)
            && ParseOrNull(reply.callback.value.result).Some? ==>
      r.value == if reply.accepted then Success(BinaryCommandResult(ParseOrNull(reply.callback.value.result).value,
                                                                    reply.callback.value.dataOut, reply.callback.value.size))
                 else Failure(Invocation(command))
    ensures reply.callback.Some? && !BufferBuilt(reply) ==> r.value == Failure(JsonFailure)
    ensures BufferBuilt(reply) && !ParseOrNull(reply.callback.value.error).value.Null? ==>
      r.value == Failure(CommandError(reply.callback.value.error.value))
    ensures r.value.Success? && reply.callback.Some? ==>
      Some(r.value.value.result) == ParseOrNull(reply.callback.value.result)
      && r.value.value.data == reply.callback.value.dataOut && r.value.value.size == reply.callback.value.size
    ensures |r.calls| >= 1 && r.calls[0] == ProcessJsonAndBinaryCommandSync(command, data)
    ensures !(BufferBuilt(reply) && r.value.Failure?) ==> |r.calls| == 1
    ensures BufferBuilt(reply) && r.value.Failure? ==>
      r.calls[1..] == ReleaseCalls(ByteBuffer, reply.callback.value.dataOut)
  {
    var call := [ProcessJsonAndBinaryCommandSync(command, data)];
    match reply.callback
    case None =>
      // the callback never ran: both members keep their defaults
      Traced(if !reply.accepted then Failure(Invocation(command)) else Success(BinaryCommandResult(Null, NullPtr, 0)), call)
    case Some(cb) =>
      match ParseOrNull(cb.error)
      case None => Traced(Failure(JsonFailure), call)
      case Some(errorJson) =>
        match ParseOrNull(cb.result)
        case None => Traced(Failure(JsonFailure), call)
        case Some(resultJson) =>
          if !errorJson.Null? then
            Traced(Failure(MessageError(errorJson)), call + ReleaseCalls(ByteBuffer, cb.dataOut))
          else if !reply.accepted then
            Traced(Failure(Invocation(command)), call + ReleaseCalls(ByteBuffer, cb.dataOut))
          else
            Traced(Success(BinaryCommandResult(resultJson, cb.dataOut, cb.size)), call)
  }

  /** The two variants check in opposite orders: for every rejected command
      whose callback still reported an error message, the text variant raises
      the invocation error and the binary variant raises the message. */
  lemma OppositeCheckOrder(command: Json, data: seq<bv8>, error: Payload, result: Option<Payload>, dataOut: Ptr, size: nat)
    requires error.text != [] && error.parsed.Some? && HasMessage(error.parsed.value)
    requires ParseOrNull(result).Some?
    ensures ExecuteSync(command, SyncReply(false, Some(error), result)) == Failure(Invocation(command))
    ensures ExecuteBinarySync(command, data, BinaryReply(false, Some(BinaryCallback(Some(error), result, dataOut, size)))).value
            == Failure(CommandFailed(error.parsed.value.fields["message"].s))
  {
  }

  /** On an accepted command the two variants agree whenever the error
      channel is null or holds a non-empty JSON text other than `null`, and
      the result channel parses: the same error is raised, and on success the
      binary variant's result is the parse of the text the text variant
      returns. */
  lemma BinaryAgreesWithText(command: Json, data: seq<bv8>, error: Option<Payload>, result: Option<Payload>,
                             dataOut: Ptr, size: nat)
    requires error.Some? ==> error.value.text != [] && error.value.parsed != Some(Null)
    requires ParseOrNull(result).Some?
    ensures var t := ExecuteSync(command, SyncReply(true, error, result));
      var b := ExecuteBinarySync(command, data, BinaryReply(true, Some(BinaryCallback(error, result, dataOut, size)))).value;
      && (t.Success? <==> b.Success?)
      && (t.Failure? ==> b == Failure(t.error))
      && (t.Success? && result.Some? ==> Some(b.value.result) == t.value.parsed)
  {
  }

  /** `getAttributeSync(worker, name)`: sends `getAttribute` for `name` and
      returns the string `"value"` of the parsed result. */
  function GetAttributeSync(name: string, reply: SyncReply): (r: Result<string, Error>)
    ensures reply.accepted && TextOrEmpty(reply.error).text == [] ==>
      match TextOrEmpty(reply.result).parsed
      case Some(Obj(fields)) =>
        r == if "value" in fields && fields["value"].Str? then Success(fields["value"].s) else Failure(JsonFailure)
      case _ => r == Failure(JsonFailure)
    ensures ExecuteSync(Encode(GetAttribute(name)), reply).Failure? ==>
      r == Failure(ExecuteSync(Encode(GetAttribute(name)), reply).error)
  {
    var text :- ExecuteSync(Encode(GetAttribute(name)), reply);
    match text.parsed
    case None => Failure(JsonFailure)
    case Some(j) =>
      match Index(j, "value")
      case None => Failure(JsonFailure)
      case Some(v) => if v.Str? then Success(v.s) else Failure(JsonFailure)
  }

  /** The command `getAttributeSync` sends is `{"name": "getAttribute",
      "param": {"att": name}}`; a success reply `{"value": Y}` yields Y and an
      error reply `{"message": M}` raises M. */
  lemma GetAttributeRoundTrip(name: string, value: string, resultText: string, errorText: string, message: string)
    requires errorText != []
    ensures Encode(GetAttribute(name)) == Obj(map["name" := Str("getAttribute"), "param" := Obj(map["att" := Str(name)])])
    ensures GetAttributeSync(name, SyncReply(true, None, Some(Payload(resultText, Some(Obj(map["value" := Str(value)]))))))
            == Success(value)
    ensures GetAttributeSync(name, SyncReply(true, Some(Payload(errorText, Some(Obj(map["message" := Str(message)])))), None))
            == Failure(CommandFailed(message))
  {
  }

  /** `setAttributeSync(worker, name, value)`: sends `setAttribute` with
      `att` and `val`; the result text is discarded. */
  function SetAttributeSync(name: string, value: string, reply: SyncReply): (r: Result<(), Error>)
    ensures r.Success? <==> ExecuteSync(Encode(SetAttribute(name, value)), reply).Success?
    ensures r.Failure? ==> r.error == ExecuteSync(Encode(SetAttribute(name, value)), reply).error
  {
    var _ :- ExecuteSync(Encode(SetAttribute(name, value)), reply);
    Success(())
  }

  /** The engine calls of one blocking command. */
  function ExecuteCalls(command: Json): seq<Call> {
    [ProcessJsonCommandSync(command)]
  }
}

=== FILE: tracking_results.dfy ===
/** Tracking-result files (Source/Helpers/DataProcessingHelpers.cpp): a JSON
    array of records `{"imageFileName": name, "t": [..3], "r": [..4]}` read
    into a map from image file name to pose, and written back from such a
    map.  File access is not modelled: whether the file exists and the outcome
    of parsing its text are inputs, and writing yields the JSON value that
    would be dumped. */
module TrackingResults {
  import opened Wrappers
  import opened JsonValue
  import opened Failures
  import opened Extrinsics

  /** The member naming the image a record belongs to. */
  const FileNameKey := "imageFileName"

  const NotAnArray := "json argument is not an array"

  const NoJsonFile := "No JSON file with extrinsics found in the image sequence directory"

  /** `(std::string)elem["imageFileName"]` on a constant element: the element
      must be an object holding the member, and the member must be a string. */
  function RecordKey(elem: Json): (r: Result<string, Error>)
    ensures r.Success? <==> elem.Obj? && FileNameKey in elem.fields && elem.fields[FileNameKey].Str?
    ensures r.Success? ==> r.value == elem.fields[FileNameKey].s
    ensures r.Failure? ==> r.error == JsonFailure
  {
    var name :- OrJsonFailure(At(elem, FileNameKey));
    OrJsonFailure(AsString(name))
  }

  /** The loop of `toHashMapOfExtrinsics`: each element in order, its key read
      before its pose, the first failure ending the loop. */
  function Collect(items: seq<Json>): Result<map<string, Extrinsic>, Error>
    decreases |items|
  {
    if items == [] then Success(map[])
    else
      var m :- Collect(items[..|items| - 1]);
      var elem := items[|items| - 1];
      var key :- RecordKey(elem);
      var e :- FromJson(elem);
      Success(m[key := e])
  }

  /** `toHashMapOfExtrinsics(json)`: anything but an array is rejected. */
  function ToHashMap(j: Json): (r: Result<map<string, Extrinsic>, Error>)
    ensures !j.Arr? <==> r == Failure(Runtime(NotAnArray))
    ensures j.Arr? ==> r == Collect(j.items)
  {
    if !j.Arr? then Failure(Runtime(NotAnArray)) else
      CollectNotAnArray(j.items);
      Collect(j.items)
  }

  /** A record that reads back: a key and a pose. */
  predicate Readable(elem: Json) {
    RecordKey(elem).Success? && FromJson(elem).Success?
  }

  /** The element loop only raises errors of the elements themselves. */
  lemma {:induction false} CollectNotAnArray(items: seq<Json>)
    ensures Collect(items) != Failure(Runtime(NotAnArray))
    decreases |items|
  {
    if items != [] {
      CollectNotAnArray(items[..|items| - 1]);
    }
  }

  /** The loop succeeds exactly when every element is readable; otherwise it
      fails with the error of the first element that is not, its key being
      read before its pose. */
  lemma {:induction false} CollectOutcome(items: seq<Json>)
    ensures Collect(items).Success? <==> forall i :: 0 <= i < |items| ==> Readable(items[i])
    ensures Collect(items).Failure? ==> exists i ::
      && 0 <= i < |items| && !Readable(items[i])
      && (forall k :: 0 <= k < i ==> Readable(items[k]))
      && Collect(items).error == (if RecordKey(items[i]).Failure? then RecordKey(items[i]).error else FromJson(items[i]).error)
    decreases |items|
  {
    if items != [] {
      var init := items[..|items| - 1];
      CollectOutcome(init);
      assert forall i :: 0 <= i < |init| ==> init[i] == items[i];
      if Collect(init).Failure? {
        var i :| 0 <= i < |init| && !Readable(init[i]) && (forall k :: 0 <= k < i ==> Readable(init[k]))
                 && Collect(init).error == (if RecordKey(init[i]).Failure? then RecordKey(init[i]).error else FromJson(init[i]).error);
        assert !Readable(items[i]);
      } else if !Readable(items[|items| - 1]) {
        assert !Readable(items[|items| - 1]) && forall k :: 0 <= k < |items| - 1 ==> Readable(items[k]);
      }
    }
  }

  /** The key of a readable element. */
  function KeyOf(elem: Json): string
    requires Readable(elem)
  {
    RecordKey(elem).value
  }

  /** One more element: the loop succeeds when it succeeded on the others
      and the element is readable, and then maps the element's key to its pose. */
  lemma CollectStep(items: seq<Json>)
    requires items != []
    ensures var init := items[..|items| - 1];
      var last := items[|items| - 1];
      Collect(items).Success? <==> Collect(init).Success? && Readable(last)
    ensures Collect(items).Success? ==>
      Collect(items).value == Collect(items[..|items| - 1]).value[KeyOf(items[|items| - 1]) := FromJson(items[|items| - 1]).value]
  {
  }

  /** After a successful loop, the keys are exactly the elements' keys. */
  lemma {:induction false} CollectKeys(items: seq<Json>)
    requires Collect(items).Success?
    ensures forall i :: 0 <= i < |items| ==> Readable(items[i])
    ensures forall key :: key in Collect(items).value <==> exists i :: 0 <= i < |items| && KeyOf(items[i]) == key
    decreases |items|
  {
    CollectOutcome(items);
    if items != [] {
      var init := items[..|items| - 1];
      var last := items[|items| - 1];
      assert forall i :: 0 <= i < |init| ==> init[i] == items[i];
      CollectStep(items);
      CollectKeys(init);
      var m0 := Collect(init).value;
      var m := Collect(items).value;
      forall key
        ensures key in m <==> exists i :: 0 <= i < |items| && KeyOf(items[i]) == key
      {
        if key in m && key != KeyOf(last) {
          assert key in m0;
          var i :| 0 <= i < |init| && KeyOf(init[i]) == key;
          assert KeyOf(items[i]) == key;
        }
        if exists i :: 0 <= i < |items| && KeyOf(items[i]) == key {
          var i :| 0 <= i < |items| && KeyOf(items[i]) == key;
          if i < |init| {
            assert KeyOf(init[i]) == key;
          }
        }
      }
    }
  }

  /** The map is no larger than the array ... */
  lemma {:induction false} CollectSize(items: seq<Json>)
    requires Collect(items).Success?
    ensures |Collect(items).value| <= |items|
    decreases |items|
  {
    if items != [] {
      var init := items[..|items| - 1];
      CollectStep(items);
      CollectSize(init);
      var m0 := Collect(init).value;
      var m := Collect(items).value;
      assert m.Keys <= m0.Keys + {KeyOf(items[|items| - 1])};
    }
  }

  /** ... and as large when no two elements share a key. */
  lemma {:induction false} CollectSizeDistinct(items: seq<Json>)
    requires Collect(items).Success?
    requires forall i :: 0 <= i < |items| ==> Readable(items[i])
    requires forall i, j :: 0 <= i < j < |items| ==> KeyOf(items[i]) != KeyOf(items[j])
    ensures |Collect(items).value| == |items|
    decreases |items|
  {
    if items != [] {
      var init := items[..|items| - 1];
      var last := items[|items| - 1];
      CollectStep(items);
      DistinctPrefix(items);
      CollectSizeDistinct(init);
      var m0 := Collect(init).value;
      var m := Collect(items).value;
      forall i | 0 <= i < |init|
        ensures KeyOf(init[i]) != KeyOf(last)
      {
        assert init[i] == items[i];
      }
      KeyAbsent(init, KeyOf(last));
      assert m.Keys == m0.Keys + {KeyOf(last)};
    }
  }

  /** A key no element carries is not in the map. */
  lemma KeyAbsent(items: seq<Json>, key: string)
    requires Collect(items).Success?
    requires forall i :: 0 <= i < |items| ==> Readable(items[i]) && KeyOf(items[i]) != key
    ensures key !in Collect(items).value
  {
    CollectKeys(items);
  }

  lemma DistinctPrefix(items: seq<Json>)
    requires items != []
    requires forall i :: 0 <= i < |items| ==> Readable(items[i])
    requires forall i, j :: 0 <= i < j < |items| ==> KeyOf(items[i]) != KeyOf(items[j])
    ensures var init := items[..|items| - 1];
      && (forall i :: 0 <= i < |init| ==> Readable(init[i]))
      && (forall i, j :: 0 <= i < j < |init| ==> KeyOf(init[i]) != KeyOf(init[j]))
  {
    var init := items[..|items| - 1];
    assert forall i :: 0 <= i < |init| ==> init[i] == items[i];
  }

  /** Each key holds the pose of the LAST element carrying it: a later
      duplicate overwrites an earlier one. */
  lemma {:induction false} CollectLastWins(items: seq<Json>)
    requires Collect(items).Success?
    ensures forall i :: 0 <= i < |items| ==> Readable(items[i])
    ensures forall i :: 0 <= i < |items| && (forall j :: i < j < |items| ==> KeyOf(items[j]) != KeyOf(items[i])) ==>
      KeyOf(items[i]) in Collect(items).value && Collect(items).value[KeyOf(items[i])] == FromJson(items[i]).value
    decreases |items|
  {
    CollectOutcome(items);
    if items != [] {
      var init := items[..|items| - 1];
      assert forall i :: 0 <= i < |init| ==> init[i] == items[i];
      CollectStep(items);
      CollectLastWins(init);
      var m := Collect(items).value;
      forall i | 0 <= i < |items| && (forall j :: i < j < |items| ==> KeyOf(items[j]) != KeyOf(items[i]))
        ensures KeyOf(items[i]) in m && m[KeyOf(items[i])] == FromJson(items[i]).value
      {
        if i < |init| {
          assert KeyOf(items[|items| - 1]) != KeyOf(items[i]);
          forall j | i < j < |init|
            ensures KeyOf(init[j]) != KeyOf(init[i])
          {
            assert KeyOf(items[j]) != KeyOf(items[i]);
          }
        }
      }
    }
  }

  /** One record of `writeExtrinsicsJson`: the name, `t` under `"t"` and `q`
      under `"r"`; the validity flag is not written. */
  function Record(name: string, e: Extrinsic): Json {
    PoseObject(e, map[FileNameKey := Str(name)])
  }

  /** The records carry exactly the name, `t` and `r` members. */
  lemma RecordFields(name: string, e: Extrinsic)
    ensures var j := Record(name, e);
      && j.Obj? && j.fields.Keys == {FileNameKey, "t", "r"}
      && "valid" !in j.fields
      && j.fields[FileNameKey] == Str(name)
      && j.fields["t"] == Numbers(e.t) && j.fields["r"] == Numbers(e.q)
  {
  }

  /** A record reads back as its name and its pose made valid. */
  lemma RecordReadsBack(name: string, e: Extrinsic)
    requires Shaped(e)
    ensures RecordKey(Record(name, e)) == Success(name)
    ensures FromJson(Record(name, e)) == Success(e.(valid := true))
  {
    FromJsonWithoutValid(e, map[FileNameKey := Str(name)]);
  }

  /** `order` lists every key of the map exactly once: the (unspecified)
      iteration order of the `unordered_map`. */
  predicate Enumerates(m: map<string, Extrinsic>, order: seq<string>) {
    && (forall key :: key in m ==> key in order)
    && (forall key :: key in order ==> key in m)
    && (forall i, j :: 0 <= i < j < |order| ==> order[i] != order[j])
  }

  function Records(m: map<string, Extrinsic>, order: seq<string>): (rs: seq<Json>)
    requires forall key :: key in order ==> key in m
    ensures |rs| == |order|
  {
    seq(|order|, i requires 0 <= i < |order| => Record(order[i], m[order[i]]))
  }

  /** `results.push_back(x)` on a value that is null or an array: null becomes
      the one-element array. */
  function PushBack(results: Json, x: Json): (r: Json)
    requires results.Null? || results.Arr?
  {
    if results.Null? then Arr([x]) else Arr(results.items + [x])
  }

  /** The value `writeExtrinsicsJson` dumps, as written: `results` starts as
      a default-constructed (null) value and grows by `push_back`, so an empty
      map is written as `null`. */
  function WrittenAsIs(m: map<string, Extrinsic>, order: seq<string>): (r: Json)
    requires forall key :: key in order ==> key in m
    ensures order == [] ==> r == Null
    ensures order != [] ==> r == Arr(Records(m, order))
    decreases |order|
  {
    if order == [] then Null
    else
      var init := order[..|order| - 1];
      var key := order[|order| - 1];
      var r := PushBack(WrittenAsIs(m, init), Record(key, m[key]));
      assert init == [] ==> Records(m, order) == [Record(key, m[key])];
      assert init != [] ==> Records(m, order) == Records(m, init) + [Record(key, m[key])];
      r
  }

  /** The dumped value with `results` started as an empty array. */
  function Written(m: map<string, Extrinsic>, order: seq<string>): (r: Json)
    requires Enumerates(m, order)
    ensures r.Arr? && |r.items| == |m| == |order|
    ensures forall i :: 0 <= i < |order| ==> r.items[i] == Record(order[i], m[order[i]])
  {
    EnumerationSize(m, order);
    Arr(Records(m, order))
  }

  lemma EnumerationSize(m: map<string, Extrinsic>, order: seq<string>)
    requires Enumerates(m, order)
    ensures |m| == |order|
  {
    var ks := set i | 0 <= i < |order| :: order[i];
    assert m.Keys == ks;
    DistinctCard(order);
  }

  lemma {:induction false} DistinctCard(order: seq<string>)
    requires forall i, j :: 0 <= i < j < |order| ==> order[i] != order[j]
    ensures |set i | 0 <= i < |order| :: order[i]| == |order|
    decreases |order|
  {
    if order != [] {
      var init := order[..|order| - 1];
      DistinctCard(init);
      var s0 := set i | 0 <= i < |init| :: init[i];
      var s := set i | 0 <= i < |order| :: order[i];
      assert s == s0 + {order[|order| - 1]};
      assert order[|order| - 1] !in s0;
    }
  }

  /** As written, a non-empty map is written as the corrected writer writes it ... */
  lemma WrittenAsIsNonEmpty(m: map<string, Extrinsic>, order: seq<string>)
    requires Enumerates(m, order) && order != []
    ensures WrittenAsIs(m, order) == Written(m, order)
  {
  }

  /** ... but the empty map is written as `null`, which reading rejects as
      not an array instead of yielding the empty map back. */
  lemma EmptyMapDoesNotReadBack()
    ensures Enumerates(map[], [])
    ensures WrittenAsIs(map[], []) == Null
    ensures ToHashMap(WrittenAsIs(map[], [])) == Failure(Runtime(NotAnArray))
    ensures ToHashMap(Written(map[], [])) == Success(map[])
  {
  }

  /** Every pose of the map made valid: what survives writing and reading. */
  function MadeValid(m: map<string, Extrinsic>): (r: map<string, Extrinsic>)
    ensures r.Keys == m.Keys
    ensures forall key :: key in r ==> r[key] == m[key].(valid := true)
  {
    map key | key in m :: m[key].(valid := true)
  }

  lemma {:induction false} CollectRecords(m: map<string, Extrinsic>, order: seq<string>)
    requires forall key :: key in order ==> key in m && Shaped(m[key])
    ensures Collect(Records(m, order)) == Success(map key | key in order :: m[key].(valid := true))
    decreases |order|
  {
    if order != [] {
      var init := order[..|order| - 1];
      var key := order[|order| - 1];
      assert Records(m, order)[..|order| - 1] == Records(m, init);
      CollectRecords(m, init);
      RecordReadsBack(key, m[key]);
      var m0 := map k | k in init :: m[k].(valid := true);
      assert m0[key := m[key].(valid := true)] == map k | k in order :: m[k].(valid := true) by {
        forall k | k in order
          ensures k in init || k == key
        {
          var i :| 0 <= i < |order| && order[i] == k;
          if i < |init| {
            assert init[i] == k;
          }
        }
      }
    }
  }

  /** Writing a map (results started as an array) and reading the value back
      yields the same keys, translations and rotations, with every pose valid:
      the validity flag does not survive the file. */
  lemma WriteReadRoundTrip(m: map<string, Extrinsic>, order: seq<string>)
    requires Enumerates(m, order)
    requires forall key :: key in m ==> Shaped(m[key])
    ensures ToHashMap(Written(m, order)) == Success(MadeValid(m))
  {
    CollectRecords(m, order);
    assert (map key | key in order :: m[key].(valid := true)) == MadeValid(m);
  }

  /** The position of the last occurrence of a character. */
  function LastIndex(s: string, c: char): (r: Option<nat>)
    ensures r.None? <==> c !in s
    ensures r.Some? ==> r.value < |s| && s[r.value] == c && forall i :: r.value < i < |s| ==> s[i] != c
  {
    LastBelow(s, c, |s|)
  }

  /** The position of the last occurrence of `c` among the first `n` characters. */
  function LastBelow(s: string, c: char, n: nat): (r: Option<nat>)
    requires n <= |s|
    ensures r.None? <==> forall i :: 0 <= i < n ==> s[i] != c
    ensures r.Some? ==> r.value < n && s[r.value] == c && forall i :: r.value < i < n ==> s[i] != c
    decreases n
  {
    if n == 0 then None
    else if s[n - 1] == c then Some(n - 1)
    else LastBelow(s, c, n - 1)
  }

  /** `path.filename()`: the text after the last separator. */
  function FileName(path: string): (r: string)
    ensures |r| <= |path| && r == path[|path| - |r|..]
    ensures '/' !in r
    ensures |r| < |path| ==> path[|path| - |r| - 1] == '/'
  {
    match LastIndex(path, '/')
    case None => path
    case Some(i) => path[i + 1..]
  }

  /** `path.extension()`: from the last period of the file name on, unless the
      name is `.` or `..` or its only period is its first character (a hidden
      file such as `.json` has no extension). */
  function Extension(path: string): (r: string)
    ensures r != [] ==> r[0] == '.' && |r| < |path| && r == path[|path| - |r|..] && '/' !in r
    ensures r != [] ==> forall i :: 0 < i < |r| ==> r[i] != '.'
  {
    var name := FileName(path);
    var r := NameExtension(name);
    ExtensionOfName(path, name, r);
    r
  }

  /** An extension of a file name that ends `path` and holds no separator
      is a suffix of `path` holding no separator either. */
  lemma ExtensionOfName(path: string, name: string, r: string)
    requires |name| <= |path| && name == path[|path| - |name|..] && '/' !in name
    requires r != [] ==> r[0] == '.' && |r| < |name| && r == name[|name| - |r|..]
    ensures r != [] ==> |r| < |path| && r == path[|path| - |r|..] && '/' !in r
  {
    if r != [] {
      assert path[|path| - |name|..][|name| - |r|..] == path[|path| - |r|..];
      assert forall k :: 0 <= k < |r| ==> r[k] == name[|name| - |r| + k];
    }
  }

  /** The extension of a file name: empty exactly for `..` and for names
      with no period after their first character, otherwise a period-led
      proper suffix of the name holding no other period. */
  function NameExtension(name: string): (r: string)
    ensures r == [] <==> name == ".." || forall i :: 0 < i < |name| ==> name[i] != '.'
    ensures r != [] ==> r[0] == '.' && |r| < |name| && r == name[|name| - |r|..]
    ensures r != [] ==> forall i :: 0 < i < |r| ==> r[i] != '.'
  {
    if name == "." || name == ".." then ""
    else
      match LastIndex(name, '.')
      case None => ""
      case Some(i) => if i == 0 then "" else name[i..]
  }

  /** `loadTrackingResults(filePath)`: the path must be present, name an
      existing file and have the extension `.json`; the file's content is then
      parsed (a parse error is a library failure) and read into a map. */
  function LoadTrackingResults(path: Option<string>, exists_: bool, content: Option<Json>)
    : (r: Result<map<string, Extrinsic>, Error>)
    ensures r == Failure(Runtime(NoJsonFile)) <==> path.None? || !exists_ || Extension(path.value) != ".json"
    ensures r.Success? ==> content.Some? && r == ToHashMap(content.value)
    ensures !(path.None? || !exists_ || Extension(path.value) != ".json") ==>
      r == if content.None? then Failure(JsonFailure) else ToHashMap(content.value)
  {
    if path.None? || !exists_ || Extension(path.value) != ".json" then Failure(Runtime(NoJsonFile))
    else
      match content
      case None => Failure(JsonFailure)
      case Some(j) =>
        assert ToHashMap(j) != Failure(Runtime(NoJsonFile)) by {
          if j.Arr? {
            CollectNoJsonFile(j.items);
          }
        }
        ToHashMap(j)
  }

  /** The loader reads back what the corrected writer wrote to a file
      `name.json`: the same keys with every pose made valid. */
  lemma LoadWrittenResults(dir: string, name: string, m: map<string, Extrinsic>, order: seq<string>)
    requires dir == [] || dir[|dir| - 1] == '/'
    requires name != [] && '/' !in name
    requires Enumerates(m, order)
    requires forall key :: key in m ==> Shaped(m[key])
    ensures LoadTrackingResults(Some(dir + name + ".json"), true, Some(Written(m, order))) == Success(MadeValid(m))
  {
    JsonExtension(dir, name);
    WriteReadRoundTrip(m, order);
  }

  lemma {:induction false} CollectNoJsonFile(items: seq<Json>)
    ensures Collect(items) != Failure(Runtime(NoJsonFile))
    decreases |items|
  {
    if items != [] {
      CollectNoJsonFile(items[..|items| - 1]);
    }
  }

  /** The last occurrence is fixed by its position alone. */
  lemma LastIndexIs(s: string, c: char, k: nat)
    requires k < |s| && s[k] == c
    requires forall i :: k < i < |s| ==> s[i] != c
    ensures LastIndex(s, c) == Some(k)
  {
    assert s[k] in s;
  }

  lemma LastIndexAppendAbsent(a: string, b: string, c: char)
    requires c !in b
    ensures LastIndex(a + b, c) == LastIndex(a, c)
  {
    var s := a + b;
    forall i | |a| <= i < |s|
      ensures s[i] != c
    {
      assert s[i] == b[i - |a|];
    }
    match LastIndex(a, c)
    case None =>
      forall i | 0 <= i < |s|
        ensures s[i] != c
      {
        if i < |a| {
          assert s[i] == a[i];
        }
      }
    case Some(k) =>
      assert s[k] == a[k];
      LastIndexIs(s, c, k);
  }

  /** The file name of a path whose last separator ends `dir`. */
  lemma FileNameAfter(dir: string, file: string)
    requires dir == [] || dir[|dir| - 1] == '/'
    requires '/' !in file
    ensures FileName(dir + file) == file
  {
    LastIndexAppendAbsent(dir, file, '/');
    if dir != [] {
      LastIndexIs(dir, '/', |dir| - 1);
      assert (dir + file)[|dir|..] == file;
    }
  }

  /** The last period of `name.json` is the one before `json`. */
  lemma LastPeriod(name: string)
    ensures LastIndex(name + ".json", '.') == Some(|name|)
  {
    var s := name + ".json";
    forall i | |name| < i < |s|
      ensures s[i] != '.'
    {
      assert s[i] == ".json"[i - |name|];
    }
    LastIndexIs(s, '.', |name|);
  }

  /** A file `name.json` (name non-empty, in any directory) has the extension
      `.json` ... */
  lemma JsonExtension(dir: string, name: string)
    requires dir == [] || dir[|dir| - 1] == '/'
    requires name != [] && '/' !in name
    ensures Extension(dir + name + ".json") == ".json"
  {
    assert '/' !in ".json";
    assert '/' !in name + ".json";
    assert dir + name + ".json" == dir + (name + ".json");
    FileNameAfter(dir, name + ".json");
    NameJsonExtension(name);
  }

  lemma NameJsonExtension(name: string)
    requires name != []
    ensures NameExtension(name + ".json") == ".json"
  {
    var file := name + ".json";
    assert |file| >= 6;
    assert file != "." && file != "..";
    LastPeriod(name);
    assert file[|name|..] == ".json";
  }

  /** ... while the hidden file `.json` has none, so it is refused. */
  lemma HiddenJsonRefused(dir: string, content: Option<Json>)
    requires dir == [] || dir[|dir| - 1] == '/'
    ensures Extension(dir + ".json") == ""
    ensures LoadTrackingResults(Some(dir + ".json"), true, content) == Failure(Runtime(NoJsonFile))
  {
    assert '/' !in ".json";
    FileNameAfter(dir, ".json");
    LastPeriod("");
    assert "" + ".json" == ".json";
  }
}

=== FILE: wrappers.dfy ===
/** Failure-compatible wrappers shared by every module of the model. */
module Wrappers {

  /** An optional value: the model's stand-in for a null pointer or an absent key. */
  datatype Option<+T> = None | Some(value: T) {
    predicate IsFailure() { None? }

    function PropagateFailure<U>(): Option<U>
      requires None?
    {
      None
    }

    function Extract(): T
      requires Some?
    {
      value
    }

    /** The value, or `default` for `None`. */
    function GetOr(default: T): T {
      match this
      case Some(v) => v
      case None => default
    }
  }

  /** The outcome of an operation that may throw: a value or the exception it raised. */
  datatype Result<+T, +E> = Success(value: T) | Failure(error: E) {
    predicate IsFailure() { Failure? }

    function PropagateFailure<U>(): Result<U, E>
      requires Failure?
    {
      Failure(error)
    }

    function Extract(): T
      requires Success?
    {
      value
    }
  }
}
